=== FILE: README.md ===
# Droplink background engine in Dafny

Droplink is a Chrome extension. It subscribes to a Gotify push stream, opens
the URLs that push messages carry, and replays the messages it missed while
offline. This project models the extension's background engine as immutable
datatypes and pure functions, and proves properties of that model. The engine
covers:

- **the processed-id ledger** (`History`): a deduplicated, strictly descending
  list of at most 1000 message ids, plus a set-once install time;
- **the backlog reconciler** (`HistorySync`). Its filter pipeline is install
  time, then ledger, then directive shape, then newest first, then a cap. It
  then replays the selection in order as a trace of route and pause events,
  and updates the ledger once;
- **the push client** (`GotifyClient`): an event-driven state machine with
  exponential reconnect backoff and a manual-disconnect flag. The connection
  manager (`ConnectionManager`) mirrors the client's status into the
  `StatusInfo` it reports. Clients it has dropped keep their sockets and its
  status listener, so their late events are modelled too;
- **the message router and the open-tab handler** (`Router`, `OpenTab`): a
  registry keyed by label that broadcasts every message to every handler and
  isolates each handler's failures;
- **validators and configuration normalisation** (`Validators`, `ConfigStore`);
- **the REST catch-up client** (`RestClient`): limit clamping, the request
  URL, response checks and the mapping from HTTP status to error text;
- **the control-surface dispatcher** (`RuntimeHandler`): requests from the
  popup and the settings page, with a response for each;
- **the older notification filter and directive check** (`NotificationFilter`,
  `LegacyMessage`);
- **translation helpers with placeholder substitution** (`I18n`).

Shared foundations:

- `Text` holds JavaScript string operations: trim, `startsWith`, `includes`,
  ASCII lower-casing, split and join.
- `Seqs` holds sorting, filtering and deduplication, each with its own
  reference properties.
- `Js` is the untyped JSON value the older directive check inspects.
- `Types` holds the extension's records. `Config` carries the optional
  history-sync fields (`enableHistorySync`, `fetchHistoryLimit`, `maxOpenTabs`,
  `batchOpenInterval`, `showBatchNotification`). The reconciler reads them,
  although the declared type omits them.
- `DroplinkMessage` has optional fields for both directive shapes. The newer
  shape is `content`/`actions`; the older one is `action`/`url`/`options`.

Browser facilities are parameters of the operations that use them:

- storage reads: `readOk`, `SyncRead`;
- storage writes: `writeError`;
- the WHATWG URL parser: `UrlParser`;
- socket creation: `Env.socketAccepts`;
- `fetch`: `FetchOutcome`;
- `chrome.tabs.create`: `TabPort`;
- `chrome.i18n.getMessage`: `Lookup`;
- the clock: `now`.

Asynchronous callbacks are events. The push client receives socket open,
frame, error and close events, and reconnect timer expiry. The reconciler's
replay yields a trace of `Routed`/`Slept` events. Notable behaviours of the
code:

- The client has no single-flight guard on `connect` and no keepalive. Its
  `connect` resolves as soon as the socket object exists and never rejects,
  and opening the stream does not start a history sync. The RECONNECTING state
  is declared but never entered.
- So the control surface's `testConnection` answers success for every
  configuration that passes validation, reachable or not
  (`RuntimeHandler.TestConnection`).
- Nothing in the background constructs the reconciler: src/background.ts
  only disconnects and connects the manager, and an open stream starts no
  sync. The reconciler is modelled on its own. Were it run with the
  configuration `getConfig` returns, it would never fetch, because `getConfig`
  rebuilds only four fields and drops `enableHistorySync`
  (`HistorySync.SyncThroughStoreNeverFetches`).
- The router catches every handler error, so a replayed route never fails in
  the running extension (`HistorySync.AllRoutesResolve`). The replay loop is
  still modelled over an arbitrary `routeOk`, so its failure branch is
  covered too.
- The reconciler admits directives of the newer `content`/`actions` shape.
  The only registered handler acts only on the older `droplink.action` shape,
  and opens whatever `droplink.url` says (`Router.BackgroundRouterOpensTab`,
  `OpenTab.HandleDoesNotValidate`).

## Model

| member | source | states |
|---|---|---|
| History.GetInstallTime | src/core/storage/history.ts:22-31 | an install time is reported exactly when one is stored and the read succeeds; a failed read reports none |
| History.SetInstallTime | src/core/storage/history.ts:37-54 | set-once: a readable stored time is never overwritten; when none is readable and the write succeeds, exactly the given time is stored and nothing else changes; the call fails exactly when nothing was readable and the write rejects; the ledger key is untouched |
| History.GetProcessedIds | src/core/storage/history.ts:60-78 | a readable stored list is returned as stored; a missing record, a missing id list or a failed read all give the empty list |
| History.InstallTimeRoundTrip | src/core/storage/history.ts:22-54 | after a successful `setInstallTime`, a readable `getInstallTime` reports the time already stored, or else the one just written |
| History.ProcessedIdsRoundTrip | src/core/storage/history.ts:60-120 | after a successful mark, a readable `getProcessedIds` returns the merged list; with room in the ledger, every id just marked reads as processed |
| History.IsProcessed | src/core/storage/history.ts:128-130 | exactly membership in the list |
| History.Merge | src/core/storage/history.ts:92-101 | the merged list is the top-1000 listing of the union of old and new ids: strictly descending, duplicate-free, and keeping the largest ids when there are too many |
| History.TopHeadIsMax | src/core/storage/history.ts:98-101 | the head of the stored list is the largest id the ledger has seen |
| History.TopUnique | src/core/storage/history.ts:98-101 | the top listing of a set is unique, so the stored list is determined by the set of ids seen |
| History.TopTail | src/core/storage/history.ts:98-101 | dropping the newest id leaves the top listing of the remaining ids, one shorter |
| History.TopKeepsAll | src/core/storage/history.ts:8 | while at most 1000 distinct ids have been seen, none is evicted |
| History.TopRestricted | src/core/storage/history.ts:92-101 | a top listing stays the top listing of any smaller set that still contains it |
| History.MarkAsProcessed | src/core/storage/history.ts:85-120 | an empty id list returns without touching storage; otherwise the write's rejection is rethrown, and on success the stored list is the top listing of the old ids plus the new ones, stamped with the time |
| History.MarkAsProcessedIdempotent | src/core/storage/history.ts:92-110 | marking the same ids twice stores the same id list as marking them once; only the sync time differs |
| History.GetHistoryStats | src/core/storage/history.ts:148-172 | the count is the length of the readable list; an empty or unreadable ledger gives count 0 and nothing else; otherwise newest and oldest are the list's first and last ids |
| History.StatsAfterMark | src/core/storage/history.ts:162-168 | after a successful mark, the newest id the stats report is the largest id ever marked |
| Seqs.SortDesc | src/background/history-sync-manager.ts:167-169 | the result is sorted by descending key and is a permutation of the input |
| Seqs.SortDescStable | src/background/history-sync-manager.ts:167-169 | elements with equal keys keep their input order |
| Seqs.Dedup | src/core/storage/history.ts:98 | the result is duplicate-free and has the same elements as the input |
| HistorySync.SinceInstall | src/background/history-sync-manager.ts:106-126 | with an install time, only messages dated at or after it survive; without one, nothing is dropped |
| HistorySync.Candidates | src/background/history-sync-manager.ts:101-159 | a message is a candidate exactly when it is in the response, dated since install, absent from the ledger, and carries a URL directive with an open-tab action |
| HistorySync.Select | src/background/history-sync-manager.ts:101-180 | the selection is a sub-multiset of the candidates and the first of them in the stable newest-first order; every selected message is an eligible message of the response; it holds at most `maxOpenTabs` (default 10) messages |
| HistorySync.SelectIsNewest | src/background/history-sync-manager.ts:167-173 | an eligible message left out is no newer than any selected one, and it was left out only because the cap is full |
| HistorySync.SelectKeepsAllUnderCap | src/background/history-sync-manager.ts:172-173 | with no more candidates than the cap, every candidate is selected |
| HistorySync.SelectIsStable | src/background/history-sync-manager.ts:167-173 | the selected messages of any one date are the first candidates of that date, in response order |
| HistorySync.ProcessBatch | src/background/history-sync-manager.ts:187-221 | the loop produces exactly the reference replay trace and counts the resolved routes |
| HistorySync.ReplayRoutesEach | src/background/history-sync-manager.ts:191-221 | each selected message is routed exactly once and in order, whichever routes fail |
| HistorySync.ReplayPauses | src/background/history-sync-manager.ts:191-221 | a pause follows each resolved route except the last message's; a failed route skips its pause and the loop goes on |
| HistorySync.AllRoutesResolve | src/background/history-sync-manager.ts:191-221 | with a router that never rejects, every route counts and there is one pause fewer than messages |
| HistorySync.BatchTrace | src/background/history-sync-manager.ts:187-234 | a batch routes exactly the selected ids; the completion notice adds no route |
| HistorySync.Record | src/background/history-sync-manager.ts:77-89 | a successful ledger write records the selected ids; a rejected one is reported as the sync-failure notice and the ledger is left as it was |
| HistorySync.AfterFetch | src/background/history-sync-manager.ts:64-92 | an empty selection does nothing; otherwise exactly the selected ids are routed and then all of them are marked in one call, failed routes included |
| HistorySync.Sync | src/background/history-sync-manager.ts:27-93 | a sync already in flight returns at once; the flag is cleared on every other path; a falsy `enableHistorySync` returns before fetching; a failed fetch is reported, not rethrown |
| HistorySync.SyncRoutes | src/background/history-sync-manager.ts:27-93 | a whole sync routes exactly the ids of the selection from the fetched messages, and none when the fetch fails |
| HistorySync.SyncThroughStoreNeverFetches | src/background/history-sync-manager.ts:46-49 | with the configuration `getConfig` returns, the history-sync flag is unset, so the sync ends without fetching, routing or writing |
| HistorySync.SelectionSkipsProcessed | src/background/history-sync-manager.ts:133 | the selection never holds a message whose id is in the ledger |
| HistorySync.SecondSyncSkips | src/background/history-sync-manager.ts:129-133 | no id already in the ledger is ever routed |
| HistorySync.NoIdReplayedTwice | src/background/history-sync-manager.ts:129-133 | while the ledger has room, an id routed by one sync is never routed by a later sync |
| GotifyClient.ReconnectDelay | src/core/gotify/client.ts:175-180 | the delay is 1000·2ⁿ ms for n ≤ 5 attempts and the 60000 ms cap from 6 on; it is always a whole number of seconds |
| GotifyClient.ReconnectDelayMonotone | src/core/gotify/client.ts:175-180 | the backoff never shrinks as failures accumulate |
| GotifyClient.StreamPath | src/core/gotify/client.ts:199-208 | the server's path followed by `stream` when it ends in `/`, and by `/stream` otherwise |
| GotifyClient.BuildWebSocketUrl | src/core/gotify/client.ts:199-208 | a URL exists exactly when the server URL parses; it is the socket scheme, host and stream path, followed by `?token=` and the token |
| GotifyClient.SetStatus | src/core/gotify/client.ts:213-227 | listeners hear a status only when it changes, each in registration order, whether or not earlier ones throw |
| GotifyClient.Disconnect | src/core/gotify/client.ts:62-80 | sets the manual flag, clears the reconnect timer, closes and drops the socket, goes DISCONNECTED and resets the counter; the configuration is kept |
| GotifyClient.ScheduleReconnect | src/core/gotify/client.ts:168-194 | nothing happens after a manual disconnect or without a configuration; otherwise a timer is armed for the backoff delay and the counter incremented |
| GotifyClient.ConnectFailed | src/core/gotify/client.ts:52-56 | a failed connect reports ERROR and, once a configuration is stored and the client was not disconnected by hand, counts one more attempt and arms a new timer |
| GotifyClient.Connect | src/core/gotify/client.ts:28-57 | tears down any current socket first, and the teardown's effects (old timer cleared, old socket closed, DISCONNECTED) come before everything else; the teardown resets the attempt count and disarms the old timer; clears the manual flag and stores the configuration; then either CONNECTING with a fresh socket on the stream URL opened last, or ERROR with one more attempt counted and a new retry timer armed |
| GotifyClient.OpenSocket | src/core/gotify/client.ts:37-56 | with no old socket left: CONNECTING and a new socket when the URL builds and the socket constructor accepts it, the attempt count and timers untouched; otherwise ERROR, one more attempt and a new timer |
| GotifyClient.HandleOpen | src/core/gotify/client.ts:113-117 | an open socket makes the client CONNECTED and resets the backoff counter |
| GotifyClient.HandleMessage | src/core/gotify/client.ts:122-138 | an unparseable frame is dropped; a message reaches every message listener in order, whichever of them throw; the client state is unchanged |
| GotifyClient.Step | src/core/gotify/client.ts:143-190 | a socket error sets ERROR and nothing else; a frame leaves the state alone; a close forgets its socket and runs the close handler, which as written always drops the socket reference; a timer that fires is disarmed and calls `connect` with the stored configuration, or does nothing without one |
| GotifyClient.HandleCloseAsWritten | src/core/gotify/client.ts:151-163 | the socket reference is dropped for any close; without a manual disconnect the client goes DISCONNECTED and, with a configuration, arms a retry |
| GotifyClient.HandleCloseCorrected | src/core/gotify/client.ts:151-163 | a close of a socket other than the current one changes nothing; a close of the current one behaves as written |
| GotifyClient.DisconnectInv | src/core/gotify/client.ts:62-80 | disconnecting keeps the socket bookkeeping sound |
| GotifyClient.ConnectInv | src/core/gotify/client.ts:28-57 | connecting keeps the socket bookkeeping sound: the only open socket the client has not closed is the one it references |
| GotifyClient.StepCorrectedInv | src/core/gotify/client.ts:151-163 | with the guarded close handler, every event the environment can deliver keeps the bookkeeping sound |
| GotifyClient.RunCorrectedInv | src/core/gotify/client.ts:151-163 | with the guarded close handler, the bookkeeping stays sound over any sequence of deliverable events |
| GotifyClient.StaleCloseOrphansSocket | src/core/gotify/client.ts:151-163 | as written: connect, connect, then the first socket's close leaves the second socket open but unreferenced, the client DISCONNECTED and a retry armed |
| GotifyClient.StaleCloseIgnoredWhenCorrected | src/core/gotify/client.ts:151-163 | with the guard, the same events leave the second socket current and the client CONNECTING |
| ConnectionManager.ApplyStatus | src/background/connection-manager.ts:39-47 | the status always mirrors the reported one; CONNECTED stamps the time and clears the error; ERROR records "连接失败"; other states leave both alone |
| ConnectionManager.ListenStatus | src/background/connection-manager.ts:39-47 | after a run of client calls, the reported status is the last one delivered, or the previous one when none was; when the last was CONNECTED the connection time is stamped and the error cleared, when it was ERROR the error is recorded; `configValid` is never touched |
| ConnectionManager.StepReports | src/core/gotify/client.ts:213-227 | with the manager as its only status listener, every client transition, with either close handler, delivers the status the client ends in as its last status notice |
| ConnectionManager.Connect | src/background/connection-manager.ts:23-51 | the previous client is disconnected and retired, its calls made before those of the new client; the new client is exactly a fresh client with the manager's two listeners connected with the given configuration; the reported status is the new client's; `configValid` is kept |
| ConnectionManager.Disconnect | src/background/connection-manager.ts:56-63 | the client is disconnected and retired and the status is DISCONNECTED; the error, last connection time and `configValid` are unchanged |
| ConnectionManager.ClientEvent | src/background/connection-manager.ts:39-47 | without a client nothing happens; otherwise the client takes the step its handlers as written take, and the reported status becomes the last status it delivered; a step that delivers no status leaves the whole status record alone, a last CONNECTED stamps the time and clears the error, a last ERROR records the error; `configValid` and the retired clients are untouched |
| ConnectionManager.RetiredEventAsWritten | src/background/connection-manager.ts:39-47 | an event of a retired client steps that client, and the listener still registered on it overwrites the reported status with the last status it delivered |
| ConnectionManager.RetiredEvent | src/background/connection-manager.ts:39-47 | with the guarded listener, an event of a retired client steps only that client; the held client and the reported `StatusInfo` are untouched |
| ConnectionManager.RetiredErrorReported | src/core/gotify/client.ts:143-146 | after dropping a client whose socket is open, that socket's error event leaves the manager with no client yet reporting ERROR and "连接失败", breaking the mirror |
| ConnectionManager.UpdateConfigValidity | src/background/connection-manager.ts:75-77 | only `configValid` changes |
| ConnectionManager.IsConnected | src/background/connection-manager.ts:82-84 | false without a client; otherwise true exactly when the client is CONNECTED |
| ConnectionManager.IsConnectedAgreesWithStatus | src/background/connection-manager.ts:68-84 | under the mirror invariant, `isConnected` holds exactly when the reported status is CONNECTED |
| ConnectionManager.ConnectMirrors | src/background/connection-manager.ts:23-51 | after connecting, whatever the manager's state before, the reported status equals the new client's own |
| ConnectionManager.DisconnectMirrors | src/background/connection-manager.ts:56-63 | after disconnecting, whatever the state before, there is no client and the reported status is DISCONNECTED |
| ConnectionManager.ClientEventMirrors | src/background/connection-manager.ts:39-47 | every event of the held client keeps the reported status equal to the client's own |
| ConnectionManager.RetiredEventMirrors | src/background/connection-manager.ts:39-47 | with the guarded listener, a retired client's events keep the mirror |
| ConnectionManager.FreshConnectManaged | src/background/connection-manager.ts:36-50 | a freshly created and connected client has no closing socket, its one open socket is the current one, and a timer is armed only without a socket |
| ConnectionManager.ManagedStep | src/core/gotify/client.ts:151-163 | for such a client, the close handler as written and the guarded one agree on every socket or timer event, and the bookkeeping is kept |
| ConnectionManager.ConnectHeld | src/background/connection-manager.ts:23-51 | after connecting, the held client has that bookkeeping |
| ConnectionManager.DisconnectHeld | src/background/connection-manager.ts:56-63 | after disconnecting, no client is held |
| ConnectionManager.ClientEventHeld | src/background/connection-manager.ts:39-47 | a socket or timer event keeps the held client's bookkeeping, and the manager steps it exactly as the guarded close handler would |
| ConnectionManager.UpdateConfigValidityMirrors | src/background/connection-manager.ts:75-77 | changing the validity flag keeps the mirror |
| Validators.IsValidUrlCharacterised | src/shared/utils/validators.ts:10-17 | a URL is valid exactly when it is non-empty and, after leading whitespace, starts with `http://` or `https://` (case-sensitive) |
| Validators.TrimmedStartsWith | src/shared/utils/validators.ts:15-16 | the trimmed text starts with a scheme exactly when the original is whitespace followed by that scheme |
| Validators.TokenValidityCharacterised | src/shared/utils/validators.ts:41-58 | a token is valid exactly when its trimmed form has at least 10 characters, all from [A-Za-z0-9._-], and not all the same character |
| Validators.RepeatedTokenRejected | src/shared/utils/validators.ts:54-55 | a token whose trimmed form is one character repeated throughout is rejected, however long and well-formed it is |
| Validators.TokenPaddingIgnored | src/shared/utils/validators.ts:44-51 | whitespace added around a token (whose own ends are not whitespace) never changes whether it is accepted |
| Validators.ChromeOwnershipCharacterised | src/shared/utils/validators.ts:65-71 | a missing or blank owner is Chrome; otherwise it is Chrome exactly when the trimmed, lower-cased owner is "chrome" |
| Validators.MixedCaseChromeOwner | src/shared/utils/validators.ts:68-70 | any letter-case spelling of "chrome", with any whitespace around it, belongs to Chrome |
| Validators.ForeignOwnerRejected | src/shared/utils/validators.ts:65-71 | a non-blank tag that is no letter-case spelling of "chrome", with any whitespace around it, does not belong to Chrome |
| Validators.BlankOwnerIsChrome | src/shared/utils/validators.ts:68-69 | every empty or whitespace-only owner belongs to Chrome |
| Validators.DroplinkUrlScheme | src/shared/utils/validators.ts:90-97 | the content is a valid URL exactly when its type is "url" and its value is a string starting, untrimmed, with an HTTP(S) scheme; the non-blank test is then implied |
| Validators.HasOpenTabActionCharacterised | src/shared/utils/validators.ts:104-108 | true exactly when the list exists and some action has type "openTab" and an owner that is Chrome |
| ConfigStore.GetConfig | src/core/storage/index.ts:16-37 | defaults when nothing is stored or the read fails; otherwise exactly four fields: the strings fall back when falsy, the flags when missing; the history-sync fields never survive |
| ConfigStore.GetConfigAfterStore | src/core/storage/index.ts:25-32 | saving a configuration and reading it back keeps its four declared fields and drops the rest |
| ConfigStore.GetConfigIdempotent | src/core/storage/index.ts:16-37 | storing what was read and reading again changes nothing |
| ConfigStore.ValidConfigWasStored | src/core/storage/index.ts:21-23 | the defaults are never a valid configuration, so a valid one was stored by the user |
| ConfigStore.ValidateUrl | src/core/storage/index.ts:64-74 | blank input gives "URL 不能为空"; otherwise the URL is valid exactly when it is a valid server URL, with the format error text otherwise |
| ConfigStore.ValidateToken | src/core/storage/index.ts:79-92 | blank input gives "Token 不能为空"; validity is exactly `isValidToken`, with the length error text otherwise |
| ConfigStore.ValidatorsAgreeWithConfig | src/core/storage/index.ts:57-59 | both field validators pass exactly when the whole configuration is valid |
| ConfigStore.ConfigChanged | src/core/storage/index.ts:97-113 | the callback runs exactly for the sync area, the configuration key and a present new value; a missing old value becomes the defaults |
| ConfigStore.ConfigChangedIgnoresOtherKeys | src/core/storage/index.ts:100-101 | changes under other keys never affect the callback |
| RestClient.ClampLimit | src/core/gotify/rest-client.ts:37 | the limit lies within 1..200, equals the request exactly when that is in range, and is clamped to the nearer bound otherwise |
| RestClient.HttpErrorMessage | src/core/gotify/rest-client.ts:82-112 | 401/403 give the token message, 404 the address message, 500/502/503/504 the server message; other statuses use the body's `error`, else its `message`, else "HTTP status: text" |
| RestClient.GetMessages | src/core/gotify/rest-client.ts:27-75 | an empty URL or token is rejected before any request; a request carries the clamped limit and the token; a result exists exactly for an OK response whose body holds a message array, which is returned as is |
| RestClient.Receive | src/core/gotify/rest-client.ts:46-66 | a response is accepted exactly when its status is OK and its parsed body holds a message array |
| RestClient.HttpErrorMessageSource | src/core/gotify/rest-client.ts:82-112 | every error text for a failed response is a fixed text, the body's `error` or `message`, or the status line |
| RestClient.GetMessagesReceives | src/core/gotify/rest-client.ts:27-75 | once a request is issued the result is what the response handling makes of the answer; the result does not depend on the limit; an accepted result came from a request carrying the clamped limit and the token |
| RestClient.TestConnection | src/core/gotify/rest-client.ts:119-128 | the test succeeds exactly when fetching one message does |
| OpenTab.ValidateImpliesValidUrl | src/core/messaging/handlers/openTab.ts:16-24 | a URL that `validate` accepts also passes the general URL check |
| OpenTab.Handle | src/core/messaging/handlers/openTab.ts:26-57 | a non-open-tab directive does nothing; otherwise the tab is created (activate defaults to true); a notice is shown only with `openTabNotification` on; a failed creation is rethrown |
| OpenTab.HandleDoesNotValidate | src/core/messaging/handlers/openTab.ts:26-41 | `handle` opens a tab for a URL that `validate` rejects |
| Router.Put | src/core/messaging/router.ts:17-20 | the registry keeps one entry per label, in first-registration order; a new label is appended |
| Router.Register | src/core/messaging/router.ts:17-20 | registration keeps labels unique and leaves the configuration alone |
| Router.RegisterReplaces | src/core/messaging/router.ts:17-20 | re-registering a label replaces the earlier handler in its place |
| Router.SetConfig | src/core/messaging/router.ts:25-27 | only the configuration changes |
| Router.Route | src/core/messaging/router.ts:32-56 | without a configuration no handler runs; otherwise every registered handler is called exactly once, in registration order |
| Router.BroadcastCalls | src/core/messaging/router.ts:45-52 | the handlers called are exactly the registry's labels, in order, whatever they do |
| Router.BroadcastSplits | src/core/messaging/router.ts:45-55 | a broadcast is the broadcast over any prefix followed by the broadcast over the rest, so a failing handler does not affect the later ones |
| Router.RouteUsesLatestConfig | src/core/messaging/router.ts:25-42 | handlers see the configuration most recently set |
| Router.BackgroundRouterOpensTab | src/core/messaging/router.ts:45-52 | the background's router opens the tab of any older-shape open-tab directive without validating its URL |
| RuntimeHandler.Handle | src/background/runtime-message-handler.ts:18-43 | unknown types fail with "未知消息类型"; success holds exactly when there is no error; only reconnect and disconnect touch the manager; a test without data fails with the TypeError text |
| RuntimeHandler.SaveConfigIsUnknown | src/background/runtime-message-handler.ts:20-37 | "saveConfig" is answered as an unknown type |
| RuntimeHandler.TestConnection | src/background/runtime-message-handler.ts:72-91 | an invalid configuration fails with "配置无效" and creates nothing; a valid one succeeds; the manager is never touched |
| RuntimeHandler.TestClientRun | src/background/runtime-message-handler.ts:79-90 | the test client ends disconnected by hand, with no socket referenced, every socket it opened closed by itself and no timer left |
| RuntimeHandler.Reconnect | src/background/runtime-message-handler.ts:96-123 | an invalid stored configuration fails and leaves the connection alone; a valid one closes the old socket and connects anew, and always succeeds |
| RuntimeHandler.HandleMirrors | src/background/runtime-message-handler.ts:18-43 | every request keeps the reported status mirroring the client |
| NotificationFilter.SomeKeyword | lib/handlers/notification-handler.ts:104-108 | true exactly when some lower-cased keyword occurs in the text |
| NotificationFilter.MatchesRule | lib/handlers/notification-handler.ts:97-119 | a rule without keywords matches everything; include matches when some keyword occurs, exclude when none does; an unknown type never matches |
| NotificationFilter.AnyRuleMatches | lib/handlers/notification-handler.ts:83-89 | true exactly when some rule matches |
| NotificationFilter.ShouldShow | lib/handlers/notification-handler.ts:57-92 | disabled filters show everything; `filterOpenTab` hides open-tab directives; no rules shows everything; otherwise shown exactly when a rule matches "title message" |
| NotificationFilter.Handle | lib/handlers/notification-handler.ts:20-52 | a missing `features` throws; the feature flag off suppresses; otherwise shown exactly when the filters allow, with the title defaulting to "通知" |
| NotificationFilter.IncludeExcludeComplement | lib/handlers/notification-handler.ts:103-114 | include and exclude rules over the same keywords disagree on every text |
| NotificationFilter.AddRuleNeverHides | lib/handlers/notification-handler.ts:82-91 | rules are alternatives: adding a rule never hides a shown message |
| NotificationFilter.KeywordCaseIgnored | lib/handlers/notification-handler.ts:104-108 | keyword letter case does not affect matching |
| NotificationFilter.MessageCaseIgnored | lib/handlers/notification-handler.ts:81 | message letter case does not affect whether it is shown |
| LegacyMessage.IsDroplinkMessage | lib/message-handler.ts:13-64 | rejects a non-object, a missing or non-object droplink, an action other than "openTab" and a non-string URL; accepts exactly an object whose directive has those and an HTTP(S) URL |
| LegacyMessage.ExtractDroplinkData | lib/message-handler.ts:111-119 | null exactly when the structural check rejects; otherwise the directive, with its action and web URL |
| LegacyMessage.Activate | lib/message-handler.ts:85 | a missing `options` or `activate` defaults to true; a present one is passed on as found |
| LegacyMessage.HandleMessage | lib/message-handler.ts:70-104 | a rejected message is ignored; otherwise the tab is opened and a failure shows "无法打开链接" with the URL, never rethrown |
| LegacyMessage.AgreesWithValidate | lib/message-handler.ts:13-64 | on object messages the structural check agrees with the open-tab handler's `validate` applied to the typed reading |
| LegacyMessage.EncodeRoundTrip | lib/message-handler.ts:111-119 | a sender's directive is accepted exactly when its URL is a web URL; then it is extracted and read back unchanged and opens that URL |
| I18n.Translate | src/shared/utils/i18n.ts:103-106 | the translation if non-empty, else the fallback if non-empty, else the key |
| I18n.TranslateWith | src/shared/utils/i18n.ts:122-143 | without a translation it answers as `t` with no substitution; otherwise it applies the entries in order; no entries gives `t`'s answer |
| I18n.ApplyAppend | src/shared/utils/i18n.ts:137-140 | substituting a list of entries is substituting a prefix of it, then the rest on that result |
| I18n.ReplacesEveryOccurrence | src/shared/utils/i18n.ts:137-140 | one entry replaces every occurrence of its marker and nothing else |
| I18n.UnusedEntry | src/shared/utils/i18n.ts:137-140 | an entry whose marker does not occur leaves the text unchanged |
| I18n.SelfEntry | src/shared/utils/i18n.ts:137-140 | substituting a marker by itself leaves the text unchanged |
| I18n.TranslateOneMarker | src/shared/utils/i18n.ts:114-143 | a translation holding one marker, as in the documented "Hello {name}!", reads with the marker replaced by the value and the rest untouched, whatever the fallback |
| I18n.SingleMarker | src/shared/utils/i18n.ts:137-140 | a text with one marker and no brace before it reads with the marker replaced by the value and the rest untouched |
| I18n.EntryOrderMatters | src/shared/utils/i18n.ts:137-140 | each entry acts on the text the earlier ones produced, so entry order changes the result |
| Text.SplitJoinRoundTrip | src/shared/utils/i18n.ts:138-139 | joining the split pieces with the separator gives back the text |

## Left out

- Browser I/O is not modelled; success or failure of each call is a parameter. This covers `chrome.storage`, `chrome.tabs`, `chrome.notifications`, `fetch`, `WebSocket` and `chrome.i18n`.
- Timers and `sleep` are not modelled. The replay trace has `Slept` events; the reconnect timer is a `TimerSet` effect whose expiry is an event.
- The 10-second fetch timeout is not modelled; it is the `TimedOut` fetch outcome.
- Concurrent interleavings are not modelled. Each ledger read-modify-write and each sync runs as one step, and every local-storage read within one operation shares one `readOk`.
- WHATWG URL parsing and the socket constructor are parameters (`UrlParser`, `Env.socketAccepts`), because their behaviour is browser code.
- `JSON.parse` of frames and responses is not modelled; a frame arrives already parsed, or `None` when it does not parse.
- Dates are not modelled as ISO-8601 text. They are integer timestamps; an invalid date (NaN) is not modelled.
- `clearHistory` is not modelled. It is a single storage removal kept for tests; its effect is the `LocalArea` with no history record.
- `ConnectionManager.getStatus` has no member of its own. It returns a copy, and datatypes are values, so the control surface's `getStatus` returning `info` is the whole behaviour (`RuntimeHandler.Handle`).
- `GotifyClient`: socket and timer ids are per client, so the events of a retired client name that client's own sockets and timers.
- `ConnectionManager.IsConnectedAgreesWithStatus`: rests on the mirror invariant, which the manager keeps only with the retired-client guard of "## Findings"; as written, a retired client's error breaks it (`ConnectionManager.RetiredErrorReported`).
- `RuntimeHandler.HandleMirrors`: the requests keep the mirror, but as written a retired client's later error event can still break it, as under "## Findings".
- `HistorySync.Candidates`: a truthy `actions` that is not an array would throw in the source. `actions` is a typed list here, so that error path is not modelled.
- `NotificationFilter.Handle`: the time suffix on the title (`toLocaleTimeString`) and the verification-code prefix (`extractCode` regexes) are not modelled. The outcome records the title and body before they are decorated.
- `NotificationFilter.Handle`: lib/storage.ts is not part of this model. Its `getConfig` (lib/storage.ts:21-39) rebuilds only `gotifyUrl`, `clientToken` and `enabled` and has no `features` default, so the handler as wired always takes the `Threw` branch.
- `Text.Lower`: lower-cases ASCII letters only, because full Unicode case mapping is not modelled.
- `I18n.TranslateWith`: placeholders are given as an entry sequence. JavaScript's ordering of `Object.entries` (integer-like keys first) is not modelled.
- `LegacyMessage.IsDroplinkMessage`: its `catch` branch is not modelled, because property reads on JSON values cannot throw. `activate` values that are not booleans are passed on unchanged as `Js.Value`.
- `RuntimeHandler.Handle`: request data is read as an optional configuration. Data of another JSON shape is not modelled.
- lib/tab-manager, lib/message-router.ts, lib/handlers/openTab-handler.ts, background.ts and src/background.ts are not part of this model. They are wiring or older copies of the modelled logic.

## Findings

| source | as written | input that shows it | evidently intended | confidence | as-written member | corrected member |
|---|---|---|---|---|---|---|
| src/core/gotify/client.ts:151-163 | `handleClose` sets `ws = null` on a close event from any socket, including one the client already replaced | `connect(cfg)`, `connect(cfg)` on one client, then the first socket's close event: the client forgets the second, still-open socket, reports DISCONNECTED and arms a reconnect that opens a third | a close event from a socket other than the current one is ignored | medium, not executed; reachable only when `connect` is called twice on one client, which the connection manager never does | GotifyClient.StaleCloseOrphansSocket | GotifyClient.StaleCloseIgnoredWhenCorrected |
| src/background/connection-manager.ts:39-47 | the status listener registered on each client is never removed, and `handleError` (src/core/gotify/client.ts:143-146) reports ERROR without a guard | connect, then disconnect (or connect anew) before the socket has opened; closing that socket fires its error event: the dropped client reports ERROR, and the manager, holding no client or a new one, reports ERROR and "连接失败" | a status from a client the manager no longer holds is ignored | medium, not executed; depends on the browser firing `error` when a connecting socket is closed | ConnectionManager.RetiredErrorReported | ConnectionManager.RetiredEventMirrors |

The push client's own transitions are modelled with either close handler.
`GotifyClient.RunCorrectedInv` shows that the guarded handler keeps the
socket bookkeeping sound over every event sequence. The connection manager
steps its client with the handler as written (`ConnectionManager.ClientEvent`).
For the clients the manager holds, the two handlers agree
(`ConnectionManager.ClientEventHeld`), so the first defect does not arise
there. Events of retired clients go through `ConnectionManager.RetiredEvent`,
the guarded listener; `ConnectionManager.RetiredEventAsWritten` is the
listener as written.

=== FILE: config_store.dfy ===
/** The configuration store of src/core/storage/index.ts: reading the settings
    back from `chrome.storage.sync` with defaults filled in, the validity checks
    the settings page and the control surface apply, and the change-listener
    filter. */
module ConfigStore {
  import opened Wrappers
  import opened Text
  import opened Types
  import opened Validators

  const StorageKey: string := "droplink_config"

  const UrlEmptyError: string := "URL 不能为空"
  const UrlFormatError: string := "URL 格式无效或不是 HTTP(S) URL"
  const TokenEmptyError: string := "Token 不能为空"
  const TokenFormatError: string := "Token 长度太短（至少 10 个字符）"

  /** What `chrome.storage.sync.get(key)` yields: a rejection, nothing, or the stored object. */
  datatype SyncRead = ReadFails | NothingStored | Stored(value: StoredConfig)

  /** `{valid, error?}` as the two field validators return it. */
  datatype Validation = Validation(valid: bool, error: Option<string>)

  /** `getConfig`: a fresh copy of the defaults when nothing is stored or the read
      rejects; otherwise exactly four fields, the two strings falling back to the
      default when falsy and the two flags when `null` or missing. The history-sync
      fields are never carried over. */
  function GetConfig(read: SyncRead): (c: Config)
    ensures !read.Stored? ==> c == DefaultConfig
    ensures c.enableHistorySync.None? && c.fetchHistoryLimit.None? && c.maxOpenTabs.None?
            && c.batchOpenInterval.None? && c.showBatchNotification.None?
    ensures c.gotifyUrl != []
    ensures read.Stored? ==>
      var s := read.value;
      && (s.gotifyUrl.Some? && s.gotifyUrl.value != [] ==> c.gotifyUrl == s.gotifyUrl.value)
      && (s.gotifyUrl.None? || s.gotifyUrl.value == [] ==> c.gotifyUrl == DefaultConfig.gotifyUrl)
      && (s.clientToken.Some? && s.clientToken.value != [] ==> c.clientToken == s.clientToken.value)
      && (s.clientToken.None? || s.clientToken.value == [] ==> c.clientToken == DefaultConfig.clientToken)
      && (s.openTabNotification.Some? ==> c.openTabNotification == s.openTabNotification.value)
      && (s.openTabNotification.None? ==> c.openTabNotification == DefaultConfig.openTabNotification)
      && (s.showAllNotifications.Some? ==> c.showAllNotifications == s.showAllNotifications.value)
      && (s.showAllNotifications.None? ==> c.showAllNotifications == DefaultConfig.showAllNotifications)
  {
    match read
    case ReadFails => DefaultConfig
    case NothingStored => DefaultConfig
    case Stored(s) =>
      Config(
        if s.gotifyUrl.Some? && s.gotifyUrl.value != [] then s.gotifyUrl.value else DefaultConfig.gotifyUrl,
        if s.clientToken.Some? && s.clientToken.value != [] then s.clientToken.value else DefaultConfig.clientToken,
        s.openTabNotification.GetOr(DefaultConfig.openTabNotification),
        s.showAllNotifications.GetOr(DefaultConfig.showAllNotifications),
        None, None, None, None, None)
  }

  /** Saving a configuration and reading it back returns its four declared
      fields unchanged and drops the history-sync fields. */
  lemma GetConfigAfterStore(c: Config)
    requires c.gotifyUrl != []
    ensures GetConfig(Stored(Store(c)))
            == c.(enableHistorySync := None, fetchHistoryLimit := None, maxOpenTabs := None,
                  batchOpenInterval := None, showBatchNotification := None)
  {
  }

  /** Normalisation is idempotent: storing what `getConfig` returned and reading
      it again changes nothing. */
  lemma GetConfigIdempotent(read: SyncRead)
    ensures GetConfig(Stored(Store(GetConfig(read)))) == GetConfig(read)
  {
    GetConfigAfterStore(GetConfig(read));
  }

  /** `isConfigValid`. */
  predicate IsConfigValid(config: Config, parse: UrlParser) {
    IsValidGotifyUrl(config.gotifyUrl, parse) && IsValidToken(config.clientToken)
  }

  /** The defaults are never a usable configuration (their token is empty), so a
      valid configuration read back always comes from a stored object. */
  lemma ValidConfigWasStored(read: SyncRead, parse: UrlParser)
    ensures !IsConfigValid(DefaultConfig, parse)
    ensures IsConfigValid(GetConfig(read), parse) ==> read.Stored?
  {
    EmptyTokenInvalid(DefaultConfig, parse);
    if !read.Stored? {
      assert GetConfig(read) == DefaultConfig;
    }
  }

  /** A configuration without a token is never valid. */
  lemma EmptyTokenInvalid(config: Config, parse: UrlParser)
    requires config.clientToken == []
    ensures !IsConfigValid(config, parse)
  {
    BlankTokenInvalid(config.clientToken);
  }

  /** A blank URL is both what `validateUrl` tests first and never valid. */
  lemma BlankUrlInvalid(url: string, parse: UrlParser)
    ensures url == [] || Trim(url) == [] <==> IsBlank(url)
    ensures IsBlank(url) ==> !IsValidGotifyUrl(url, parse)
  {
    TrimEmptyIffBlank(url);
  }

  /** `validateUrl`. */
  function ValidateUrl(url: string, parse: UrlParser): (r: Validation)
    ensures r.valid <==> IsValidGotifyUrl(url, parse)
    ensures r.valid <==> r.error.None?
    ensures IsBlank(url) ==> r.error == Some(UrlEmptyError)
    ensures !IsBlank(url) && !r.valid ==> r.error == Some(UrlFormatError)
  {
    BlankUrlInvalid(url, parse);
    if url == [] || Trim(url) == [] then Validation(false, Some(UrlEmptyError))
    else if !IsValidGotifyUrl(url, parse) then Validation(false, Some(UrlFormatError))
    else Validation(true, None)
  }

  /** A blank token is both what `validateToken` tests first and never valid. */
  lemma BlankTokenInvalid(token: string)
    ensures token == [] || Trim(token) == [] <==> IsBlank(token)
    ensures IsBlank(token) ==> !IsValidToken(token)
  {
    TrimEmptyIffBlank(token);
  }

  /** `validateToken`. */
  function ValidateToken(token: string): (r: Validation)
    ensures r.valid <==> IsValidToken(token)
    ensures r.valid <==> r.error.None?
    ensures IsBlank(token) ==> r.error == Some(TokenEmptyError)
    ensures !IsBlank(token) && !r.valid ==> r.error == Some(TokenFormatError)
  {
    BlankTokenInvalid(token);
    if token == [] || Trim(token) == [] then Validation(false, Some(TokenEmptyError))
    else if !IsValidToken(token) then Validation(false, Some(TokenFormatError))
    else Validation(true, None)
  }

  /** Both field validators pass exactly when the configuration is valid. */
  lemma ValidatorsAgreeWithConfig(config: Config, parse: UrlParser)
    ensures ValidateUrl(config.gotifyUrl, parse).valid && ValidateToken(config.clientToken).valid
            <==> IsConfigValid(config, parse)
  {
  }

  /** One entry of `chrome.storage.onChanged`'s `changes` map. */
  datatype StorageChange = StorageChange(oldValue: Option<StoredConfig>, newValue: Option<StoredConfig>)

  /** The `onConfigChange` listener filter: `Some((newConfig, oldConfig))` when
      the callback runs. The new value is passed on as stored, without the
      normalisation `getConfig` applies. */
  function ConfigChanged(areaName: string, changes: map<string, StorageChange>)
    : (r: Option<(StoredConfig, StoredConfig)>)
    ensures r.Some? <==> areaName == "sync" && StorageKey in changes
                         && changes[StorageKey].newValue.Some?
    ensures r.Some? ==> r.value.0 == changes[StorageKey].newValue.value
    ensures r.Some? && changes[StorageKey].oldValue.Some? ==>
              r.value.1 == changes[StorageKey].oldValue.value
    ensures r.Some? && changes[StorageKey].oldValue.None? ==> r.value.1 == Store(DefaultConfig)
  {
    if areaName == "sync" && StorageKey in changes then
      var change := changes[StorageKey];
      var oldConfig := change.oldValue.GetOr(Store(DefaultConfig));
      match change.newValue
      case Some(newConfig) => Some((newConfig, oldConfig))
      case None => None
    else None
  }

  /** Changes under other keys never affect whether or how the callback runs. */
  lemma ConfigChangedIgnoresOtherKeys(areaName: string, changes: map<string, StorageChange>,
                                      key: string, change: StorageChange)
    requires key != StorageKey
    ensures ConfigChanged(areaName, changes[key := change]) == ConfigChanged(areaName, changes)
  {
    assert StorageKey in changes[key := change] <==> StorageKey in changes;
  }
}

=== FILE: connection_manager.dfy ===
/** The connection manager of src/background/connection-manager.ts: it owns at
    most one push client, registers itself as that client's only message and
    status listener, and keeps the `StatusInfo` the control surface reports.
    Its status listener is listener 0 of the client. A client it replaces or
    drops is never unsubscribed, so its late socket events still reach that
    listener; such clients are kept in `retired`. Clock readings
    (`new Date().toISOString()`) are the `now` parameters. */
module ConnectionManager {
  import opened Wrappers
  import opened Types
  import GotifyClient

  const ConnectionFailed: string := "连接失败"

  /** `client` is the client the manager holds; `retired` the clients it has
      dropped, oldest first, whose sockets may still deliver events. */
  datatype Manager = Manager(client: Option<GotifyClient.Client>, retired: seq<GotifyClient.Client>, info: StatusInfo)

  /** A manager as constructed: no client, disconnected, configuration not valid. */
  const Initial: Manager := Manager(None, [], StatusInfo(Disconnected, false, None, None))

  /** The status listener the manager registers: the reported status is always
      mirrored; CONNECTED stamps `lastConnected` and clears the error; ERROR
      records the fixed error text; other states leave both alone. */
  function ApplyStatus(info: StatusInfo, s: ConnectionStatus, now: string): (r: StatusInfo)
    ensures r.status == s && r.configValid == info.configValid
    ensures s == Connected ==> r.lastConnected == Some(now) && r.error.None?
    ensures s == Error ==> r.error == Some(ConnectionFailed) && r.lastConnected == info.lastConnected
    ensures s != Connected && s != Error ==> r.lastConnected == info.lastConnected && r.error == info.error
  {
    if s == Connected then info.(status := s, lastConnected := Some(now), error := None)
    else if s == Error then info.(status := s, error := Some(ConnectionFailed))
    else info.(status := s)
  }

  /** A call of the manager's status listener. */
  predicate ToManager(e: GotifyClient.ClientEffect) {
    e.StatusDelivered? && e.listener == 0
  }

  /** The `StatusInfo` after the manager's listener has heard every status
      delivery among `effects`, in order. */
  function Listen(info: StatusInfo, effects: seq<GotifyClient.ClientEffect>, now: string): StatusInfo
    decreases |effects|
  {
    if |effects| == 0 then info
    else
      var next := if ToManager(effects[0]) then ApplyStatus(info, effects[0].status, now) else info;
      Listen(next, effects[1..], now)
  }

  /** The last status delivered to the manager's listener among `effects`. */
  function LastStatus(effects: seq<GotifyClient.ClientEffect>): Option<ConnectionStatus>
    decreases |effects|
  {
    if |effects| == 0 then None
    else
      var later := LastStatus(effects[1..]);
      if later.Some? then later
      else if ToManager(effects[0]) then Some(effects[0].status)
      else None
  }

  /** The listener leaves `StatusInfo.status` at the last status it heard and
      never touches `configValid`. */
  lemma {:induction false} ListenStatus(info: StatusInfo, effects: seq<GotifyClient.ClientEffect>, now: string)
    ensures Listen(info, effects, now).status == LastStatus(effects).GetOr(info.status)
    ensures Listen(info, effects, now).configValid == info.configValid
    ensures LastStatus(effects).None? ==> Listen(info, effects, now) == info
    ensures LastStatus(effects) == Some(Connected) ==>
              Listen(info, effects, now).lastConnected == Some(now) && Listen(info, effects, now).error.None?
    ensures LastStatus(effects) == Some(Error) ==> Listen(info, effects, now).error == Some(ConnectionFailed)
    decreases |effects|
  {
    if |effects| > 0 {
      var next := if ToManager(effects[0]) then ApplyStatus(info, effects[0].status, now) else info;
      ListenStatus(next, effects[1..], now);
    }
  }

  lemma {:induction false} LastStatusAppend(a: seq<GotifyClient.ClientEffect>, b: seq<GotifyClient.ClientEffect>)
    ensures LastStatus(a + b) == if LastStatus(b).Some? then LastStatus(b) else LastStatus(a)
    decreases |a|
  {
    if |a| == 0 {
      assert a + b == b;
    } else {
      assert (a + b)[0] == a[0];
      assert (a + b)[1..] == a[1..] + b;
      LastStatusAppend(a[1..], b);
    }
  }

  lemma {:induction false} NoStatusDelivered(effects: seq<GotifyClient.ClientEffect>)
    requires forall i | 0 <= i < |effects| :: !effects[i].StatusDelivered?
    ensures LastStatus(effects) == None
    decreases |effects|
  {
    if |effects| > 0 {
      NoStatusDelivered(effects[1..]);
    }
  }

  /** Every status delivered among `effects` is DISCONNECTED. */
  predicate OnlyDisconnected(effects: seq<GotifyClient.ClientEffect>) {
    forall i | 0 <= i < |effects| :: effects[i].StatusDelivered? ==> effects[i].status == Disconnected
  }

  /** Hearing only DISCONNECTED leaves the error text and the last connection
      time as they were. */
  lemma {:induction false} ListenKeepsRecords(info: StatusInfo, effects: seq<GotifyClient.ClientEffect>, now: string)
    requires OnlyDisconnected(effects)
    ensures Listen(info, effects, now).error == info.error
    ensures Listen(info, effects, now).lastConnected == info.lastConnected
    decreases |effects|
  {
    if |effects| > 0 {
      var next := if ToManager(effects[0]) then ApplyStatus(info, effects[0].status, now) else info;
      assert OnlyDisconnected(effects[1..]) by {
        forall i | 0 <= i < |effects[1..]| ensures effects[1..][i].StatusDelivered? ==> effects[1..][i].status == Disconnected {
          assert effects[1..][i] == effects[i + 1];
        }
      }
      ListenKeepsRecords(next, effects[1..], now);
    }
  }

  /** A client's `disconnect` only ever reports DISCONNECTED. */
  lemma DisconnectOnlyDisconnected(c: GotifyClient.Client)
    ensures OnlyDisconnected(GotifyClient.Disconnect(c).effects)
  {
  }

  /** What an outcome of a client with the manager as its only status listener
      tells the manager: the client's new status is the last one delivered,
      or its old one when none was. */
  ghost predicate Reports(c: GotifyClient.Client, o: GotifyClient.Outcome) {
    && o.client.status == LastStatus(o.effects).GetOr(c.status)
    && o.client.statusListeners == c.statusListeners
  }

  lemma ReportsThen(c: GotifyClient.Client, o1: GotifyClient.Outcome, o2: GotifyClient.Outcome)
    requires Reports(c, o1) && Reports(o1.client, o2)
    ensures Reports(c, GotifyClient.Outcome(o2.client, o1.effects + o2.effects))
  {
    LastStatusAppend(o1.effects, o2.effects);
  }

  lemma SetStatusReports(c: GotifyClient.Client, s: ConnectionStatus)
    requires c.statusListeners == 1
    ensures Reports(c, GotifyClient.SetStatus(c, s))
  {
    var o := GotifyClient.SetStatus(c, s);
    if c.status != s {
      assert o.effects == [GotifyClient.StatusDelivered(0, s)];
    }
  }

  lemma ScheduleReconnectReports(c: GotifyClient.Client)
    ensures Reports(c, GotifyClient.ScheduleReconnect(c))
  {
    NoStatusDelivered(GotifyClient.ScheduleReconnect(c).effects);
  }

  lemma ConnectFailedReports(c: GotifyClient.Client)
    requires c.statusListeners == 1
    ensures Reports(c, GotifyClient.ConnectFailed(c))
  {
    var o1 := GotifyClient.SetStatus(c, Error);
    SetStatusReports(c, Error);
    ScheduleReconnectReports(o1.client);
    ReportsThen(c, o1, GotifyClient.ScheduleReconnect(o1.client));
  }

  lemma DisconnectReports(c: GotifyClient.Client)
    requires c.statusListeners == 1
    ensures Reports(c, GotifyClient.Disconnect(c))
  {
    var cleared: seq<GotifyClient.ClientEffect> := if c.timer.Some? then [GotifyClient.TimerCleared(c.timer.value)] else [];
    var closed: seq<GotifyClient.ClientEffect> := if c.ws.Some? then [GotifyClient.SocketClosed(c.ws.value)] else [];
    NoStatusDelivered(cleared + closed);
    var c1 := c.(manual := true,
                 timer := None,
                 armed := if c.timer.Some? then c.armed - {c.timer.value} else c.armed,
                 ws := None,
                 closing := if c.ws.Some? then c.closing + {c.ws.value} else c.closing);
    SetStatusReports(c1, Disconnected);
    LastStatusAppend(cleared + closed, GotifyClient.SetStatus(c1, Disconnected).effects);
  }

  lemma ConnectReports(c: GotifyClient.Client, config: Config, env: GotifyClient.Env)
    requires c.statusListeners == 1
    ensures Reports(c, GotifyClient.Connect(c, config, env))
  {
    var pre := if c.ws.Some? then GotifyClient.Disconnect(c) else GotifyClient.Outcome(c, []);
    if c.ws.Some? {
      DisconnectReports(c);
    }
    assert Reports(c, pre);
    var c1 := pre.client.(config := Some(config), manual := false);
    var url := GotifyClient.BuildWebSocketUrl(config.gotifyUrl, config.clientToken, env.parse);
    OpenSocketReports(c1, url, env);
    ReportsThen(c, pre, GotifyClient.OpenSocket(c1, url, env));
  }

  lemma OpenSocketReports(c: GotifyClient.Client, url: Option<string>, env: GotifyClient.Env)
    requires c.statusListeners == 1 && !c.manual && c.config.Some?
    ensures Reports(c, GotifyClient.OpenSocket(c, url, env))
  {
    match url
    case None =>
      ConnectFailedReports(c);
    case Some(u) =>
      var o1 := GotifyClient.SetStatus(c, Connecting);
      SetStatusReports(c, Connecting);
      if !env.socketAccepts(u) {
        ConnectFailedReports(o1.client);
        ReportsThen(c, o1, GotifyClient.ConnectFailed(o1.client));
      } else {
        var started: seq<GotifyClient.ClientEffect> := [GotifyClient.SocketOpened(o1.client.nextId, u)];
        NoStatusDelivered(started);
        LastStatusAppend(o1.effects, started);
      }
  }

  lemma HandleCloseReports(c: GotifyClient.Client)
    requires c.statusListeners == 1
    ensures Reports(c, GotifyClient.HandleCloseAsWritten(c))
  {
    var c1 := c.(ws := None);
    if !c1.manual {
      var o1 := GotifyClient.SetStatus(c1, Disconnected);
      SetStatusReports(c1, Disconnected);
      ScheduleReconnectReports(o1.client);
      ReportsThen(c, o1, GotifyClient.ScheduleReconnect(o1.client));
    }
  }

  /** Every client transition, with either close handler, tells a sole status
      listener exactly the status the client ends in. */
  lemma StepReports(c: GotifyClient.Client, e: GotifyClient.Event, env: GotifyClient.Env, corrected: bool)
    requires c.statusListeners == 1
    ensures Reports(c, GotifyClient.Step(c, e, env, corrected))
  {
    match e
    case ConnectCall(config) => ConnectReports(c, config, env);
    case DisconnectCall => DisconnectReports(c);
    case Open(_) => SetStatusReports(c, Connected);
    case Frame(_, message) =>
      NoStatusDelivered(GotifyClient.HandleMessage(c, message).effects);
    case SocketError(_) => SetStatusReports(c, Error);
    case Close(s) =>
      var c1 := c.(live := c.live - {s}, closing := c.closing - {s});
      if !corrected || c1.ws == Some(s) {
        HandleCloseReports(c1);
      }
    case TimerFire(t) =>
      var c1 := c.(armed := c.armed - {t});
      if c1.config.Some? {
        ConnectReports(c1, c1.config.value, env);
      }
  }

  /** A client with only the manager's listeners registered. */
  const FreshClient: GotifyClient.Client :=
    GotifyClient.Initial.(messageListeners := 1, statusListeners := 1)

  /** What a manager operation did: the new manager and the client calls made. */
  datatype Outcome = Outcome(manager: Manager, effects: seq<GotifyClient.ClientEffect>)

  /** `connect(config)`: disconnect the previous client (its listener still
      reports the resulting status) and retire it, create a client with the
      manager's two listeners and connect it. The old socket is closed before
      the new one is opened, and the reported status is the new client's. */
  function Connect(m: Manager, config: Config, env: GotifyClient.Env, now: string): (o: Outcome)
    ensures var started := GotifyClient.Connect(FreshClient, config, env);
            && o.manager.client == Some(started.client)
            && o.manager.info.status == started.client.status
            && (m.client.None? ==> o.effects == started.effects && o.manager.retired == m.retired)
            && (m.client.Some? ==>
                  var d := GotifyClient.Disconnect(m.client.value);
                  o.effects == d.effects + started.effects && o.manager.retired == m.retired + [d.client])
    ensures o.manager.client.Some? && o.manager.client.value.config == Some(config)
    ensures o.manager.info.configValid == m.info.configValid
    ensures m.client.Some? && m.client.value.ws.Some? ==>
              GotifyClient.SocketClosed(m.client.value.ws.value) in o.effects
  {
    var prev := if m.client.Some? then GotifyClient.Disconnect(m.client.value) else GotifyClient.Outcome(FreshClient, []);
    var retired := if m.client.Some? then m.retired + [prev.client] else m.retired;
    var info1 := Listen(m.info, prev.effects, now);
    ListenStatus(m.info, prev.effects, now);
    var o := GotifyClient.Connect(FreshClient, config, env);
    ConnectReports(FreshClient, config, env);
    ListenStatus(info1, o.effects, now);
    Outcome(Manager(Some(o.client), retired, Listen(info1, o.effects, now)), prev.effects + o.effects)
  }

  /** `disconnect()`: disconnect and retire the client, then DISCONNECTED. */
  function Disconnect(m: Manager, now: string): (o: Outcome)
    ensures o.manager.client.None? && o.manager.info.status == Disconnected
    ensures o.manager.info.configValid == m.info.configValid
    ensures o.manager.info.error == m.info.error && o.manager.info.lastConnected == m.info.lastConnected
    ensures m.client.None? ==> o.effects == [] && o.manager.retired == m.retired
    ensures m.client.Some? ==>
              var d := GotifyClient.Disconnect(m.client.value);
              o.effects == d.effects && o.manager.retired == m.retired + [d.client]
    ensures m.client.Some? && m.client.value.ws.Some? ==>
              GotifyClient.SocketClosed(m.client.value.ws.value) in o.effects
  {
    match m.client
    case None => Outcome(Manager(None, m.retired, m.info.(status := Disconnected)), [])
    case Some(c) =>
      var d := GotifyClient.Disconnect(c);
      ListenStatus(m.info, d.effects, now);
      DisconnectOnlyDisconnected(c);
      ListenKeepsRecords(m.info, d.effects, now);
      Outcome(Manager(None, m.retired + [d.client], Listen(m.info, d.effects, now).(status := Disconnected)), d.effects)
  }

  /** An event of the current client's socket or timer, handled by the client
      as written, with the listener reporting any status change. Without a
      client there is nothing to hear. */
  function ClientEvent(m: Manager, e: GotifyClient.Event, env: GotifyClient.Env, now: string): (o: Outcome)
    ensures m.client.None? ==> o == Outcome(m, [])
    ensures o.manager.info.configValid == m.info.configValid
    ensures o.manager.client.Some? <==> m.client.Some?
    ensures o.manager.retired == m.retired
    ensures m.client.Some? ==>
              var s := GotifyClient.Step(m.client.value, e, env, false);
              && o.manager.client == Some(s.client) && o.effects == s.effects
              && o.manager.info.status == LastStatus(s.effects).GetOr(m.info.status)
              && (LastStatus(s.effects).None? ==> o.manager.info == m.info)
              && (LastStatus(s.effects) == Some(Connected) ==>
                    o.manager.info.lastConnected == Some(now) && o.manager.info.error.None?)
              && (LastStatus(s.effects) == Some(Error) ==> o.manager.info.error == Some(ConnectionFailed))
  {
    match m.client
    case None => Outcome(m, [])
    case Some(c) =>
      var s := GotifyClient.Step(c, e, env, false);
      ListenStatus(m.info, s.effects, now);
      Outcome(Manager(Some(s.client), m.retired, Listen(m.info, s.effects, now)), s.effects)
  }

  /** An event of the `k`-th retired client's socket or timer, as written: the
      listener registered on that client still runs and overwrites the
      reported status with whatever the retired client reports. */
  function RetiredEventAsWritten(m: Manager, k: nat, e: GotifyClient.Event, env: GotifyClient.Env, now: string)
    : (o: Outcome)
    requires k < |m.retired|
    ensures var s := GotifyClient.Step(m.retired[k], e, env, false);
            && o.manager.client == m.client
            && o.manager.retired == m.retired[k := s.client]
            && o.effects == s.effects
            && o.manager.info.status == LastStatus(s.effects).GetOr(m.info.status)
    ensures o.manager.info.configValid == m.info.configValid
  {
    var s := GotifyClient.Step(m.retired[k], e, env, false);
    ListenStatus(m.info, s.effects, now);
    Outcome(Manager(m.client, m.retired[k := s.client], Listen(m.info, s.effects, now)), s.effects)
  }

  /** The listener with the evidently intended guard: a status from a client
      the manager no longer holds is ignored, so the retired client moves on
      and the reported `StatusInfo` stays as it was. */
  function RetiredEvent(m: Manager, k: nat, e: GotifyClient.Event, env: GotifyClient.Env): (o: Outcome)
    requires k < |m.retired|
    ensures var s := GotifyClient.Step(m.retired[k], e, env, false);
            && o.manager == Manager(m.client, m.retired[k := s.client], m.info)
            && o.effects == s.effects
  {
    var s := GotifyClient.Step(m.retired[k], e, env, false);
    Outcome(m.(retired := m.retired[k := s.client]), s.effects)
  }

  /** `updateConfigValidity(valid)`: only the flag changes. */
  function UpdateConfigValidity(m: Manager, valid: bool): (r: Manager)
    ensures r.client == m.client && r.retired == m.retired
    ensures r.info.configValid == valid
    ensures r.info.status == m.info.status && r.info.lastConnected == m.info.lastConnected
            && r.info.error == m.info.error
  {
    m.(info := m.info.(configValid := valid))
  }

  /** `isConnected()`: false without a client, otherwise the client's answer. */
  function IsConnected(m: Manager): (b: bool)
    ensures m.client.None? ==> !b
    ensures b <==> m.client.Some? && m.client.value.status == Connected
  {
    match m.client
    case None => false
    case Some(c) => GotifyClient.IsConnected(c)
  }

  /** The reported status mirrors the client: DISCONNECTED without one, the
      client's own status with one, the manager being its sole status listener. */
  ghost predicate Mirrors(m: Manager) {
    && (m.client.None? ==> m.info.status == Disconnected)
    && (m.client.Some? ==> m.info.status == m.client.value.status && m.client.value.statusListeners == 1)
  }

  lemma InitialMirrors()
    ensures Mirrors(Initial)
  {
  }

  /** Under the mirror invariant, `isConnected` and the reported status agree. */
  lemma IsConnectedAgreesWithStatus(m: Manager)
    requires Mirrors(m)
    ensures IsConnected(m) <==> m.info.status == Connected
  {
  }

  lemma ConnectMirrors(m: Manager, config: Config, env: GotifyClient.Env, now: string)
    ensures Mirrors(Connect(m, config, env, now).manager)
  {
  }

  lemma DisconnectMirrors(m: Manager, now: string)
    ensures Mirrors(Disconnect(m, now).manager)
  {
  }

  lemma ClientEventMirrors(m: Manager, e: GotifyClient.Event, env: GotifyClient.Env, now: string)
    requires Mirrors(m)
    ensures Mirrors(ClientEvent(m, e, env, now).manager)
  {
    if m.client.Some? {
      StepReports(m.client.value, e, env, false);
    }
  }

  /** With the guarded listener, a retired client's events keep the mirror. */
  lemma RetiredEventMirrors(m: Manager, k: nat, e: GotifyClient.Event, env: GotifyClient.Env)
    requires Mirrors(m) && k < |m.retired|
    ensures Mirrors(RetiredEvent(m, k, e, env).manager)
  {
  }

  lemma UpdateConfigValidityMirrors(m: Manager, valid: bool)
    requires Mirrors(m)
    ensures Mirrors(UpdateConfigValidity(m, valid))
  {
  }

  /** The defect of the listener as written: drop a client whose socket is
      still open, and let that socket's error event arrive (closing a socket
      that has not finished opening fires one). The manager holds no client,
      yet reports ERROR with the failure text. A `connect` that replaces the
      client retires it the same way. */
  lemma RetiredErrorReported(m: Manager, env: GotifyClient.Env, now: string)
    requires Mirrors(m) && m.client.Some? && m.client.value.ws.Some? && GotifyClient.Inv(m.client.value)
    ensures var m2 := Disconnect(m, now).manager;
            && |m2.retired| == |m.retired| + 1
            && GotifyClient.Enabled(m2.retired[|m.retired|], GotifyClient.SocketError(m.client.value.ws.value))
            && (var m3 := RetiredEventAsWritten(m2, |m.retired|, GotifyClient.SocketError(m.client.value.ws.value), env, now).manager;
                && m3.client.None? && m3.info.status == Error && m3.info.error == Some(ConnectionFailed)
                && !Mirrors(m3))
  {
    var c := m.client.value;
    var s := c.ws.value;
    var d := GotifyClient.Disconnect(c);
    var m2 := Disconnect(m, now).manager;
    assert s in c.live - c.closing;
    assert m2.retired[|m.retired|] == d.client;
    var step := GotifyClient.Step(d.client, GotifyClient.SocketError(s), env, false);
    assert step.effects == [GotifyClient.StatusDelivered(0, Error)];
    ListenStatus(m2.info, step.effects, now);
  }

  /** The socket bookkeeping of a client the manager holds. The manager never
      calls `connect` twice on one client, so no socket is closing, the one
      open socket is the current one, and a timer is armed only while there is
      no socket. */
  ghost predicate Managed(c: GotifyClient.Client) {
    && c.closing == {}
    && c.live == GotifyClient.Current(c.ws)
    && (c.ws.Some? ==> c.armed == {})
    && (c.ws.None? ==> c.armed <= GotifyClient.Current(c.timer))
  }

  /** Events that come from the client's socket or timer rather than its owner. */
  predicate SocketOrTimer(e: GotifyClient.Event) {
    !e.ConnectCall? && !e.DisconnectCall?
  }

  /** Every client the manager holds satisfies `Managed`. */
  ghost predicate Held(m: Manager) {
    m.client.Some? ==> Managed(m.client.value)
  }

  lemma FreshConnectManaged(config: Config, env: GotifyClient.Env)
    ensures Managed(GotifyClient.Connect(FreshClient, config, env).client)
  {
  }

  /** For a held client the close handler as written and the guarded one
      agree on every socket or timer event, and the bookkeeping is kept. */
  lemma ManagedStep(c: GotifyClient.Client, e: GotifyClient.Event, env: GotifyClient.Env)
    requires Managed(c) && GotifyClient.Enabled(c, e) && SocketOrTimer(e)
    ensures GotifyClient.Step(c, e, env, false) == GotifyClient.Step(c, e, env, true)
    ensures Managed(GotifyClient.Step(c, e, env, false).client)
  {
    match e
    case Close(s) =>
      assert c.ws == Some(s);
    case TimerFire(t) =>
      assert c.ws.None? && c.timer == Some(t);
      var c1 := c.(armed := c.armed - {t});
      assert c1.armed == {};
      if c1.config.Some? {
        ConnectFromSettled(c1, c1.config.value, env);
      }
    case _ =>
  }

  /** `connect` on a client with no socket, nothing closing and no timer armed. */
  lemma ConnectFromSettled(c: GotifyClient.Client, config: Config, env: GotifyClient.Env)
    requires c.ws.None? && c.live == {} && c.closing == {} && c.armed == {}
    ensures Managed(GotifyClient.Connect(c, config, env).client)
  {
  }

  lemma InitialHeld()
    ensures Held(Initial)
  {
  }

  lemma ConnectHeld(m: Manager, config: Config, env: GotifyClient.Env, now: string)
    ensures Held(Connect(m, config, env, now).manager)
  {
    FreshConnectManaged(config, env);
  }

  lemma DisconnectHeld(m: Manager, now: string)
    ensures Held(Disconnect(m, now).manager)
  {
  }

  /** A socket or timer event keeps the held client managed, and the manager
      steps it exactly as the guarded close handler would, so the stale-close
      defect of the client cannot arise under the manager. */
  lemma ClientEventHeld(m: Manager, e: GotifyClient.Event, env: GotifyClient.Env, now: string)
    requires Held(m) && SocketOrTimer(e)
    requires m.client.Some? ==> GotifyClient.Enabled(m.client.value, e)
    ensures Held(ClientEvent(m, e, env, now).manager)
    ensures m.client.Some? ==>
              ClientEvent(m, e, env, now).manager.client == Some(GotifyClient.Step(m.client.value, e, env, true).client)
  {
    if m.client.Some? {
      ManagedStep(m.client.value, e, env);
    }
  }
}

=== FILE: effects.dfy ===
/** The observable calls the engine makes into the browser: tab creation,
    desktop notifications and handler invocations, recorded in order. Whether a
    call succeeds is decided by the environment parameters of the operations. */
module Effects {
  import opened Wrappers

  /** `showSuccess`, `showError` and `showInfo`; none of them ever rejects. */
  datatype NoticeKind = Success | Failure | Info

  datatype Effect =
    | TabCreate(url: Option<string>, active: bool)
    | Notify(kind: NoticeKind, title: string, message: Option<string>)
    | HandlerCalled(handler: string, messageId: int)
    | CustomAction(handler: string, messageId: int)

  /** Whether `chrome.tabs.create` resolves for a tab opened on this URL. */
  type TabPort = Option<string> -> bool
}

=== FILE: gotify_client.dfy ===
/** The Gotify push client of src/core/gotify/client.ts as an explicit state
    record driven by events: calls from its owner (`connect`, `disconnect`),
    socket events and reconnect-timer expiry. Sockets and timers are named by
    ids the client hands out; `live` holds the sockets whose close event is
    still to come and `closing` those among them the client has closed itself. */
module GotifyClient {
  import opened Wrappers
  import opened Text
  import opened Types

  const BaseDelay: nat := 1000
  const MaxReconnectDelay: nat := 60000

  /** The two browser facilities the client depends on: the WHATWG URL parser,
      and whether `new WebSocket(url)` accepts a URL rather than throwing. */
  datatype Env = Env(parse: UrlParser, socketAccepts: string -> bool)

  datatype Client = Client(
    ws: Option<nat>,
    config: Option<Config>,
    attempts: nat,
    timer: Option<nat>,
    status: ConnectionStatus,
    manual: bool,
    messageListeners: nat,
    statusListeners: nat,
    live: set<nat>,
    closing: set<nat>,
    armed: set<nat>,
    nextId: nat)

  /** A client as constructed: disconnected, no socket, no listeners. */
  const Initial: Client :=
    Client(None, None, 0, None, Disconnected, false, 0, 0, {}, {}, {}, 1)

  datatype Event =
    | ConnectCall(config: Config)
    | DisconnectCall
    | Open(socket: nat)
    | Frame(socket: nat, message: Option<GotifyMessage>)
    | SocketError(socket: nat)
    | Close(socket: nat)
    | TimerFire(timer: nat)

  /** What the client does to the outside world. `StatusDelivered(i, s)` and
      `MessageDelivered(i, m)` are calls of the `i`-th registered listener; a
      listener that throws is logged and the next one still runs. */
  datatype ClientEffect =
    | StatusDelivered(listener: nat, status: ConnectionStatus)
    | MessageDelivered(listener: nat, message: GotifyMessage)
    | SocketOpened(socket: nat, url: string)
    | SocketClosed(socket: nat)
    | TimerSet(timer: nat, delay: nat)
    | TimerCleared(timer: nat)
    | ReconnectNotice(seconds: nat)

  datatype Outcome = Outcome(client: Client, effects: seq<ClientEffect>)

  function Pow2(n: nat): (r: nat)
    ensures r >= 1
  {
    if n == 0 then 1 else 2 * Pow2(n - 1)
  }

  lemma {:induction false} Pow2AtLeast64(n: nat)
    ensures n >= 6 ==> Pow2(n) >= 64
  {
    if n > 6 {
      Pow2AtLeast64(n - 1);
    }
  }

  lemma {:induction false} Pow2AtMost32(n: nat)
    ensures n <= 5 ==> Pow2(n) <= 32
  {
    if 0 < n <= 5 {
      Pow2AtMost32(n - 1);
    }
  }

  /** `Math.min(1000 * Math.pow(2, attempts), 60000)`. */
  function ReconnectDelay(attempts: nat): (d: nat)
    ensures BaseDelay <= d <= MaxReconnectDelay
    ensures attempts <= 5 ==> d == BaseDelay * Pow2(attempts)
    ensures attempts >= 6 ==> d == MaxReconnectDelay
    ensures d % 1000 == 0
  {
    Pow2AtLeast64(attempts);
    Pow2AtMost32(attempts);
    var raw := BaseDelay * Pow2(attempts);
    if raw < MaxReconnectDelay then raw else MaxReconnectDelay
  }

  /** The backoff never shrinks as failures accumulate. */
  lemma ReconnectDelayMonotone(n: nat)
    ensures ReconnectDelay(n) <= ReconnectDelay(n + 1)
  {
  }

  /** The stream path: `stream` after a trailing slash, `/stream` otherwise. */
  function StreamPath(pathname: string): (r: string)
    ensures |r| == |pathname| + (if |pathname| > 0 && pathname[|pathname| - 1] == '/' then 6 else 7)
    ensures |r| >= 7 && r[|r| - 7..] == "/stream"
    ensures r[..|pathname|] == pathname
  {
    if |pathname| > 0 && pathname[|pathname| - 1] == '/' then pathname + "stream"
    else pathname + "/stream"
  }

  /** `wss:` for `https:`, `ws:` for every other scheme. */
  function StreamScheme(protocol: string): (r: string)
    ensures r == "wss:" <==> protocol == "https:"
    ensures r == "wss:" || r == "ws:"
  {
    if protocol == "https:" then "wss:" else "ws:"
  }

  /** `buildWebSocketUrl`: `None` where the URL constructor throws. */
  function BuildWebSocketUrl(gotifyUrl: string, clientToken: string, parse: UrlParser): (r: Option<string>)
    ensures r.Some? <==> parse(gotifyUrl).Some?
    ensures r.Some? ==>
      var p := parse(gotifyUrl).value;
      var prefix := StreamScheme(p.protocol) + "//" + p.host + StreamPath(p.pathname);
      && |prefix| <= |r.value|
      && r.value[..|prefix|] == prefix
      && r.value[|prefix|..] == "?token=" + clientToken
  {
    match parse(gotifyUrl)
    case None => None
    case Some(p) =>
      var prefix := StreamScheme(p.protocol) + "//" + p.host + StreamPath(p.pathname);
      var query := "?token=" + clientToken;
      assert (prefix + query)[..|prefix|] == prefix && (prefix + query)[|prefix|..] == query;
      Some(prefix + query)
  }

  /** One call per status listener, in registration order. */
  function StatusNotices(n: nat, s: ConnectionStatus): (r: seq<ClientEffect>)
    ensures |r| == n && forall i | 0 <= i < n :: r[i] == StatusDelivered(i, s)
  {
    seq(n, i requires 0 <= i => StatusDelivered(i, s))
  }

  /** One call per message listener, in registration order. */
  function MessageNotices(n: nat, m: GotifyMessage): (r: seq<ClientEffect>)
    ensures |r| == n && forall i | 0 <= i < n :: r[i] == MessageDelivered(i, m)
  {
    seq(n, i requires 0 <= i => MessageDelivered(i, m))
  }

  /** `setStatus`: listeners hear of a status only when it changes. */
  function SetStatus(c: Client, s: ConnectionStatus): (o: Outcome)
    ensures o.client == c.(status := s)
    ensures o.effects == if c.status == s then [] else StatusNotices(c.statusListeners, s)
  {
    if c.status == s then Outcome(c, [])
    else Outcome(c.(status := s), StatusNotices(c.statusListeners, s))
  }

  /** `disconnect()`. */
  function Disconnect(c: Client): (o: Outcome)
    ensures var d := o.client;
            && d.manual && d.timer.None? && d.ws.None? && d.status == Disconnected && d.attempts == 0
            && d.config == c.config && d.live == c.live && d.nextId == c.nextId
            && d.armed == (if c.timer.Some? then c.armed - {c.timer.value} else c.armed)
            && d.closing == (if c.ws.Some? then c.closing + {c.ws.value} else c.closing)
            && d.messageListeners == c.messageListeners && d.statusListeners == c.statusListeners
    ensures c.ws.Some? ==> SocketClosed(c.ws.value) in o.effects
    ensures c.timer.Some? ==> TimerCleared(c.timer.value) in o.effects
  {
    var cleared := if c.timer.Some? then [TimerCleared(c.timer.value)] else [];
    var closed := if c.ws.Some? then [SocketClosed(c.ws.value)] else [];
    var c1 := c.(manual := true,
                 timer := None,
                 armed := if c.timer.Some? then c.armed - {c.timer.value} else c.armed,
                 ws := None,
                 closing := if c.ws.Some? then c.closing + {c.ws.value} else c.closing);
    var o := SetStatus(c1, Disconnected);
    Outcome(o.client.(attempts := 0), cleared + closed + o.effects)
  }

  /** `scheduleReconnect()`: nothing after a manual disconnect or without a
      configuration; otherwise warn, arm a timer for the backoff delay and count
      the attempt. The previous timer id is overwritten, not cleared. */
  function ScheduleReconnect(c: Client): (o: Outcome)
    ensures c.manual || c.config.None? ==> o == Outcome(c, [])
    ensures !c.manual && c.config.Some? ==>
      var d := ReconnectDelay(c.attempts);
      && o.client == c.(attempts := c.attempts + 1, timer := Some(c.nextId),
                        armed := c.armed + {c.nextId}, nextId := c.nextId + 1)
      && o.effects == [ReconnectNotice(d / 1000), TimerSet(c.nextId, d)]
  {
    if c.manual || c.config.None? then Outcome(c, [])
    else
      var d := ReconnectDelay(c.attempts);
      var t := c.nextId;
      Outcome(c.(attempts := c.attempts + 1, timer := Some(t), armed := c.armed + {t}, nextId := t + 1),
              [ReconnectNotice(d / 1000), TimerSet(t, d)])
  }

  /** The `catch` of `connect`: report the error and schedule a retry. */
  function ConnectFailed(c: Client): (o: Outcome)
    ensures o.client.status == Error && o.client.ws == c.ws && o.client.live == c.live
    ensures o.client.closing == c.closing && o.client.config == c.config
    ensures !c.manual && c.config.Some? ==>
              o.client == c.(status := Error, attempts := c.attempts + 1, timer := Some(c.nextId),
                             armed := c.armed + {c.nextId}, nextId := c.nextId + 1)
  {
    var o1 := SetStatus(c, Error);
    var o2 := ScheduleReconnect(o1.client);
    Outcome(o2.client, o1.effects + o2.effects)
  }

  /** `connect(config)`: tear down any current socket, clear the manual flag,
      enter CONNECTING and open a socket on the stream URL; if building the URL
      or the socket throws, enter ERROR and schedule a retry instead. */
  function Connect(c: Client, config: Config, env: Env): (o: Outcome)
    ensures !o.client.manual && o.client.config == Some(config)
    ensures c.ws.Some? ==> SocketClosed(c.ws.value) in o.effects && c.ws.value in o.client.closing
    ensures o.client.closing == if c.ws.Some? then c.closing + {c.ws.value} else c.closing
    ensures o.client.armed <= c.armed + (if o.client.timer.Some? then {o.client.timer.value} else {})
    // the teardown comes first: its effects open the outcome's effects
    ensures c.ws.Some? ==>
              var down := Disconnect(c).effects;
              |down| <= |o.effects| && o.effects[..|down|] == down
    ensures var url := BuildWebSocketUrl(config.gotifyUrl, config.clientToken, env.parse);
            // a teardown resets the backoff and disarms the old timer
            var attempts := if c.ws.Some? then 0 else c.attempts;
            var kept := if c.ws.Some? && c.timer.Some? then c.armed - {c.timer.value} else c.armed;
            if url.Some? && env.socketAccepts(url.value) then
              && o.client.status == Connecting
              && o.client.ws == Some(c.nextId) && o.client.live == c.live + {c.nextId}
              && o.client.nextId == c.nextId + 1
              && o.client.attempts == attempts && o.client.armed == kept
              && |o.effects| > 0 && o.effects[|o.effects| - 1] == SocketOpened(c.nextId, url.value)
            else
              && o.client.status == Error && o.client.ws.None?
              && o.client.live == c.live
              && o.client.attempts == attempts + 1
              && o.client.timer == Some(c.nextId) && o.client.nextId == c.nextId + 1
              && o.client.armed == kept + {c.nextId}
  {
    var pre := if c.ws.Some? then Disconnect(c) else Outcome(c, []);
    var c1 := pre.client.(config := Some(config), manual := false);
    var o := OpenSocket(c1, BuildWebSocketUrl(config.gotifyUrl, config.clientToken, env.parse), env);
    Outcome(o.client, pre.effects + o.effects)
  }

  /** The `try` of `connect` once any old socket is gone: enter CONNECTING and
      open a socket on `url`, or, when there is no URL or the socket throws,
      enter ERROR and schedule a retry. */
  function OpenSocket(c: Client, url: Option<string>, env: Env): (o: Outcome)
    requires !c.manual && c.config.Some?
    ensures !o.client.manual && o.client.config == c.config && o.client.closing == c.closing
    ensures if url.Some? && env.socketAccepts(url.value) then
              && o.client.status == Connecting
              && o.client.ws == Some(c.nextId) && o.client.live == c.live + {c.nextId}
              && o.client.nextId == c.nextId + 1
              && o.client.attempts == c.attempts && o.client.armed == c.armed && o.client.timer == c.timer
              && |o.effects| > 0 && o.effects[|o.effects| - 1] == SocketOpened(c.nextId, url.value)
            else
              && o.client.status == Error && o.client.ws == c.ws
              && o.client.live == c.live
              && o.client.attempts == c.attempts + 1
              && o.client.timer == Some(c.nextId) && o.client.nextId == c.nextId + 1
              && o.client.armed == c.armed + {c.nextId}
  {
    match url
    case None => ConnectFailed(c)
    case Some(u) =>
      var o1 := SetStatus(c, Connecting);
      if !env.socketAccepts(u) then
        var o2 := ConnectFailed(o1.client);
        Outcome(o2.client, o1.effects + o2.effects)
      else
        var s := o1.client.nextId;
        Outcome(o1.client.(ws := Some(s), live := o1.client.live + {s}, nextId := s + 1),
                o1.effects + [SocketOpened(s, u)])
  }

  /** `handleOpen`: CONNECTED, and the backoff starts over. */
  function HandleOpen(c: Client): (o: Outcome)
    ensures o.client == c.(status := Connected, attempts := 0)
    ensures c.status != Connected ==> o.effects == StatusNotices(c.statusListeners, Connected)
  {
    var o := SetStatus(c, Connected);
    Outcome(o.client.(attempts := 0), o.effects)
  }

  /** `handleMessage`: a frame that is not JSON is dropped; otherwise every
      message listener gets the message, whichever of them throw. */
  function HandleMessage(c: Client, message: Option<GotifyMessage>): (o: Outcome)
    ensures o.client == c
    ensures message.None? ==> o.effects == []
    ensures message.Some? ==>
              && |o.effects| == c.messageListeners
              && forall i | 0 <= i < c.messageListeners :: o.effects[i] == MessageDelivered(i, message.value)
  {
    match message
    case None => Outcome(c, [])
    case Some(m) => Outcome(c, MessageNotices(c.messageListeners, m))
  }

  /** `handleClose` as written: whichever socket closed, forget the current
      one; unless disconnected by hand, go DISCONNECTED and schedule a retry. */
  function HandleCloseAsWritten(c: Client): (o: Outcome)
    ensures o.client.ws.None?
    ensures c.manual ==> o == Outcome(c.(ws := None), [])
    ensures !c.manual ==> o.client.status == Disconnected
    ensures !c.manual && c.config.Some? ==> o.client.timer == Some(c.nextId) && c.nextId in o.client.armed
  {
    var c1 := c.(ws := None);
    if c1.manual then Outcome(c1, [])
    else
      var o1 := SetStatus(c1, Disconnected);
      var o2 := ScheduleReconnect(o1.client);
      Outcome(o2.client, o1.effects + o2.effects)
  }

  /** The close handler with the evidently intended guard: a close event from
      a socket other than the current one changes nothing. */
  function HandleCloseCorrected(c: Client, socket: nat): (o: Outcome)
    ensures c.ws != Some(socket) ==> o == Outcome(c, [])
    ensures c.ws == Some(socket) ==> o == HandleCloseAsWritten(c)
  {
    if c.ws != Some(socket) then Outcome(c, []) else HandleCloseAsWritten(c)
  }

  /** The transition for one event; `corrected` selects the guarded close handler. */
  function Step(c: Client, e: Event, env: Env, corrected: bool): (o: Outcome)
    ensures e.Open? ==> o.client.status == Connected && o.client.attempts == 0
    ensures e.SocketError? ==> o.client == c.(status := Error)
    ensures e.Frame? ==> o.client == c
    ensures e.Close? && !corrected ==> o.client.ws.None?
    ensures e.DisconnectCall? ==> o == Disconnect(c)
    ensures e.ConnectCall? ==> o == Connect(c, e.config, env)
    ensures e.Close? ==>
              var c1 := c.(live := c.live - {e.socket}, closing := c.closing - {e.socket});
              o == if corrected then HandleCloseCorrected(c1, e.socket) else HandleCloseAsWritten(c1)
    ensures e.TimerFire? ==>
              var c1 := c.(armed := c.armed - {e.timer});
              o == if c1.config.Some? then Connect(c1, c1.config.value, env) else Outcome(c1, [])
  {
    match e
    case ConnectCall(config) => Connect(c, config, env)
    case DisconnectCall => Disconnect(c)
    case Open(_) => HandleOpen(c)
    case Frame(_, message) => HandleMessage(c, message)
    case SocketError(_) => SetStatus(c, Error)
    case Close(s) =>
      var c1 := c.(live := c.live - {s}, closing := c.closing - {s});
      if corrected then HandleCloseCorrected(c1, s) else HandleCloseAsWritten(c1)
    case TimerFire(t) =>
      var c1 := c.(armed := c.armed - {t});
      if c1.config.Some? then Connect(c1, c1.config.value, env) else Outcome(c1, [])
  }

  /** The events the environment can deliver to a client in state `c`. */
  predicate Enabled(c: Client, e: Event) {
    match e
    case ConnectCall(_) => true
    case DisconnectCall => true
    case Open(s) => s in c.live - c.closing
    case Frame(s, _) => s in c.live - c.closing
    case SocketError(s) => s in c.live
    case Close(s) => s in c.live
    case TimerFire(t) => t in c.armed
  }

  /** The socket the client references, as a set. */
  function Current(ws: Option<nat>): set<nat> {
    if ws.Some? then {ws.value} else {}
  }

  /** The client's socket bookkeeping is sound: every open socket it has not
      closed itself is the one it references, and ids are fresh. */
  ghost predicate Inv(c: Client) {
    && c.closing <= c.live
    && c.live - c.closing == Current(c.ws)
    && (forall s | s in c.live :: s < c.nextId)
    && (forall t | t in c.armed :: t < c.nextId)
    && c.nextId >= 1
  }

  lemma InitialInv()
    ensures Inv(Initial)
  {
  }

  lemma DisconnectInv(c: Client)
    requires Inv(c)
    ensures Inv(Disconnect(c).client)
  {
  }

  lemma ConnectInv(c: Client, config: Config, env: Env)
    requires Inv(c)
    ensures Inv(Connect(c, config, env).client)
  {
    var pre := if c.ws.Some? then Disconnect(c) else Outcome(c, []);
    if c.ws.Some? {
      DisconnectInv(c);
    }
    var c1 := pre.client.(config := Some(config), manual := false);
    assert c1.ws.None? && Inv(c1);
    OpenSocketInv(c1, BuildWebSocketUrl(config.gotifyUrl, config.clientToken, env.parse), env);
  }

  lemma OpenSocketInv(c: Client, url: Option<string>, env: Env)
    requires !c.manual && c.config.Some? && c.ws.None? && Inv(c)
    ensures Inv(OpenSocket(c, url, env).client)
  {
  }

  lemma ConnectFailedInv(c: Client)
    requires Inv(c)
    ensures Inv(ConnectFailed(c).client)
  {
    var o1 := SetStatus(c, Error);
    assert Inv(o1.client);
  }

  /** With the guarded close handler, every event keeps the bookkeeping sound. */
  lemma StepCorrectedInv(c: Client, e: Event, env: Env)
    requires Inv(c) && Enabled(c, e)
    ensures Inv(Step(c, e, env, true).client)
  {
    match e
    case ConnectCall(config) => ConnectInv(c, config, env);
    case DisconnectCall => DisconnectInv(c);
    case Open(_) =>
    case Frame(_, _) =>
    case SocketError(_) =>
    case Close(s) =>
      var c1 := c.(live := c.live - {s}, closing := c.closing - {s});
      if c.ws == Some(s) {
        assert c1.live - c1.closing == {};
      } else {
        assert c1.live - c1.closing == Current(c1.ws);
      }
    case TimerFire(t) =>
      var c1 := c.(armed := c.armed - {t});
      if c1.config.Some? {
        ConnectInv(c1, c1.config.value, env);
      }
  }

  /** Applies the events in order. */
  function Run(c: Client, events: seq<Event>, env: Env, corrected: bool): (o: Outcome)
    decreases |events|
  {
    if |events| == 0 then Outcome(c, [])
    else
      var o1 := Step(c, events[0], env, corrected);
      var o2 := Run(o1.client, events[1..], env, corrected);
      Outcome(o2.client, o1.effects + o2.effects)
  }

  /** Every enabled event sequence keeps the corrected client's bookkeeping sound. */
  lemma {:induction false} RunCorrectedInv(c: Client, events: seq<Event>, env: Env)
    requires Inv(c)
    requires EnabledRun(c, events, env, true)
    ensures Inv(Run(c, events, env, true).client)
    decreases |events|
  {
    if |events| > 0 {
      StepCorrectedInv(c, events[0], env);
      RunCorrectedInv(Step(c, events[0], env, true).client, events[1..], env);
    }
  }

  /** Each event of the run is enabled when it arrives. */
  ghost predicate EnabledRun(c: Client, events: seq<Event>, env: Env, corrected: bool)
    decreases |events|
  {
    |events| == 0
    || (Enabled(c, events[0]) && EnabledRun(Step(c, events[0], env, corrected).client, events[1..], env, corrected))
  }

  /** An environment in which every URL parses and every socket can be created. */
  function Permissive(): (env: Env)
    ensures forall s :: env.parse(s).Some? && env.socketAccepts(s)
  {
    Env(s => Some(ParsedUrl("https:", "push.example.org", "/")), s => true)
  }

  /** A run of three events is the three steps in turn. */
  lemma RunOfThree(c: Client, e1: Event, e2: Event, e3: Event, env: Env, corrected: bool)
    ensures var c1 := Step(c, e1, env, corrected).client;
            var c2 := Step(c1, e2, env, corrected).client;
            var c3 := Step(c2, e3, env, corrected).client;
            && Run(c, [e1, e2, e3], env, corrected).client == c3
            && (EnabledRun(c, [e1, e2, e3], env, corrected)
                <==> Enabled(c, e1) && Enabled(c1, e2) && Enabled(c2, e3))
  {
    RunCons(c, e1, [e2, e3], env, corrected);
    var c1 := Step(c, e1, env, corrected).client;
    RunCons(c1, e2, [e3], env, corrected);
    var c2 := Step(c1, e2, env, corrected).client;
    RunCons(c2, e3, [], env, corrected);
    assert [e1] + [e2, e3] == [e1, e2, e3];
    assert [e2] + [e3] == [e2, e3];
    assert [e3] + [] == [e3];
  }

  /** Running `[e] + rest` is one step followed by the rest. */
  lemma RunCons(c: Client, e: Event, rest: seq<Event>, env: Env, corrected: bool)
    ensures var c1 := Step(c, e, env, corrected).client;
            && Run(c, [e] + rest, env, corrected).client == Run(c1, rest, env, corrected).client
            && (EnabledRun(c, [e] + rest, env, corrected) <==> Enabled(c, e) && EnabledRun(c1, rest, env, corrected))
            && (rest == [] ==> Run(c1, rest, env, corrected).client == c1 && EnabledRun(c1, rest, env, corrected))
  {
    assert ([e] + rest)[0] == e;
    assert ([e] + rest)[1..] == rest;
  }

  /** The first `connect` on a fresh client opens socket 1. */
  lemma FirstConnect(config: Config, corrected: bool)
    ensures var c1 := Step(Initial, ConnectCall(config), Permissive(), corrected).client;
            c1.ws == Some(1) && c1.live == {1} && c1.closing == {} && c1.nextId == 2
            && c1.status == Connecting && !c1.manual && c1.armed == {}
  {
    var env := Permissive();
    var url := BuildWebSocketUrl(config.gotifyUrl, config.clientToken, env.parse);
    assert url.Some? && env.socketAccepts(url.value);
  }

  /** A second `connect` closes socket 1 itself and opens socket 2. */
  lemma SecondConnect(c1: Client, config: Config, corrected: bool)
    requires c1.ws == Some(1) && c1.live == {1} && c1.closing == {} && c1.nextId == 2 && c1.armed == {}
    ensures var c2 := Step(c1, ConnectCall(config), Permissive(), corrected).client;
            c2.ws == Some(2) && c2.live == {1, 2} && c2.closing == {1} && !c2.manual
            && c2.config == Some(config) && c2.status == Connecting && c2.nextId == 3 && c2.armed == {}
  {
    var env := Permissive();
    var url := BuildWebSocketUrl(config.gotifyUrl, config.clientToken, env.parse);
    assert url.Some? && env.socketAccepts(url.value);
  }

  /** The defect of the close handler as written: connect twice on one client,
      then let the first socket's close event arrive. The client forgets the
      second socket although it is still open, reports DISCONNECTED and arms a
      reconnect, which would open a third socket next to the unreferenced second. */
  lemma StaleCloseOrphansSocket(config: Config)
    ensures var env := Permissive();
            var events := [ConnectCall(config), ConnectCall(config), Close(1)];
            var o := Run(Initial, events, env, false);
            && EnabledRun(Initial, events, env, false)
            && o.client.ws.None? && 2 in o.client.live - o.client.closing
            && o.client.status == Disconnected && o.client.timer.Some?
            && !Inv(o.client)
  {
    var env := Permissive();
    var c1 := Step(Initial, ConnectCall(config), env, false).client;
    FirstConnect(config, false);
    var c2 := Step(c1, ConnectCall(config), env, false).client;
    SecondConnect(c1, config, false);
    var c3 := Step(c2, Close(1), env, false).client;
    assert c3.live == {2} && c3.closing == {};
    RunOfThree(Initial, ConnectCall(config), ConnectCall(config), Close(1), env, false);
  }

  /** With the guard, the same events leave the second socket current and open. */
  lemma StaleCloseIgnoredWhenCorrected(config: Config)
    ensures var env := Permissive();
            var events := [ConnectCall(config), ConnectCall(config), Close(1)];
            var o := Run(Initial, events, env, true);
            && EnabledRun(Initial, events, env, true)
            && o.client.ws == Some(2) && o.client.status == Connecting && Inv(o.client)
  {
    var env := Permissive();
    var c1 := Step(Initial, ConnectCall(config), env, true).client;
    FirstConnect(config, true);
    var c2 := Step(c1, ConnectCall(config), env, true).client;
    SecondConnect(c1, config, true);
    CorrectedStaleClose(c2, env);
    RunOfThree(Initial, ConnectCall(config), ConnectCall(config), Close(1), env, true);
  }

  /** The guarded close of socket 1 after the second `connect`. */
  lemma CorrectedStaleClose(c2: Client, env: Env)
    requires c2.ws == Some(2) && c2.live == {1, 2} && c2.closing == {1} && c2.armed == {} && c2.nextId == 3
    ensures var c3 := Step(c2, Close(1), env, true).client;
            c3.ws == Some(2) && c3.live == {2} && c3.closing == {} && Inv(c3) && c3.status == c2.status
  {
    var c1 := c2.(live := c2.live - {1}, closing := c2.closing - {1});
    assert c1.live == {2} by {
      assert forall x :: x in c1.live <==> x == 2;
    }
    assert c1.closing == {};
    assert Step(c2, Close(1), env, true).client == c1;
  }

  /** `isConnected()`. */
  predicate IsConnected(c: Client) {
    c.status == Connected
  }
}

=== FILE: history.dfy ===
/** The processed-id ledger of src/core/storage/history.ts: the ids of Gotify
    messages already handled, kept deduplicated, in descending order and capped
    at 1000, plus the install timestamp that is written only once. The two keys
    of `chrome.storage.local` it owns are a `LocalArea` value; whether a storage
    read succeeds and how a write fails are parameters. */
module History {
  import opened Wrappers
  import opened Seqs

  const StorageKey: string := "droplink_history"
  const InstallTimeKey: string := "droplink_install_time"

  /** How many ids the ledger keeps. */
  const MaxHistorySize: nat := 1000

  /** The stored ledger record. `processedIds` is `None` when it is missing or
      not an array. */
  datatype HistoryRecord = HistoryRecord(processedIds: Option<seq<int>>, lastSyncTime: Option<int>)

  /** The ledger's two storage keys: `None` where nothing is stored. */
  datatype LocalArea = LocalArea(history: Option<HistoryRecord>, installTime: Option<int>)

  /** The debugging summary of the ledger. */
  datatype Stats = Stats(count: nat, lastSyncTime: Option<int>, newestId: Option<int>, oldestId: Option<int>)

  ghost predicate StrictlyDescending(s: seq<int>) {
    forall i, j | 0 <= i < j < |s| :: s[i] > s[j]
  }

  /** Reference definition of the ledger contents: `r` lists the `k` largest
      elements of `S` (all of them when there are fewer), largest first. */
  ghost predicate IsTop(r: seq<int>, S: set<int>, k: nat) {
    && StrictlyDescending(r)
    && Elems(r) <= S
    && |r| == (if k < |S| then k else |S|)
    && (forall x, y | x in r && y in S && y !in r :: y < x)
  }

  /** The head of a non-empty top list is the maximum of the set. */
  lemma TopHeadIsMax(r: seq<int>, S: set<int>, k: nat)
    requires IsTop(r, S, k) && |r| > 0
    ensures r[0] in S && forall y | y in S :: y <= r[0]
  {
    forall y | y in S ensures y <= r[0] {
      assert r[0] in r;
      if y in r {
        var j :| 0 <= j < |r| && r[j] == y;
        assert j == 0 || r[0] > r[j];
      }
    }
  }

  /** There is only one top list: the reference definition is deterministic. */
  lemma {:induction false} TopUnique(a: seq<int>, b: seq<int>, S: set<int>, k: nat)
    requires IsTop(a, S, k) && IsTop(b, S, k)
    ensures a == b
    decreases |a|
  {
    if |a| > 0 {
      TopHeadIsMax(a, S, k);
      TopHeadIsMax(b, S, k);
      var m := a[0];
      assert b[0] == m;
      TopTail(a, S, k);
      TopTail(b, S, k);
      TopUnique(a[1..], b[1..], S - {m}, k - 1);
      assert a == [m] + a[1..] && b == [m] + b[1..];
    }
  }

  /** Removing the head of a top list leaves the top list of the rest. */
  lemma TopTail(r: seq<int>, S: set<int>, k: nat)
    requires IsTop(r, S, k) && |r| > 0
    ensures k > 0 && IsTop(r[1..], S - {r[0]}, k - 1)
  {
    var m := r[0];
    var t := r[1..];
    assert r == [m] + t;
    forall y | y in t ensures y in S - {m} {
      var j :| 0 <= j < |t| && t[j] == y;
      assert r[j + 1] == y;
    }
    forall x, y | x in t && y in S - {m} && y !in t ensures y < x {
      assert x in r && y !in r;
    }
  }

  /** The `k`-prefix of any strictly descending listing of `S` is its top `k`. */
  lemma PrefixIsTop(d: seq<int>, S: set<int>, k: nat)
    requires StrictlyDescending(d)
    requires Elems(d) == S
    ensures IsTop(d[..if k < |d| then k else |d|], S, k)
  {
    StrictDistinct(d);
    DistinctCard(d);
    var n := if k < |d| then k else |d|;
    var p := d[..n];
    forall x, y | x in p && y in S && y !in p ensures y < x {
      var i :| 0 <= i < n && p[i] == x;
      var j :| 0 <= j < |d| && d[j] == y;
      assert forall t | 0 <= t < n :: d[t] == p[t];
    }
  }

  lemma StrictDistinct(s: seq<int>)
    requires StrictlyDescending(s)
    ensures Distinct(s)
  {
  }

  lemma SubsetCard(A: set<int>, B: set<int>)
    requires A <= B
    ensures |A| <= |B|
    ensures |A| == |B| ==> A == B
  {
    assert B == A + (B - A);
    assert |B| == |A| + |B - A|;
  }

  /** `getInstallTime`: the stored timestamp, or `None` when absent or when the read fails. */
  function GetInstallTime(area: LocalArea, readOk: bool): (r: Option<int>)
    ensures r.Some? <==> readOk && area.installTime.Some?
    ensures r.Some? ==> r == area.installTime
  {
    if readOk then area.installTime else None
  }

  /** `setInstallTime`: writes `timestamp` only when no install time can be read;
      a failed write rejects with the storage error. */
  function SetInstallTime(area: LocalArea, timestamp: int, readOk: bool, writeError: Option<string>)
    : (r: Result<LocalArea>)
    ensures readOk && area.installTime.Some? ==> r == Ok(area)
    ensures GetInstallTime(area, readOk).None? && writeError.None? ==> r == Ok(area.(installTime := Some(timestamp)))
    ensures r.Ok? ==> r.value.history == area.history && r.value.installTime.Some?
    ensures r.Err? <==> GetInstallTime(area, readOk).None? && writeError.Some?
  {
    if GetInstallTime(area, readOk).Some? then Ok(area)
    else
      match writeError
      case Some(e) => Err(e)
      case None => Ok(area.(installTime := Some(timestamp)))
  }

  /** `getProcessedIds`: the stored list, or `[]` when there is no record, its
      `processedIds` is not an array, or the read fails. */
  function GetProcessedIds(area: LocalArea, readOk: bool): (r: seq<int>)
    ensures !readOk || area.history.None? || area.history.value.processedIds.None? ==> r == []
    ensures readOk && area.history.Some? && area.history.value.processedIds.Some? ==>
              r == area.history.value.processedIds.value
    ensures r != [] ==> readOk && area.history.Some? && area.history.value.processedIds == Some(r)
  {
    if readOk && area.history.Some? && area.history.value.processedIds.Some? then
      area.history.value.processedIds.value
    else []
  }

  /** `processedIds.includes(id)`, scanning from the front. */
  function IsProcessed(id: int, processedIds: seq<int>): (b: bool)
    ensures b <==> id in processedIds
    decreases |processedIds|
  {
    |processedIds| > 0 && (processedIds[0] == id || IsProcessed(id, processedIds[1..]))
  }

  /** The new ledger contents: merge, `Array.from(new Set(...))`, sort
      descending, `slice(0, 1000)`. */
  function Merge(existing: seq<int>, ids: seq<int>): (r: seq<int>)
    ensures IsTop(r, Elems(existing) + Elems(ids), MaxHistorySize)
  {
    var unique := Dedup(existing + ids);
    var sorted := SortDesc(unique, (x: int) => x);
    DistinctPreserved(unique, sorted);
    PermutationElems(unique, sorted);
    ElemsConcat(existing, ids);
    PrefixIsTop(sorted, Elems(existing) + Elems(ids), MaxHistorySize);
    SliceTo(sorted, MaxHistorySize)
  }

  /** `markAsProcessed(ids)` at time `now`. `Ok(None)` is the early return that
      touches no storage; `Ok(Some(a))` is the area after the write. A failed
      read counts as an empty ledger; a failed write rejects. */
  function MarkAsProcessed(area: LocalArea, ids: seq<int>, now: int, readOk: bool, writeError: Option<string>)
    : (r: Result<Option<LocalArea>>)
    ensures |ids| == 0 ==> r == Ok(None)
    ensures |ids| > 0 ==> (r.Err? <==> writeError.Some?) && (r.Ok? ==> r.value.Some?)
    ensures r.Ok? && r.value.Some? ==>
      var a := r.value.value;
      && a.installTime == area.installTime
      && a.history.Some? && a.history.value.lastSyncTime == Some(now)
      && a.history.value.processedIds.Some?
      && IsTop(a.history.value.processedIds.value,
               Elems(GetProcessedIds(area, readOk)) + Elems(ids), MaxHistorySize)
    ensures r.Ok? && r.value.Some? && !readOk ==>
      Elems(r.value.value.history.value.processedIds.value) <= Elems(ids)
  {
    if |ids| == 0 then Ok(None)
    else
      var merged := Merge(GetProcessedIds(area, readOk), ids);
      match writeError
      case Some(e) => Err(e)
      case None => Ok(Some(area.(history := Some(HistoryRecord(Some(merged), Some(now))))))
  }

  /** Write, then read: after a successful `setInstallTime`, a readable
      `getInstallTime` reports the time that was already there, or else the
      one just written. */
  lemma InstallTimeRoundTrip(area: LocalArea, timestamp: int, readOk: bool, writeError: Option<string>)
    ensures var r := SetInstallTime(area, timestamp, readOk, writeError);
            r.Ok? ==> GetInstallTime(r.value, true) == Some(GetInstallTime(area, readOk).GetOr(timestamp))
  {
  }

  /** Write, then read: after a successful mark, a readable `getProcessedIds`
      returns the merged list, and every id just marked is reported processed
      unless the ledger had to evict it. */
  lemma ProcessedIdsRoundTrip(area: LocalArea, ids: seq<int>, now: int, readOk: bool)
    requires |ids| > 0
    ensures var a := MarkAsProcessed(area, ids, now, readOk, None).value.value;
            && GetProcessedIds(a, true) == Merge(GetProcessedIds(area, readOk), ids)
            && (|Elems(GetProcessedIds(area, readOk)) + Elems(ids)| <= MaxHistorySize ==>
                  forall id | id in ids :: IsProcessed(id, GetProcessedIds(a, true)))
  {
    var known := GetProcessedIds(area, readOk);
    var merged := Merge(known, ids);
    var a := MarkAsProcessed(area, ids, now, readOk, None).value.value;
    assert a == area.(history := Some(HistoryRecord(Some(merged), Some(now))));
    var S := Elems(known) + Elems(ids);
    if |S| <= MaxHistorySize {
      TopKeepsAll(merged, S, MaxHistorySize);
      forall id | id in ids
        ensures IsProcessed(id, merged)
      {
        assert id in Elems(ids);
      }
    }
  }

  /** Marking the same ids twice stores the same list as marking them once;
      only `lastSyncTime` moves. */
  lemma MarkAsProcessedIdempotent(area: LocalArea, ids: seq<int>, t1: int, t2: int)
    requires |ids| > 0
    ensures var once := MarkAsProcessed(area, ids, t1, true, None).value.value;
            var twice := MarkAsProcessed(once, ids, t2, true, None).value.value;
            twice.history.value.processedIds == once.history.value.processedIds
            && twice.history.value.lastSyncTime == Some(t2)
  {
    var S := Elems(GetProcessedIds(area, true)) + Elems(ids);
    var once := MarkAsProcessed(area, ids, t1, true, None).value.value;
    var kept := GetProcessedIds(once, true);
    var T := Elems(kept) + Elems(ids);
    var twice := MarkAsProcessed(once, ids, t2, true, None).value.value;
    TopRestricted(kept, S, T, MaxHistorySize);
    TopUnique(twice.history.value.processedIds.value, kept, T, MaxHistorySize);
  }

  /** A top list stays the top list of any smaller set that still contains it. */
  lemma TopRestricted(r: seq<int>, S: set<int>, T: set<int>, k: nat)
    requires IsTop(r, S, k)
    requires Elems(r) <= T <= S
    ensures IsTop(r, T, k)
  {
    StrictDistinct(r);
    DistinctCard(r);
    SubsetCard(Elems(r), T);
    SubsetCard(T, S);
    if |S| <= k {
      SubsetCard(Elems(r), S);
    }
  }

  /** With room to spare, the ledger keeps every id it has seen. */
  lemma TopKeepsAll(r: seq<int>, S: set<int>, k: nat)
    requires IsTop(r, S, k)
    requires |S| <= k
    ensures Elems(r) == S
  {
    StrictDistinct(r);
    DistinctCard(r);
    SubsetCard(Elems(r), S);
  }

  /** `getHistoryStats`: count, last sync time, and the first and last stored
      ids; an empty, missing or unreadable ledger gives `{count: 0}`. */
  function GetHistoryStats(area: LocalArea, readOk: bool): (s: Stats)
    ensures s.count == |GetProcessedIds(area, readOk)|
    ensures s.count == 0 ==> s == Stats(0, None, None, None)
    ensures s.count > 0 ==>
      var ids := GetProcessedIds(area, readOk);
      s.newestId == Some(ids[0]) && s.oldestId == Some(ids[|ids| - 1])
      && s.lastSyncTime == area.history.value.lastSyncTime
  {
    if !readOk || area.history.None? || area.history.value.processedIds.None?
       || |area.history.value.processedIds.value| == 0 then
      Stats(0, None, None, None)
    else
      var ids := area.history.value.processedIds.value;
      Stats(|ids|, area.history.value.lastSyncTime, Some(ids[0]), Some(ids[|ids| - 1]))
  }

  /** After a successful mark, the stats report the largest id ever marked as newest. */
  lemma StatsAfterMark(area: LocalArea, ids: seq<int>, now: int)
    requires |ids| > 0
    ensures var a := MarkAsProcessed(area, ids, now, true, None).value.value;
            var S := Elems(GetProcessedIds(area, true)) + Elems(ids);
            var s := GetHistoryStats(a, true);
            && s.count > 0 && s.lastSyncTime == Some(now)
            && s.newestId.Some? && s.newestId.value in S
            && forall y | y in S :: y <= s.newestId.value
  {
    var S := Elems(GetProcessedIds(area, true)) + Elems(ids);
    var a := MarkAsProcessed(area, ids, now, true, None).value.value;
    var kept := a.history.value.processedIds.value;
    assert ids[0] in S;
    TopHeadIsMax(kept, S, MaxHistorySize);
  }
}

=== FILE: history_sync.dfy ===
/** The backlog reconciler of src/background/history-sync-manager.ts. Nothing in
    the background constructs it. When run, it fetches the newest messages,
    keeps the unprocessed directives that arrived since installation, replays
    the newest of them through the router one at a time with a pause between
    successes, and records them all in the processed-id ledger. Storage, the
    network, the router and the clock are parameters; what the reconciler does
    is a trace of `SyncEvent`s. */
module HistorySync {
  import opened Wrappers
  import opened Text
  import opened Types
  import opened Seqs
  import History
  import RestClient
  import ConfigStore

  const DefaultFetchLimit: int := 100
  const DefaultMaxOpenTabs: int := 10
  const DefaultBatchInterval: int := 300

  const SyncFailedTitle: string := "历史同步失败"
  const RestoredTitle: string := "历史消息已恢复"

  /** An observable step of a synchronisation. */
  datatype SyncEvent =
    | Fetch(limit: int)
    | Routed(id: int)
    | Slept(ms: int)
    | Marked(ids: seq<int>)
    | ShownError(title: string, message: string)
    | ShownInfo(title: string, message: string)

  /** `n || d` on an optional number: a missing or zero value takes the default. */
  function OrDefault(n: Option<int>, d: int): (r: int)
    ensures n.Some? && n.value != 0 ==> r == n.value
    ensures n.None? || n.value == 0 ==> r == d
  {
    if n.Some? && n.value != 0 then n.value else d
  }

  // ---- Selection ----

  /** The directive filter: a `droplink` with at least one action of type
      `openTab` and content of type `url` whose value is a string that is not
      blank. Unlike the validators it checks neither the action's owner nor
      the URL's scheme. */
  predicate IsReplayable(m: GotifyMessage) {
    && m.droplink.Some?
    && m.droplink.value.actions.Some?
    && SomeOpenTabKind(m.droplink.value.actions.value)
    && m.droplink.value.content.Some?
    && m.droplink.value.content.value.kind == Some("url")
    && m.droplink.value.content.value.value.Some?
    && Trim(m.droplink.value.content.value.value.value) != []
  }

  /** `actions.some(a => a.type === "openTab")`. */
  predicate SomeOpenTabKind(actions: seq<DroplinkAction>) {
    exists a | a in actions :: a.kind == Some("openTab")
  }

  /** The install-time filter; no install time keeps everything. */
  function SinceInstall(messages: seq<GotifyMessage>, installTime: Option<int>): (r: seq<GotifyMessage>)
    ensures installTime.None? ==> r == messages
    ensures installTime.Some? ==> r == Filter(messages, (m: GotifyMessage) => m.date >= installTime.value)
  {
    match installTime
    case None => messages
    case Some(t) => Filter(messages, (m: GotifyMessage) => m.date >= t)
  }

  /** A message that passes all three filters. */
  predicate Eligible(m: GotifyMessage, installTime: Option<int>, processed: seq<int>) {
    && (installTime.None? || m.date >= installTime.value)
    && m.id !in processed
    && IsReplayable(m)
  }

  function Date(m: GotifyMessage): int {
    m.date
  }

  /** The three filters, in the source's order. */
  function Candidates(messages: seq<GotifyMessage>, installTime: Option<int>, processed: seq<int>)
    : (r: seq<GotifyMessage>)
    ensures forall m :: m in r <==> m in messages && Eligible(m, installTime, processed)
    ensures |r| <= |messages|
  {
    var recent := SinceInstall(messages, installTime);
    var unseen := Filter(recent, (m: GotifyMessage) => !History.IsProcessed(m.id, processed));
    Filter(unseen, IsReplayable)
  }

  /** `filterUnprocessedMessages`: the candidates, newest first (stable for
      equal dates), at most `maxOpenTabs || 10` of them. */
  function Select(messages: seq<GotifyMessage>, installTime: Option<int>, processed: seq<int>, config: Config)
    : (r: seq<GotifyMessage>)
    ensures forall i | 0 <= i < |r| :: r[i] in messages && Eligible(r[i], installTime, processed)
    ensures SortedDesc(r, Date)
    ensures |r| <= |messages|
    ensures var cap := OrDefault(config.maxOpenTabs, DefaultMaxOpenTabs);
            cap >= 0 ==> |r| <= cap
    ensures multiset(r) <= multiset(Candidates(messages, installTime, processed))
    ensures var sorted := SortDesc(Candidates(messages, installTime, processed), Date);
            |r| <= |sorted| && r == sorted[..|r|]
  {
    var sorted := SortDesc(Candidates(messages, installTime, processed), Date);
    SortedCandidates(messages, installTime, processed);
    SliceSorted(sorted, Date, OrDefault(config.maxOpenTabs, DefaultMaxOpenTabs));
    var r := SliceTo(sorted, OrDefault(config.maxOpenTabs, DefaultMaxOpenTabs));
    PrefixMultiset(sorted, |r|);
    r
  }

  /** The sorted candidates are eligible messages of the response. */
  lemma SortedCandidates(messages: seq<GotifyMessage>, installTime: Option<int>, processed: seq<int>)
    ensures forall i | 0 <= i < |SortDesc(Candidates(messages, installTime, processed), Date)| ::
              var m := SortDesc(Candidates(messages, installTime, processed), Date)[i];
              m in messages && Eligible(m, installTime, processed)
  {
    var cands := Candidates(messages, installTime, processed);
    var sorted := SortDesc(cands, Date);
    forall i | 0 <= i < |sorted| ensures sorted[i] in messages && Eligible(sorted[i], installTime, processed) {
      assert sorted[i] in multiset(sorted);
      assert sorted[i] in multiset(cands);
      assert sorted[i] in cands;
    }
  }

  /** The selection is the newest of the candidates: an eligible message left
      out is no newer than anything selected, and was left out because the
      cap was reached. */
  lemma SelectIsNewest(messages: seq<GotifyMessage>, installTime: Option<int>, processed: seq<int>,
                       config: Config, m: GotifyMessage)
    requires m in messages && Eligible(m, installTime, processed)
    requires m !in Select(messages, installTime, processed, config)
    ensures var r := Select(messages, installTime, processed, config);
            && (forall i | 0 <= i < |r| :: r[i].date >= m.date)
            && (OrDefault(config.maxOpenTabs, DefaultMaxOpenTabs) >= 0 ==>
                  |r| == OrDefault(config.maxOpenTabs, DefaultMaxOpenTabs))
  {
    var cands := Candidates(messages, installTime, processed);
    var sorted := SortDesc(cands, Date);
    var r := Select(messages, installTime, processed, config);
    assert m in multiset(cands);
    assert m in sorted by {
      assert m in multiset(sorted);
    }
    PrefixDominates(sorted, Date, r, m);
  }

  /** Every eligible message is selected when there are no more of them than the cap. */
  lemma SelectKeepsAllUnderCap(messages: seq<GotifyMessage>, installTime: Option<int>, processed: seq<int>,
                               config: Config)
    requires |Candidates(messages, installTime, processed)| <= OrDefault(config.maxOpenTabs, DefaultMaxOpenTabs)
    ensures multiset(Select(messages, installTime, processed, config))
            == multiset(Candidates(messages, installTime, processed))
  {
    var cands := Candidates(messages, installTime, processed);
    var cap := OrDefault(config.maxOpenTabs, DefaultMaxOpenTabs);
    var sorted := SortDesc(cands, Date);
    assert Select(messages, installTime, processed, config) == SliceTo(sorted, cap);
    SliceToWhole(sorted, cap);
  }

  /** Messages of equal date keep their relative order from the response: the
      selected messages of any one date are the first of the candidates of
      that date, in response order. */
  lemma SelectIsStable(messages: seq<GotifyMessage>, installTime: Option<int>, processed: seq<int>,
                       config: Config, v: int)
    ensures var run := KeyRun(Select(messages, installTime, processed, config), Date, v);
            var all := KeyRun(Candidates(messages, installTime, processed), Date, v);
            |run| <= |all| && run == all[..|run|]
  {
    var cands := Candidates(messages, installTime, processed);
    var sorted := SortDesc(cands, Date);
    var r := Select(messages, installTime, processed, config);
    SortDescStable(cands, Date, v);
    KeyRunPrefix(sorted, |r|, Date, v);
  }

  // ---- Replay ----

  /** What replaying message `i` of `ms` contributes: its route and, when the
      route resolved and more messages follow, the pause. */
  function ReplayStep(ms: seq<GotifyMessage>, i: nat, interval: int, routeOk: GotifyMessage -> bool): seq<SyncEvent>
    requires i < |ms|
  {
    [Routed(ms[i].id)] + (if routeOk(ms[i]) && i < |ms| - 1 then [Slept(interval)] else [])
  }

  /** The replay of `ms` from position `i` on: the reference the batch loop is held to. */
  function ReplayFrom(ms: seq<GotifyMessage>, i: nat, interval: int, routeOk: GotifyMessage -> bool): seq<SyncEvent>
    decreases |ms| - i
  {
    if i >= |ms| then [] else ReplayStep(ms, i, interval, routeOk) + ReplayFrom(ms, i + 1, interval, routeOk)
  }

  /** The number of routes that resolve among `ms[i..]`. */
  function OkFrom(ms: seq<GotifyMessage>, i: nat, routeOk: GotifyMessage -> bool): nat
    decreases |ms| - i
  {
    if i >= |ms| then 0 else (if routeOk(ms[i]) then 1 else 0) + OkFrom(ms, i + 1, routeOk)
  }

  /** `processBatch`'s loop: route each message in order, count the routes
      that resolve and pause after each of them except the last message's. */
  method ProcessBatch(ms: seq<GotifyMessage>, config: Config, routeOk: GotifyMessage -> bool)
    returns (trace: seq<SyncEvent>, successCount: nat)
    ensures trace == ReplayFrom(ms, 0, OrDefault(config.batchOpenInterval, DefaultBatchInterval), routeOk)
    ensures successCount == OkFrom(ms, 0, routeOk)
  {
    var interval := OrDefault(config.batchOpenInterval, DefaultBatchInterval);
    trace := [];
    successCount := 0;
    var i := 0;
    while i < |ms|
      invariant 0 <= i <= |ms|
      invariant trace + ReplayFrom(ms, i, interval, routeOk) == ReplayFrom(ms, 0, interval, routeOk)
      invariant successCount + OkFrom(ms, i, routeOk) == OkFrom(ms, 0, routeOk)
    {
      ghost var before := trace;
      var m := ms[i];
      trace := trace + [Routed(m.id)];
      if routeOk(m) {
        successCount := successCount + 1;
        if i < |ms| - 1 {
          trace := trace + [Slept(interval)];
        }
      }
      assert trace == before + ReplayStep(ms, i, interval, routeOk);
      assert ReplayFrom(ms, i, interval, routeOk)
          == ReplayStep(ms, i, interval, routeOk) + ReplayFrom(ms, i + 1, interval, routeOk);
      i := i + 1;
    }
  }

  /** The ids routed in `trace`, in order. */
  function RoutedIds(trace: seq<SyncEvent>): seq<int>
    decreases |trace|
  {
    if |trace| == 0 then []
    else (if trace[0].Routed? then [trace[0].id] else []) + RoutedIds(trace[1..])
  }

  /** The number of pauses in `trace`. */
  function Sleeps(trace: seq<SyncEvent>): nat
    decreases |trace|
  {
    if |trace| == 0 then 0 else (if trace[0].Slept? then 1 else 0) + Sleeps(trace[1..])
  }

  /** The ids of `ms`, in order: `ms.map(m => m.id)`. */
  function Ids(ms: seq<GotifyMessage>): (ids: seq<int>)
    ensures |ids| == |ms| && forall i | 0 <= i < |ms| :: ids[i] == ms[i].id
  {
    seq(|ms|, i requires 0 <= i < |ms| => ms[i].id)
  }

  lemma {:induction false} RoutedIdsAppend(a: seq<SyncEvent>, b: seq<SyncEvent>)
    ensures RoutedIds(a + b) == RoutedIds(a) + RoutedIds(b)
    ensures Sleeps(a + b) == Sleeps(a) + Sleeps(b)
    decreases |a|
  {
    if |a| == 0 {
      assert a + b == b;
    } else {
      var head: seq<int> := if a[0].Routed? then [a[0].id] else [];
      var pause: nat := if a[0].Slept? then 1 else 0;
      assert (a + b)[0] == a[0];
      assert (a + b)[1..] == a[1..] + b;
      RoutedIdsAppend(a[1..], b);
      assert RoutedIds(a + b) == head + RoutedIds(a[1..] + b);
      assert RoutedIds(a) == head + RoutedIds(a[1..]);
      assert Sleeps(a + b) == pause + Sleeps(a[1..] + b);
      assert Sleeps(a) == pause + Sleeps(a[1..]);
    }
  }

  /** Each message is routed exactly once, in order, whichever routes fail. */
  lemma {:induction false} ReplayRoutesEach(ms: seq<GotifyMessage>, i: nat, interval: int, routeOk: GotifyMessage -> bool)
    requires i <= |ms|
    ensures RoutedIds(ReplayFrom(ms, i, interval, routeOk)) == Ids(ms[i..])
    decreases |ms| - i
  {
    if i < |ms| {
      ReplayRoutesEach(ms, i + 1, interval, routeOk);
      var step := ReplayStep(ms, i, interval, routeOk);
      RoutedIdsAppend(step, ReplayFrom(ms, i + 1, interval, routeOk));
      RoutedIdsAppend([Routed(ms[i].id)], step[1..]);
      assert step == [Routed(ms[i].id)] + step[1..];
      assert RoutedIds(step[1..]) == [] by {
        if |step| > 1 {
          assert step[1..] == [Slept(interval)];
        }
      }
      assert Ids(ms[i..]) == [ms[i].id] + Ids(ms[i + 1..]);
    }
  }

  /** One pause follows every resolved route but the last message's. */
  lemma {:induction false} ReplayPauses(ms: seq<GotifyMessage>, i: nat, interval: int, routeOk: GotifyMessage -> bool)
    requires i < |ms|
    ensures Sleeps(ReplayFrom(ms, i, interval, routeOk))
            == OkFrom(ms, i, routeOk) - (if routeOk(ms[|ms| - 1]) then 1 else 0)
    decreases |ms| - i
  {
    var step := ReplayStep(ms, i, interval, routeOk);
    RoutedIdsAppend(step, ReplayFrom(ms, i + 1, interval, routeOk));
    assert Sleeps(step) == if routeOk(ms[i]) && i < |ms| - 1 then 1 else 0 by {
      assert Sleeps([Routed(ms[i].id)]) == 0;
      if routeOk(ms[i]) && i < |ms| - 1 {
        assert step == [Routed(ms[i].id), Slept(interval)];
        assert step[1..] == [Slept(interval)];
      }
    }
    if i + 1 < |ms| {
      ReplayPauses(ms, i + 1, interval, routeOk);
    }
  }

  /** The router never rejects, so in the running extension every route
      resolves: the count is the number of messages and there is one pause
      between each two of them. */
  lemma {:induction false} AllRoutesResolve(ms: seq<GotifyMessage>, i: nat, interval: int)
    requires i < |ms|
    ensures OkFrom(ms, i, (m: GotifyMessage) => true) == |ms| - i
    ensures Sleeps(ReplayFrom(ms, i, interval, (m: GotifyMessage) => true)) == |ms| - i - 1
    decreases |ms| - i
  {
    if i + 1 < |ms| {
      AllRoutesResolve(ms, i + 1, interval);
    }
    ReplayPauses(ms, i, interval, (m: GotifyMessage) => true);
  }

  // ---- Synchronisation ----

  /** The reconciler's state: whether a synchronisation is in flight. */
  datatype SyncOutcome = SyncOutcome(syncing: bool, area: History.LocalArea, trace: seq<SyncEvent>)

  /** The text of the completion notice. */
  function RestoredMessage(n: nat): string {
    "已打开 " + NatToString(n) + " 个链接"
  }

  /** The messages a synchronisation selects, given what the fetch returned. */
  function Selection(config: Config, area: History.LocalArea, readOk: bool, all: seq<GotifyMessage>)
    : seq<GotifyMessage>
  {
    Select(all, History.GetInstallTime(area, readOk), History.GetProcessedIds(area, readOk), config)
  }

  /** The part of `sync()` after the fetch resolved and `selected` was chosen: replay,
      optionally announce the successes, and mark every selected id once.
      Exactly the selected messages are routed, in order; the ledger then
      receives exactly their ids, or the failed write is reported and the
      ledger left as it was. */
  function AfterFetch(config: Config, area: History.LocalArea, readOk: bool, selected: seq<GotifyMessage>,
                      routeOk: GotifyMessage -> bool, now: int, writeError: Option<string>): (r: SyncOutcome)
    ensures !r.syncing
    ensures && RoutedIds(r.trace) == Ids(selected)
            && (|selected| == 0 ==> r == SyncOutcome(false, area, []))
            && (|selected| > 0 ==> |r.trace| > 0)
            && (|selected| > 0 && writeError.None? ==>
                  r.trace[|r.trace| - 1] == Marked(Ids(selected))
                  && r.area == History.MarkAsProcessed(area, Ids(selected), now, readOk, None).value.value)
            && (|selected| > 0 && writeError.Some? ==>
                  r.trace[|r.trace| - 1] == ShownError(SyncFailedTitle, writeError.value) && r.area == area)
  {
    if |selected| == 0 then SyncOutcome(false, area, [])
    else
      var batch := BatchTrace(selected, config, routeOk);
      var rec := Record(area, Ids(selected), now, readOk, writeError);
      var trace := batch + [rec.1];
      assert RoutedIds(trace) == Ids(selected) by {
        NoRoutes([rec.1]);
        RoutedIdsAppend(batch, [rec.1]);
      }
      assert |trace| > 0 && trace[|trace| - 1] == rec.1;
      SyncOutcome(false, rec.0, trace)
  }

  /** `processBatch` as a whole: the replay, then the completion notice when
      it is enabled and some route resolved. */
  function BatchTrace(selected: seq<GotifyMessage>, config: Config, routeOk: GotifyMessage -> bool): (t: seq<SyncEvent>)
    ensures RoutedIds(t) == Ids(selected)
  {
    var interval := OrDefault(config.batchOpenInterval, DefaultBatchInterval);
    var replay := ReplayFrom(selected, 0, interval, routeOk);
    var n := OkFrom(selected, 0, routeOk);
    var notice := if IsSet(config.showBatchNotification) && n > 0 then [ShownInfo(RestoredTitle, RestoredMessage(n))] else [];
    ReplayRoutesEach(selected, 0, interval, routeOk);
    assert selected[0..] == selected;
    NoRoutes(notice);
    RoutedIdsAppend(replay, notice);
    replay + notice
  }

  /** `markAsProcessed(ids)` seen from the reconciler: the new local area and
      the event that ends the trace, a rejection being reported. */
  function Record(area: History.LocalArea, ids: seq<int>, now: int, readOk: bool, writeError: Option<string>)
    : (r: (History.LocalArea, SyncEvent))
    requires |ids| > 0
    ensures writeError.None? ==> r.1 == Marked(ids) && r.0 == History.MarkAsProcessed(area, ids, now, readOk, None).value.value
    ensures writeError.Some? ==> r.1 == ShownError(SyncFailedTitle, writeError.value) && r.0 == area
  {
    match History.MarkAsProcessed(area, ids, now, readOk, writeError)
    case Err(e) => (area, ShownError(SyncFailedTitle, e))
    case Ok(written) => (written.GetOr(area), Marked(ids))
  }

  /** One or two events that are not routes contribute no routed id. */
  lemma NoRoutes(trace: seq<SyncEvent>)
    requires |trace| <= 2 && forall i | 0 <= i < |trace| :: !trace[i].Routed?
    ensures RoutedIds(trace) == []
  {
    if |trace| > 0 {
      assert RoutedIds(trace) == RoutedIds(trace[1..]);
      if |trace| > 1 {
        assert RoutedIds(trace[1..]) == RoutedIds(trace[1..][1..]);
        assert trace[1..][1..] == [];
      }
    }
  }

  /** `sync()`: skip when one is in flight or the flag is off; otherwise fetch
      `fetchHistoryLimit || 100` messages and continue with `AfterFetch`. A
      failed fetch is reported, never rethrown, and the in-flight flag is
      always cleared. `readOk` says whether the local-storage reads succeed,
      `writeError` whether the ledger write rejects, `now` is the clock. */
  function Sync(syncing: bool, config: Config, area: History.LocalArea, readOk: bool,
                parse: UrlParser, fetch: RestClient.FetchOutcome,
                routeOk: GotifyMessage -> bool, now: int, writeError: Option<string>): (r: SyncOutcome)
    ensures syncing ==> r == SyncOutcome(true, area, [])
    ensures !syncing ==> !r.syncing
    ensures !IsSet(config.enableHistorySync) ==> r.trace == [] && r.area == area
    ensures !syncing && IsSet(config.enableHistorySync) ==>
      var limit := OrDefault(config.fetchHistoryLimit, DefaultFetchLimit);
      var fetched := RestClient.GetMessages(config, limit, parse, fetch).result;
      && |r.trace| > 0 && r.trace[0] == Fetch(limit)
      && (fetched.Err? ==> r == SyncOutcome(false, area, [Fetch(limit), ShownError(SyncFailedTitle, fetched.error)]))
      && (fetched.Ok? ==>
            var after := AfterFetch(config, area, readOk, Selection(config, area, readOk, fetched.value), routeOk, now, writeError);
            r.area == after.area && r.trace[1..] == after.trace)
  {
    if syncing then SyncOutcome(true, area, [])
    else if !IsSet(config.enableHistorySync) then SyncOutcome(false, area, [])
    else
      var limit := OrDefault(config.fetchHistoryLimit, DefaultFetchLimit);
      match RestClient.GetMessages(config, limit, parse, fetch).result
      case Err(e) => SyncOutcome(false, area, [Fetch(limit), ShownError(SyncFailedTitle, e)])
      case Ok(all) =>
        var after := AfterFetch(config, area, readOk, Selection(config, area, readOk, all), routeOk, now, writeError);
        SyncOutcome(false, after.area, [Fetch(limit)] + after.trace)
  }

  /** The ids a whole synchronisation routes. */
  lemma SyncRoutes(config: Config, area: History.LocalArea, readOk: bool,
                   parse: UrlParser, fetch: RestClient.FetchOutcome,
                   routeOk: GotifyMessage -> bool, now: int, writeError: Option<string>)
    requires IsSet(config.enableHistorySync)
    ensures var limit := OrDefault(config.fetchHistoryLimit, DefaultFetchLimit);
            var fetched := RestClient.GetMessages(config, limit, parse, fetch).result;
            var r := Sync(false, config, area, readOk, parse, fetch, routeOk, now, writeError);
            RoutedIds(r.trace) == if fetched.Err? then [] else Ids(Selection(config, area, readOk, fetched.value))
  {
    var limit := OrDefault(config.fetchHistoryLimit, DefaultFetchLimit);
    var r := Sync(false, config, area, readOk, parse, fetch, routeOk, now, writeError);
    assert r.trace == [r.trace[0]] + r.trace[1..];
    RoutedIdsAppend([r.trace[0]], r.trace[1..]);
    NoRoutes([r.trace[0]]);
    if RestClient.GetMessages(config, limit, parse, fetch).result.Err? {
      NoRoutes(r.trace[1..]);
    }
  }

  /** If the reconciler were run with the configuration `getConfig` returns,
      it would never fetch: `getConfig` drops the history-sync flag. Nothing
      in the background runs it, so this describes that wiring only. */
  lemma SyncThroughStoreNeverFetches(read: ConfigStore.SyncRead, area: History.LocalArea, readOk: bool,
                                     parse: UrlParser, fetch: RestClient.FetchOutcome,
                                     routeOk: GotifyMessage -> bool, now: int, writeError: Option<string>)
    ensures Sync(false, ConfigStore.GetConfig(read), area, readOk, parse, fetch, routeOk, now, writeError)
            == SyncOutcome(false, area, [])
  {
  }

  /** A union of two finite sets has at most their total size. */
  lemma UnionCard(a: set<int>, b: set<int>)
    ensures |a + b| <= |a| + |b|
  {
    assert a + b == a + (b - a);
    assert |b - a| <= |b| by {
      History.SubsetCard(b - a, b);
    }
  }

  /** At-most-once replay: while the ledger has room for the previously
      processed ids and every fetched one, a later synchronisation never
      routes a message id the earlier one routed, whatever it fetches. */
  lemma NoIdReplayedTwice(config: Config, area: History.LocalArea, parse: UrlParser,
                          fetch1: RestClient.FetchOutcome, fetch2: RestClient.FetchOutcome,
                          routeOk: GotifyMessage -> bool, t1: int, t2: int)
    requires IsSet(config.enableHistorySync)
    requires var f := RestClient.GetMessages(config, OrDefault(config.fetchHistoryLimit, DefaultFetchLimit), parse, fetch1).result;
             f.Ok? ==> |Elems(History.GetProcessedIds(area, true))| + |f.value| <= History.MaxHistorySize
    ensures var r1 := Sync(false, config, area, true, parse, fetch1, routeOk, t1, None);
            var r2 := Sync(false, config, r1.area, true, parse, fetch2, routeOk, t2, None);
            forall id | id in RoutedIds(r1.trace) :: id !in RoutedIds(r2.trace)
  {
    var limit := OrDefault(config.fetchHistoryLimit, DefaultFetchLimit);
    var r1 := Sync(false, config, area, true, parse, fetch1, routeOk, t1, None);
    var f1 := RestClient.GetMessages(config, limit, parse, fetch1).result;
    SyncRoutes(config, area, true, parse, fetch1, routeOk, t1, None);
    if f1.Ok? {
      var s1 := Selection(config, area, true, f1.value);
      if |s1| > 0 {
        var ids1 := Ids(s1);
        var existing := History.GetProcessedIds(area, true);
        var S := Elems(existing) + Elems(ids1);
        ElemsCard(ids1);
        UnionCard(Elems(existing), Elems(ids1));
        var stored := r1.area.history.value.processedIds.value;
        History.TopKeepsAll(stored, S, History.MaxHistorySize);
        assert History.GetProcessedIds(r1.area, true) == stored;
        forall id | id in RoutedIds(r1.trace)
          ensures id !in RoutedIds(Sync(false, config, r1.area, true, parse, fetch2, routeOk, t2, None).trace)
        {
          assert id in Elems(ids1);
          SecondSyncSkips(config, r1.area, parse, fetch2, routeOk, t2, id);
        }
      }
    }
  }

  /** A synchronisation never routes an id already in the ledger it reads. */
  lemma SecondSyncSkips(config: Config, area: History.LocalArea, parse: UrlParser,
                        fetch: RestClient.FetchOutcome, routeOk: GotifyMessage -> bool, now: int, id: int)
    requires IsSet(config.enableHistorySync)
    requires id in History.GetProcessedIds(area, true)
    ensures id !in RoutedIds(Sync(false, config, area, true, parse, fetch, routeOk, now, None).trace)
  {
    var limit := OrDefault(config.fetchHistoryLimit, DefaultFetchLimit);
    var f := RestClient.GetMessages(config, limit, parse, fetch).result;
    SyncRoutes(config, area, true, parse, fetch, routeOk, now, None);
    if f.Ok? {
      SelectionSkipsProcessed(config, area, f.value, id);
    }
  }

  /** The selection never holds a message whose id is in the ledger. */
  lemma SelectionSkipsProcessed(config: Config, area: History.LocalArea, all: seq<GotifyMessage>, id: int)
    requires id in History.GetProcessedIds(area, true)
    ensures id !in Ids(Selection(config, area, true, all))
  {
    var processed := History.GetProcessedIds(area, true);
    var s := Select(all, History.GetInstallTime(area, true), processed, config);
    forall k | 0 <= k < |s| ensures Ids(s)[k] != id {
      assert s[k].id !in processed;
    }
  }
}

=== FILE: i18n.dfy ===
/** The translation helpers of src/shared/utils/i18n.ts: a lookup with a
    fallback chain, and placeholder substitution by split and join. The
    browser's message catalogue is the `lookup` parameter, which answers the
    empty string for a key it does not know. */
module I18n {
  import opened Wrappers
  import opened Text

  /** `chrome.i18n.getMessage`. */
  type Lookup = string -> string

  /** `a || b` on strings: the empty string is falsy. */
  function OrElse(a: string, b: string): (r: string)
    ensures a != [] ==> r == a
    ensures a == [] ==> r == b
  {
    if a != [] then a else b
  }

  /** `t(key, fallback)`: the translation, else the fallback, else the key. */
  function Translate(key: string, fallback: Option<string>, lookup: Lookup): (r: string)
    ensures lookup(key) != [] ==> r == lookup(key)
    ensures lookup(key) == [] && fallback.Some? && fallback.value != [] ==> r == fallback.value
    ensures lookup(key) == [] && (fallback.None? || fallback.value == []) ==> r == key
    ensures key != [] ==> r != []
  {
    OrElse(lookup(key), OrElse(fallback.GetOr([]), key))
  }

  /** The marker `{name}` a translation carries for the placeholder `name`. */
  function Placeholder(name: string): (p: string)
    ensures |p| == |name| + 2 && p[0] == '{' && p[|p| - 1] == '}'
  {
    "{" + name + "}"
  }

  /** The substitutions in entry order, each applied to the text the previous
      ones produced. */
  function ApplyPlaceholders(message: string, entries: seq<(string, string)>): string
    decreases |entries|
  {
    if |entries| == 0 then message
    else ApplyPlaceholders(ReplaceAll(message, Placeholder(entries[0].0), entries[0].1), entries[1..])
  }

  /** `tWithPlaceholders(key, placeholders, fallback)`; `entries` is
      `Object.entries(placeholders)`. Without a translation it answers as `t`
      does and substitutes nothing. */
  function TranslateWith(key: string, entries: seq<(string, string)>, fallback: Option<string>, lookup: Lookup)
    : (r: string)
    ensures lookup(key) == [] ==> r == Translate(key, fallback, lookup)
    ensures lookup(key) != [] ==> r == ApplyPlaceholders(lookup(key), entries)
    ensures entries == [] ==> r == Translate(key, fallback, lookup)
  {
    var message := lookup(key);
    if message == [] then OrElse(fallback.GetOr([]), key)
    else ApplyPlaceholders(message, entries)
  }

  /** Substituting a list of entries is substituting its first part and then
      its second part on the result. */
  lemma {:induction false} ApplyAppend(message: string, a: seq<(string, string)>, b: seq<(string, string)>)
    ensures ApplyPlaceholders(message, a + b) == ApplyPlaceholders(ApplyPlaceholders(message, a), b)
    decreases |a|
  {
    if |a| == 0 {
      assert a + b == b;
    } else {
      assert (a + b)[0] == a[0];
      assert (a + b)[1..] == a[1..] + b;
      ApplyAppend(ReplaceAll(message, Placeholder(a[0].0), a[0].1), a[1..], b);
    }
  }

  /** One substitution replaces every occurrence of the marker and nothing
      else: the text is some pieces free of the marker joined by the marker,
      and the result is the same pieces joined by the value. */
  lemma ReplacesEveryOccurrence(message: string, name: string, value: string)
    ensures exists pieces: seq<string> ::
              && (forall k | 0 <= k < |pieces| :: !Contains(pieces[k], Placeholder(name)))
              && Join(pieces, Placeholder(name)) == message
              && ApplyPlaceholders(message, [(name, value)]) == Join(pieces, value)
  {
    var p := Placeholder(name);
    var pieces := Split(message, p);
    SplitPiecesFree(message, p);
    SplitJoinRoundTrip(message, p);
    assert ApplyPlaceholders(message, [(name, value)]) == ApplyPlaceholders(ReplaceAll(message, p, value), []);
  }

  /** An entry whose marker does not occur leaves the text unchanged. */
  lemma UnusedEntry(message: string, name: string, value: string)
    requires !Contains(message, Placeholder(name))
    ensures ApplyPlaceholders(message, [(name, value)]) == message
  {
    ReplaceAbsent(message, Placeholder(name), value);
    assert ApplyPlaceholders(message, [(name, value)]) == ApplyPlaceholders(ReplaceAll(message, Placeholder(name), value), []);
  }

  /** Substituting a marker by itself leaves the text unchanged. */
  lemma SelfEntry(message: string, name: string)
    ensures ApplyPlaceholders(message, [(name, Placeholder(name))]) == message
  {
    SplitJoinRoundTrip(message, Placeholder(name));
    assert ApplyPlaceholders(message, [(name, Placeholder(name))])
        == ApplyPlaceholders(ReplaceAll(message, Placeholder(name), Placeholder(name)), []);
  }

  /** The documented use of `tWithPlaceholders`: a translation holding one
      marker, as `greeting` = "Hello {name}!" does, reads with that marker
      replaced by the value, whatever the fallback. */
  lemma TranslateOneMarker(key: string, pre: string, name: string, post: string, value: string,
                           fallback: Option<string>, lookup: Lookup)
    requires lookup(key) == pre + Placeholder(name) + post
    requires forall k | 0 <= k < |pre| :: pre[k] != '{'
    requires !Contains(post, Placeholder(name))
    ensures TranslateWith(key, [(name, value)], fallback, lookup) == pre + value + post
  {
    assert |lookup(key)| >= |Placeholder(name)| > 0;
    SingleMarker(pre, name, post, value);
  }

  /** A text holding one marker, with no brace before it, reads with the
      marker replaced by the value and the text around it untouched. */
  lemma SingleMarker(pre: string, name: string, post: string, value: string)
    requires forall k | 0 <= k < |pre| :: pre[k] != '{'
    requires !Contains(post, Placeholder(name))
    ensures ApplyPlaceholders(pre + Placeholder(name) + post, [(name, value)]) == pre + value + post
  {
    var p := Placeholder(name);
    var s := p + post;
    assert s[..|p|] == p && s[|p|..] == post;
    SplitWithoutOccurrence(post, p);
    assert Split(s, p) == [[], post];
    SplitUnmatched(pre, s, p);
    assert pre + s == pre + p + post;
    assert Split(pre + s, p) == [pre, post] by {
      assert pre + [] == pre;
    }
    assert ApplyPlaceholders(pre + s, [(name, value)]) == ApplyPlaceholders(ReplaceAll(pre + s, p, value), []);
    assert Join([pre, post], value) == pre + value + post;
  }

  /** Splitting text that starts with a run free of the separator's first
      character: the run joins the first piece. */
  lemma {:induction false} SplitUnmatched(pre: string, s: string, p: string)
    requires |p| > 0
    requires forall k | 0 <= k < |pre| :: pre[k] != p[0]
    ensures Split(pre + s, p) == [pre + Split(s, p)[0]] + Split(s, p)[1..]
    decreases |pre|
  {
    var S := Split(s, p);
    if |pre| == 0 {
      assert pre + s == s && pre + S[0] == S[0];
      assert S == [S[0]] + S[1..];
    } else {
      var t := pre[1..] + s;
      var T := Split(t, p);
      assert T == [pre[1..] + S[0]] + S[1..] by {
        assert forall k | 0 <= k < |pre[1..]| :: pre[1..][k] == pre[k + 1];
        SplitUnmatched(pre[1..], s, p);
      }
      assert Split(pre + s, p) == [[pre[0]] + T[0]] + T[1..] by {
        assert (pre + s)[1..] == t;
        assert (pre + s)[0] != p[0];
        SplitHeadUnmatched(pre + s, p);
      }
      assert T[0] == pre[1..] + S[0] && T[1..] == S[1..];
      assert [pre[0]] + (pre[1..] + S[0]) == pre + S[0];
    }
  }

  /** A text that does not start with the separator: its first character
      joins the first piece of the rest. */
  lemma SplitHeadUnmatched(s: string, p: string)
    requires |p| > 0 && |s| > 0
    requires !StartsWith(s, p)
    ensures Split(s, p) == [[s[0]] + Split(s[1..], p)[0]] + Split(s[1..], p)[1..]
  {
    if |s| < |p| {
      assert [s[0]] + s[1..] == s;
    }
  }

  /** Entries act on each other's output: a value that carries a later
      entry's marker is substituted again, so the entry order matters. */
  lemma EntryOrderMatters()
    ensures ApplyPlaceholders("{a}", [("a", "{b}"), ("b", "x")]) == "x"
    ensures ApplyPlaceholders("{a}", [("b", "x"), ("a", "{b}")]) == "{b}"
  {
    var pa := Placeholder("a");
    var pb := Placeholder("b");
    WholeMarker("a");
    WholeMarker("b");
    OtherMarker("a", 'b');
    OtherMarker("b", 'a');
    assert ApplyPlaceholders("{a}", [("a", "{b}"), ("b", "x")])
        == ApplyPlaceholders(ReplaceAll("{a}", pa, "{b}"), [("b", "x")]);
    assert ApplyPlaceholders("{b}", [("b", "x")]) == ApplyPlaceholders(ReplaceAll("{b}", pb, "x"), []);
    assert ApplyPlaceholders("{a}", [("b", "x"), ("a", "{b}")])
        == ApplyPlaceholders(ReplaceAll("{a}", pb, "x"), [("a", "{b}")]);
    assert ApplyPlaceholders("{a}", [("a", "{b}")]) == ApplyPlaceholders(ReplaceAll("{a}", pa, "{b}"), []);
  }

  /** A text that is exactly one marker splits into two empty pieces. */
  lemma WholeMarker(name: string)
    ensures Split(Placeholder(name), Placeholder(name)) == [[], []]
  {
    var p := Placeholder(name);
    assert p[|p|..] == [];
    assert Split([], p) == [[]];
  }

  /** A one-letter marker does not occur in another one-letter marker. */
  lemma OtherMarker(name: string, other: char)
    requires |name| == 1 && name[0] != other
    ensures Split(Placeholder(name), Placeholder([other])) == [Placeholder(name)]
  {
    var s := Placeholder(name);
    var p := Placeholder([other]);
    assert !Contains(s, p) by {
      assert !StartsWith(s, p) by {
        assert s[1] != p[1];
      }
      NoRoom(s[1..], p);
    }
    SplitWithoutOccurrence(s, p);
  }
}

=== FILE: js.dfy ===
/** JSON-shaped JavaScript values, for the code that inspects `any`-typed input at run time. */
module Js {

  /** A value as `JSON.parse` produces it (numbers restricted to integers). */
  datatype Value =
    | Undefined
    | Null
    | Bool(b: bool)
    | Num(n: int)
    | Str(s: string)
    | Arr(items: seq<Value>)
    | Obj(fields: map<string, Value>)
  {
    /** JavaScript truthiness: `undefined`, `null`, `false`, `0` and `""` are falsy. */
    predicate Truthy() {
      match this
      case Undefined => false
      case Null => false
      case Bool(b) => b
      case Num(n) => n != 0
      case Str(s) => s != []
      case Arr(_) => true
      case Obj(_) => true
    }

    /** `typeof v === "object"`: true for `null`, arrays and objects. */
    predicate IsObjectType() {
      Null? || Arr? || Obj?
    }

    /** `v == null`: `undefined` or `null`. */
    predicate IsNullish() {
      Undefined? || Null?
    }

    /** Optional-chaining property read `v?.key`: a missing key, or a value
        without own properties, reads as `undefined`. */
    function Get(key: string): Value {
      if Obj? && key in fields then fields[key] else Undefined
    }
  }
}

=== FILE: legacy_message.dfy ===
/** The older directive handler of lib/message-handler.ts: a structural check
    of an untyped message (`isDroplinkMessage`), the extraction of its
    directive, and the open-tab handling that reports failures instead of
    rethrowing them. The tab manager it calls, lib/tab-manager, is not part of
    this model: opening a tab is the `opens` parameter. */
module LegacyMessage {
  import opened Wrappers
  import opened Text
  import opened Js
  import Types
  import OpenTab

  const OpenTabAction: string := "openTab"

  /** A call the handler makes. `activate` is passed on as found, so a
      non-boolean value reaches the tab manager unchanged. */
  datatype LegacyEffect = TabOpened(url: string, activate: Value) | ErrorShown(title: string, message: string)

  /** `message?.extras?.droplink`. */
  function DroplinkOf(v: Value): Value {
    v.Get("extras").Get("droplink")
  }

  /** A truthy value whose `typeof` is `"object"`: an array or an object. */
  predicate IsObjectLike(v: Value) {
    v.Truthy() && v.IsObjectType()
  }

  /** `url` starts with one of the two web schemes. */
  predicate IsWebUrl(url: string) {
    StartsWith(url, "http://") || StartsWith(url, "https://")
  }

  /** `isDroplinkMessage(message)`: the checks in the order the function makes
      them, each rejecting on its own. Every property read is on a JSON value,
      so nothing throws and the `catch` branch does not occur. */
  function IsDroplinkMessage(v: Value): (r: bool)
    ensures !IsObjectLike(v) ==> !r
    ensures !IsObjectLike(DroplinkOf(v)) ==> !r
    ensures DroplinkOf(v).Get("action") != Str(OpenTabAction) ==> !r
    ensures !DroplinkOf(v).Get("url").Str? ==> !r
    ensures r <==> v.Obj? && DroplinkOf(v).Get("url").Str? && DroplinkOf(v).Get("action") == Str(OpenTabAction)
                   && IsWebUrl(DroplinkOf(v).Get("url").s)
  {
    if !IsObjectLike(v) then false
    else
      var d := DroplinkOf(v);
      if !IsObjectLike(d) then false
      else if d.Get("action") != Str(OpenTabAction) then false
      else if !d.Get("url").Str? then false
      else IsWebUrl(d.Get("url").s)
  }

  /** `extractDroplinkData(message)`: the directive of an accepted message,
      `null` otherwise. */
  function ExtractDroplinkData(v: Value): (r: Option<Value>)
    ensures r.None? <==> !IsDroplinkMessage(v)
    ensures r.Some? ==> r.value.Get("action") == Str(OpenTabAction)
                        && r.value.Get("url").Str? && IsWebUrl(r.value.Get("url").s)
  {
    if IsDroplinkMessage(v) then Some(DroplinkOf(v)) else None
  }

  /** `options?.activate ?? true`. */
  function Activate(d: Value): (a: Value)
    ensures d.Get("options").IsNullish() ==> a == Bool(true)
    ensures d.Get("options").Get("activate").IsNullish() ==> a == Bool(true)
    ensures !d.Get("options").Get("activate").IsNullish() ==> a == d.Get("options").Get("activate")
  {
    var options := d.Get("options");
    if options.IsNullish() then Bool(true)
    else
      var a := options.Get("activate");
      if a.IsNullish() then Bool(true) else a
  }

  /** `handleMessage(message)`: ignore what the check rejects; otherwise open
      the tab and, when that fails, show an error notification. It never
      rethrows. */
  function HandleMessage(v: Value, opens: (string, Value) -> bool): (effects: seq<LegacyEffect>)
    ensures !IsDroplinkMessage(v) ==> effects == []
    ensures IsDroplinkMessage(v) ==>
              var url := DroplinkOf(v).Get("url").s;
              var activate := Activate(DroplinkOf(v));
              && IsWebUrl(url)
              && 1 <= |effects| <= 2 && effects[0] == TabOpened(url, activate)
              && (|effects| == 2 <==> !opens(url, activate))
              && (|effects| == 2 ==> effects[1] == ErrorShown(OpenTab.OpenFailedTitle, url))
  {
    match ExtractDroplinkData(v)
    case None => []
    case Some(d) =>
      var url := d.Get("url").s;
      var activate := Activate(d);
      [TabOpened(url, activate)] + (if opens(url, activate) then [] else [ErrorShown(OpenTab.OpenFailedTitle, url)])
  }

  // ---- Agreement with the typed directive ----

  /** A JSON string as an optional string. */
  function AsString(v: Value): (r: Option<string>)
    ensures r.Some? <==> v.Str?
    ensures r.Some? ==> v == Str(r.value)
  {
    if v.Str? then Some(v.s) else None
  }

  /** A JSON boolean as an optional boolean. */
  function AsBool(v: Value): (r: Option<bool>)
    ensures r.Some? <==> v.Bool?
    ensures r.Some? ==> v == Bool(r.value)
  {
    if v.Bool? then Some(v.b) else None
  }

  /** The typed reading of a directive object (older shape only). */
  function Decode(d: Value): (r: Types.DroplinkMessage)
    ensures r.content.None? && r.actions.None?
  {
    Types.DroplinkMessage(None, None, AsString(d.Get("action")), AsString(d.Get("url")),
                          AsBool(d.Get("options").Get("activate")))
  }

  /** The message object a sender writes for an older-shape directive. */
  function Encode(url: string, activate: Option<bool>): (v: Value)
    ensures v.Obj?
  {
    var options := if activate.Some? then map["options" := Obj(map["activate" := Bool(activate.value)])] else map[];
    var droplink := Obj(map["action" := Str(OpenTabAction), "url" := Str(url)] + options);
    Obj(map["extras" := Obj(map["droplink" := droplink])])
  }

  /** The structural check agrees with the current open-tab handler's
      `validate` on the typed reading of any message whose directive is an
      object. */
  lemma AgreesWithValidate(v: Value, base: Types.GotifyMessage)
    ensures IsDroplinkMessage(v) <==>
              && IsObjectLike(v) && IsObjectLike(DroplinkOf(v))
              && OpenTab.Validate(base.(droplink := Some(Decode(DroplinkOf(v)))))
  {
    var d := DroplinkOf(v);
    if IsObjectLike(v) && IsObjectLike(d) {
      var t := Decode(d);
      assert t.action == Some(OpenTabAction) <==> d.Get("action") == Str(OpenTabAction);
    }
  }

  /** Round trip: a sender's directive is accepted exactly when its URL has a
      web scheme; extracted and read back it is the directive that was sent,
      and handling it opens that URL with `activate` defaulting to true. */
  lemma EncodeRoundTrip(url: string, activate: Option<bool>, opens: (string, Value) -> bool)
    ensures IsDroplinkMessage(Encode(url, activate)) <==> IsWebUrl(url)
    ensures IsWebUrl(url) ==>
              && ExtractDroplinkData(Encode(url, activate)).Some?
              && Decode(ExtractDroplinkData(Encode(url, activate)).value)
                 == Types.DroplinkMessage(None, None, Some(OpenTabAction), Some(url), activate)
              && HandleMessage(Encode(url, activate), opens)[0]
                 == TabOpened(url, Bool(activate.GetOr(true)))
  {
    var v := Encode(url, activate);
    var d := DroplinkOf(v);
    assert d.Get("action") == Str(OpenTabAction);
    assert d.Get("url") == Str(url);
    if activate.Some? {
      assert d.Get("options") == Obj(map["activate" := Bool(activate.value)]);
    } else {
      assert d.Get("options") == Undefined;
    }
  }
}

=== FILE: notification_filter.dfy ===
/** The notification handler of lib/handlers/notification-handler.ts: a
    feature gate, then user filter rules over the message text (include or
    exclude keywords, case-insensitive substring, satisfied by any one rule). */
module NotificationFilter {
  import opened Wrappers
  import opened Text
  import opened Types

  const OpenTabAction: string := "openTab"
  const DefaultTitle: string := "通知"
  /** `String(error)` for the `TypeError` that reading `notification` of a
      missing `features` throws in V8. */
  const MissingFeaturesError: string := "TypeError: Cannot read properties of undefined (reading 'notification')"

  /** A filter rule: its `type` (`"include"` or `"exclude"` when written by the
      options page) and its `keywords`, `None` when absent. */
  datatype Rule = Rule(kind: string, keywords: Option<seq<string>>)

  /** `config.notificationFilters`. */
  datatype Filters = Filters(enabled: Option<bool>, filterOpenTab: Option<bool>, rules: Option<seq<Rule>>)

  /** `config.features`. */
  datatype Features = Features(notification: Option<bool>)

  /** The parts of the configuration the handler reads; both are optional,
      because the configuration it loads may lack them. */
  datatype NotificationConfig = NotificationConfig(features: Option<Features>, notificationFilters: Option<Filters>)

  /** What `handle` did with one message. The notification's title is shown
      before the time suffix is appended and its body before a verification
      code is prefixed. */
  datatype Outcome = Threw(error: string) | Suppressed | Shown(title: string, body: string)

  /** The text rules are matched against: title and body, space-separated,
      lower-cased. */
  function SearchText(m: GotifyMessage): string {
    Lower(m.title + " " + m.message)
  }

  /** `keywords.some(k => text.includes(k.toLowerCase()))`. */
  function SomeKeyword(text: string, keywords: seq<string>): (r: bool)
    ensures r <==> exists i | 0 <= i < |keywords| :: Contains(text, Lower(keywords[i]))
    decreases |keywords|
  {
    if |keywords| == 0 then false
    else
      var rest := SomeKeyword(text, keywords[1..]);
      assert forall i | 1 <= i < |keywords| :: keywords[i] == keywords[1..][i - 1];
      Contains(text, Lower(keywords[0])) || rest
  }

  /** A rule without keywords matches every text. */
  predicate HasKeywords(rule: Rule) {
    rule.keywords.Some? && rule.keywords.value != []
  }

  /** `matchesRule(searchText, rule)`. */
  function MatchesRule(text: string, rule: Rule): (r: bool)
    ensures !HasKeywords(rule) ==> r
    ensures HasKeywords(rule) && rule.kind == "include" ==>
              (r <==> exists i | 0 <= i < |rule.keywords.value| :: Contains(text, Lower(rule.keywords.value[i])))
    ensures HasKeywords(rule) && rule.kind == "exclude" ==>
              (r <==> forall i | 0 <= i < |rule.keywords.value| :: !Contains(text, Lower(rule.keywords.value[i])))
    ensures HasKeywords(rule) && rule.kind != "include" && rule.kind != "exclude" ==> !r
  {
    if !HasKeywords(rule) then true
    else if rule.kind == "include" then SomeKeyword(text, rule.keywords.value)
    else if rule.kind == "exclude" then !SomeKeyword(text, rule.keywords.value)
    else false
  }

  /** The loop over the rules: true at the first rule that matches. */
  function AnyRuleMatches(text: string, rules: seq<Rule>): (r: bool)
    ensures r <==> exists i | 0 <= i < |rules| :: MatchesRule(text, rules[i])
    decreases |rules|
  {
    if |rules| == 0 then false
    else if MatchesRule(text, rules[0]) then true
    else
      var rest := AnyRuleMatches(text, rules[1..]);
      assert forall i | 1 <= i < |rules| :: rules[i] == rules[1..][i - 1];
      rest
  }

  /** `droplink?.action === "openTab"`. */
  predicate IsOpenTabDirective(m: GotifyMessage) {
    m.droplink.Some? && m.droplink.value.action == Some(OpenTabAction)
  }

  /** `filters?.rules` is missing or empty. */
  predicate NoRules(f: Filters) {
    f.rules.None? || f.rules.value == []
  }

  /** `shouldShowNotification(message, config)`. */
  function ShouldShow(m: GotifyMessage, filters: Option<Filters>): (r: bool)
    ensures filters.None? || !IsSet(filters.value.enabled) ==> r
    ensures (filters.Some? && IsSet(filters.value.enabled) && IsSet(filters.value.filterOpenTab)
             && IsOpenTabDirective(m)) ==> !r
    ensures (filters.Some? && IsSet(filters.value.enabled)
             && !(IsSet(filters.value.filterOpenTab) && IsOpenTabDirective(m))) ==>
              && (NoRules(filters.value) ==> r)
              && (!NoRules(filters.value) ==>
                    (r <==> exists i | 0 <= i < |filters.value.rules.value| ::
                              MatchesRule(SearchText(m), filters.value.rules.value[i])))
  {
    if filters.None? || !IsSet(filters.value.enabled) then true
    else if IsSet(filters.value.filterOpenTab) && IsOpenTabDirective(m) then false
    else if NoRules(filters.value) then true
    else AnyRuleMatches(SearchText(m), filters.value.rules.value)
  }

  /** `handle(message)` given the configuration it loaded: reading the feature
      flag throws when `features` is missing; otherwise a message is shown only
      when the feature is on and the filters let it through. */
  function Handle(m: GotifyMessage, config: NotificationConfig): (o: Outcome)
    ensures config.features.None? ==> o == Threw(MissingFeaturesError)
    ensures config.features.Some? && !IsSet(config.features.value.notification) ==> o == Suppressed
    ensures config.features.Some? && IsSet(config.features.value.notification) ==>
              (o.Shown? <==> ShouldShow(m, config.notificationFilters)) && !o.Threw?
    ensures o.Shown? ==> o.body == m.message && o.title != []
                         && (m.title != [] ==> o.title == m.title)
  {
    if config.features.None? then Threw(MissingFeaturesError)
    else if !IsSet(config.features.value.notification) then Suppressed
    else if !ShouldShow(m, config.notificationFilters) then Suppressed
    else Shown(if m.title == [] then DefaultTitle else m.title, m.message)
  }

  /** With keywords, an include rule and an exclude rule over the same keywords
      disagree on every text. */
  lemma IncludeExcludeComplement(text: string, keywords: seq<string>)
    requires keywords != []
    ensures MatchesRule(text, Rule("include", Some(keywords))) == !MatchesRule(text, Rule("exclude", Some(keywords)))
  {
  }

  /** Rules are alternatives: once filtering by rules, adding a rule never hides
      a message the existing rules let through. */
  lemma AddRuleNeverHides(m: GotifyMessage, f: Filters, rule: Rule)
    requires !NoRules(f)
    requires ShouldShow(m, Some(f))
    ensures ShouldShow(m, Some(f.(rules := Some(f.rules.value + [rule]))))
  {
    var g := f.(rules := Some(f.rules.value + [rule]));
    if IsSet(f.enabled) {
      var i :| 0 <= i < |f.rules.value| && MatchesRule(SearchText(m), f.rules.value[i]);
      assert g.rules.value[i] == f.rules.value[i];
    }
  }

  /** Matching ignores letter case in the keywords: a keyword list and its
      lower-cased form match the same texts. */
  lemma {:induction false} KeywordCaseIgnored(text: string, keywords: seq<string>)
    ensures SomeKeyword(text, keywords) == SomeKeyword(text, LowerAll(keywords))
    decreases |keywords|
  {
    if |keywords| > 0 {
      LowerIdempotent(keywords[0]);
      KeywordCaseIgnored(text, keywords[1..]);
      assert LowerAll(keywords)[1..] == LowerAll(keywords[1..]);
    }
  }

  /** Every keyword lower-cased. */
  function LowerAll(keywords: seq<string>): (r: seq<string>)
    ensures |r| == |keywords|
    ensures forall i | 0 <= i < |keywords| :: r[i] == Lower(keywords[i])
    decreases |keywords|
  {
    if |keywords| == 0 then [] else [Lower(keywords[0])] + LowerAll(keywords[1..])
  }

  /** Matching ignores letter case in the message: a message and its
      lower-cased copy are shown or hidden alike. */
  lemma MessageCaseIgnored(m: GotifyMessage, filters: Option<Filters>)
    ensures ShouldShow(m, filters) == ShouldShow(m.(title := Lower(m.title), message := Lower(m.message)), filters)
  {
    var m' := m.(title := Lower(m.title), message := Lower(m.message));
    LowerConcat(m.title, " ");
    LowerConcat(m.title + " ", m.message);
    LowerConcat(m'.title, " ");
    LowerConcat(m'.title + " ", m'.message);
    LowerIdempotent(m.title);
    LowerIdempotent(m.message);
    assert Lower(" ") == " ";
    assert SearchText(m) == SearchText(m');
  }
}

=== FILE: open_tab.dfy ===
/** The open-tab handler of src/core/messaging/handlers/openTab.ts: the only
    handler the background registers. It acts on directives of the older shape,
    `droplink.action === "openTab"` with `droplink.url`. */
module OpenTab {
  import opened Wrappers
  import opened Text
  import opened Types
  import opened Validators
  import opened Effects

  /** The handler's registry label, `action`. */
  const Label: string := "openTab"

  const OpenedTitle: string := "链接已打开"
  const OpenFailedTitle: string := "无法打开链接"

  /** What running a handler on one message did: the calls it made, and whether
      it rejected. */
  datatype HandlerRun = HandlerRun(effects: seq<Effect>, threw: bool)

  /** `validate`: the directive asks to open a tab, and its `url` is a string
      starting with an HTTP(S) scheme (untrimmed). */
  predicate Validate(m: GotifyMessage) {
    && m.droplink.Some?
    && m.droplink.value.action == Some(Label)
    && m.droplink.value.url.Some?
    && (StartsWith(m.droplink.value.url.value, "http://")
        || StartsWith(m.droplink.value.url.value, "https://"))
  }

  /** A message `validate` accepts also passes the general URL check. */
  lemma ValidateImpliesValidUrl(m: GotifyMessage)
    requires Validate(m)
    ensures IsValidUrl(m.droplink.value.url.value)
  {
    var url := m.droplink.value.url.value;
    assert IsBlank(url[..0]);
    if StartsWith(url, "http://") {
      TrimmedStartsWithBackward(url, "http://", 0);
    } else {
      TrimmedStartsWithBackward(url, "https://", 0);
    }
  }

  /** `handle(message, context)`: with an open-tab directive, create the tab on
      `url` (activated unless `options.activate` says otherwise) and, only when
      `openTabNotification` is on, report the outcome; a failed tab creation is
      rethrown. Anything else is ignored. */
  function Handle(config: Config, m: GotifyMessage, tabOpens: TabPort): (run: HandlerRun)
    ensures m.droplink.None? || m.droplink.value.action != Some(Label) ==> run == HandlerRun([], false)
    ensures m.droplink.Some? && m.droplink.value.action == Some(Label) ==>
      var url := m.droplink.value.url;
      && |run.effects| >= 1
      && run.effects[0] == TabCreate(url, m.droplink.value.activate.GetOr(true))
      && (run.threw <==> !tabOpens(url))
      && (|run.effects| == 2 <==> config.openTabNotification)
      && (|run.effects| == 2 ==>
            run.effects[1] == if run.threw then Notify(Failure, OpenFailedTitle, url)
                              else Notify(Success, OpenedTitle, url))
      && |run.effects| <= 2
  {
    match m.droplink
    case None => HandlerRun([], false)
    case Some(d) =>
      if d.action != Some(Label) then HandlerRun([], false)
      else
        var create := TabCreate(d.url, d.activate.GetOr(true));
        var created := tabOpens(d.url);
        var notice :=
          if !config.openTabNotification then []
          else if created then [Notify(Success, OpenedTitle, d.url)]
          else [Notify(Failure, OpenFailedTitle, d.url)];
        HandlerRun([create] + notice, !created)
  }

  /** `handle` leaves the scheme check to `validate`: a directive that `validate`
      rejects still has its tab opened. */
  lemma HandleDoesNotValidate(config: Config, tabOpens: TabPort)
    ensures var url := "ftp://example.org";
            var m := GotifyMessage(1, 1, "", "", 0, 0,
                       Some(DroplinkMessage(None, None, Some(Label), Some(url), None)));
            !Validate(m) && Handle(config, m, tabOpens).effects[0] == TabCreate(Some(url), true)
  {
    var url := "ftp://example.org";
    assert url[0] != "http://"[0];
  }
}

=== FILE: rest_client.dfy ===
/** The Gotify REST catch-up client of src/core/gotify/rest-client.ts: one
    `GET /message` request for the newest messages, with the limit clamped, the
    HTTP failures mapped to user-facing texts and the response shape checked.
    The network is the `FetchOutcome` parameter: what `fetchWithTimeout`
    delivers for the request. */
module RestClient {
  import opened Wrappers
  import opened Text
  import opened Types

  const MinLimit: int := 1
  const MaxLimit: int := 200

  const IncompleteConfigError: string := "Gotify 配置不完整：缺少服务器地址或客户端 Token"
  const TokenRejectedError: string := "客户端 Token 无效或已过期，请重新配置"
  const AddressError: string := "Gotify 服务器地址错误，请检查配置"
  const ServerError: string := "Gotify 服务器内部错误，请稍后重试"
  const FormatError: string := "Gotify API 返回数据格式错误"
  const TimeoutError: string := "请求超时"
  /** The message of the `TypeError` the URL constructor throws. */
  const InvalidUrlError: string := "Failed to construct 'URL': Invalid URL"

  /** A response body as `response.json()` reads it: not JSON (with the parser's
      error text), a falsy JSON value, or a truthy value whose `error`,
      `message` and `messages` fields are given when they are a string, a string
      and an array of messages respectively. */
  datatype Body =
    | Unparseable(reason: string)
    | Falsy
    | Parsed(error: Option<string>, message: Option<string>, messages: Option<seq<GotifyMessage>>)

  /** What `fetchWithTimeout` yields: the 10-second abort, another rejection, or a response. */
  datatype FetchOutcome =
    | TimedOut
    | NetworkError(reason: string)
    | Response(status: nat, statusText: string, body: Body)

  /** The request: the URL text handed to the parser and the two query
      parameters set on it, in order. */
  datatype Request = Request(target: string, limit: int, token: string)

  /** The request issued (`None` when the call rejects before any request) and the outcome. */
  datatype Fetched = Fetched(request: Option<Request>, result: Result<seq<GotifyMessage>>)

  /** `Math.max(1, Math.min(200, limit))`. */
  function ClampLimit(limit: int): (r: int)
    ensures MinLimit <= r <= MaxLimit
    ensures r == limit <==> MinLimit <= limit <= MaxLimit
    ensures limit < MinLimit ==> r == MinLimit
    ensures limit > MaxLimit ==> r == MaxLimit
  {
    var capped := if MaxLimit < limit then MaxLimit else limit;
    if MinLimit > capped then MinLimit else capped
  }

  /** `response.ok`. */
  predicate IsOk(status: nat) {
    200 <= status <= 299
  }

  /** The text of the error `handleHttpError` builds for a failed response:
      fixed texts for 401/403, 404 and 500/502/503/504; otherwise the body's
      `error`, else its `message`, else `HTTP <status>: <statusText>`, the
      last also when the body cannot be read. */
  function HttpErrorMessage(status: nat, statusText: string, body: Body): (m: string)
    ensures m != []
    ensures status == 401 || status == 403 ==> m == TokenRejectedError
    ensures status == 404 ==> m == AddressError
    ensures status in {500, 502, 503, 504} ==> m == ServerError
    ensures status !in {401, 403, 404, 500, 502, 503, 504} ==>
      && (body.Parsed? && body.error.Some? && body.error.value != [] ==> m == body.error.value)
      && ((body.Parsed? && (body.error.None? || body.error.value == [])
           && body.message.Some? && body.message.value != []) ==> m == body.message.value)
      && ((!body.Parsed? || ((body.error.None? || body.error.value == [])
                             && (body.message.None? || body.message.value == [])))
          ==> m == HttpFallback(status, statusText))
  {
    if status == 401 || status == 403 then TokenRejectedError
    else if status == 404 then AddressError
    else if status in {500, 502, 503, 504} then ServerError
    else
      match body
      case Parsed(error, message, _) =>
        if error.Some? && error.value != [] then error.value
        else if message.Some? && message.value != [] then message.value
        else HttpFallback(status, statusText)
      case _ => HttpFallback(status, statusText)
  }

  /** `HTTP ${status}: ${statusText}`. */
  function HttpFallback(status: nat, statusText: string): (m: string)
    ensures |m| > 5 && m[..5] == "HTTP "
  {
    "HTTP " + NatToString(status) + ": " + statusText
  }

  /** `getMessages(config, limit)`, with `parse` standing for the URL
      constructor and `fetch` for what the network delivers. */
  function GetMessages(config: Config, limit: int, parse: UrlParser, fetch: FetchOutcome): (f: Fetched)
    ensures config.gotifyUrl == [] || config.clientToken == [] ==>
              f == Fetched(None, Err(IncompleteConfigError))
    ensures f.request.Some? <==>
              config.gotifyUrl != [] && config.clientToken != [] && parse(config.gotifyUrl + "/message").Some?
    ensures f.request.Some? ==>
              f.request.value == Request(config.gotifyUrl + "/message", ClampLimit(limit), config.clientToken)
    ensures f.result.Ok? <==>
              f.request.Some? && fetch.Response? && IsOk(fetch.status)
              && fetch.body.Parsed? && fetch.body.messages.Some?
    ensures f.result.Ok? ==> f.result.value == fetch.body.messages.value
    ensures f.request.Some? && fetch.Response? && !IsOk(fetch.status) ==>
              f.result == Err(HttpErrorMessage(fetch.status, fetch.statusText, fetch.body))
    ensures f.request.Some? && fetch == TimedOut ==> f.result == Err(TimeoutError)
  {
    if config.gotifyUrl == [] || config.clientToken == [] then Fetched(None, Err(IncompleteConfigError))
    else
      var target := config.gotifyUrl + "/message";
      if parse(target).None? then Fetched(None, Err(InvalidUrlError))
      else
        var request := Request(target, ClampLimit(limit), config.clientToken);
        Fetched(Some(request), Receive(fetch))
  }

  /** The `try` block of `getMessages`: turns what the network delivered into
      the list of messages or the error it rejects with. */
  function Receive(fetch: FetchOutcome): (r: Result<seq<GotifyMessage>>)
    ensures r.Ok? <==> fetch.Response? && IsOk(fetch.status) && fetch.body.Parsed? && fetch.body.messages.Some?
  {
    match fetch
    case TimedOut => Err(TimeoutError)
    case NetworkError(reason) => Err(reason)
    case Response(status, statusText, body) =>
      if !IsOk(status) then Err(HttpErrorMessage(status, statusText, body))
      else
        match body
        case Unparseable(reason) => Err(reason)
        case Falsy => Err(FormatError)
        case Parsed(_, _, messages) =>
          if messages.None? then Err(FormatError) else Ok(messages.value)
  }

  /** Every error text for a failed response comes from one of three
      sources: a fixed text chosen by the status, a field of the body, or the
      status line. */
  lemma HttpErrorMessageSource(status: nat, statusText: string, body: Body)
    ensures var m := HttpErrorMessage(status, statusText, body);
            || m in {TokenRejectedError, AddressError, ServerError}
            || (body.Parsed? && (body.error == Some(m) || body.message == Some(m)))
            || m == HttpFallback(status, statusText)
  {
  }

  /** Once a request is issued, the result is what `Receive` makes of the
      network's answer, whatever the limit asked for; an accepted result
      always came from a request that carried the clamped limit and the token. */
  lemma GetMessagesReceives(config: Config, limit: int, other: int, parse: UrlParser, fetch: FetchOutcome)
    ensures var f := GetMessages(config, limit, parse, fetch);
            && (f.request.Some? ==> f.result == Receive(fetch))
            && f.result == GetMessages(config, other, parse, fetch).result
            && (f.result.Ok? ==> f.request == Some(Request(config.gotifyUrl + "/message", ClampLimit(limit), config.clientToken)))
  {
  }

  /** `testConnection`: true iff fetching one message resolves. */
  function TestConnection(config: Config, parse: UrlParser, fetch: FetchOutcome): (ok: bool)
    ensures ok <==> GetMessages(config, 1, parse, fetch).result.Ok?
    ensures ok ==> GetMessages(config, 1, parse, fetch).request.value.limit == 1
  {
    GetMessages(config, 1, parse, fetch).result.Ok?
  }
}

=== FILE: router.dfy ===
/** The message router of src/core/messaging/router.ts: a registry of handlers
    keyed by their action label, in insertion order, and a broadcast of every
    incoming message to all of them. */
module Router {
  import opened Wrappers
  import opened Types
  import opened Effects
  import OpenTab

  /** A registered handler: the open-tab handler, or any other handler, which
      performs one action per message and throws for the message ids in `failsOn`. */
  datatype Handler = OpenTabHandler | CustomHandler(name: string, failsOn: set<int>) {
    /** The handler's `action` label, the registry key. */
    function Label(): string {
      match this
      case OpenTabHandler => OpenTab.Label
      case CustomHandler(name, _) => name
    }
  }

  /** `MessageRouter`: the handler map, in insertion order, and the configuration
      set by `setConfig` (`None` until then). */
  datatype MessageRouter = MessageRouter(handlers: seq<Handler>, config: Option<Config>)

  /** A fresh router. */
  const Empty: MessageRouter := MessageRouter([], None)

  /** The labels of `hs`, in order. */
  function Labels(hs: seq<Handler>): (ls: seq<string>)
    ensures |ls| == |hs|
    ensures forall i | 0 <= i < |hs| :: ls[i] == hs[i].Label()
    decreases |hs|
  {
    if |hs| == 0 then [] else [hs[0].Label()] + Labels(hs[1..])
  }

  /** Every label occurs once, as in a JavaScript `Map`. */
  ghost predicate UniqueLabels(hs: seq<Handler>) {
    forall i, j | 0 <= i < j < |hs| :: hs[i].Label() != hs[j].Label()
  }

  /** The position of the first handler labelled `l`, if any. */
  function LabelIndex(hs: seq<Handler>, l: string): (r: Option<nat>)
    ensures r.Some? ==> r.value < |hs| && hs[r.value].Label() == l
    ensures r.None? ==> forall j | 0 <= j < |hs| :: hs[j].Label() != l
    decreases |hs|
  {
    if |hs| == 0 then None
    else if hs[0].Label() == l then Some(0)
    else
      match LabelIndex(hs[1..], l)
      case None =>
        assert forall j | 1 <= j < |hs| :: hs[j] == hs[1..][j - 1];
        None
      case Some(k) => Some(k + 1)
  }

  /** `Map.set(h.action, h)`: an existing entry keeps its position and gets the
      new handler; a new label goes to the end. */
  function Put(hs: seq<Handler>, h: Handler): (r: seq<Handler>)
    ensures h.Label() in Labels(hs) ==> |r| == |hs|
    ensures h.Label() !in Labels(hs) ==> r == hs + [h]
    ensures forall i | 0 <= i < |hs| && hs[i].Label() != h.Label() :: r[i] == hs[i]
    ensures h in r
    ensures Labels(r) == if h.Label() in Labels(hs) then Labels(hs) else Labels(hs) + [h.Label()]
  {
    var ls := Labels(hs);
    match LabelIndex(hs, h.Label())
    case Some(i) =>
      assert ls[i] == h.Label();
      assert Labels(hs[i := h]) == ls;
      hs[i := h]
    case None =>
      assert h.Label() !in ls by {
        forall j | 0 <= j < |ls| ensures ls[j] != h.Label() {
          assert ls[j] == hs[j].Label();
        }
      }
      assert Labels(hs + [h]) == ls + [h.Label()];
      hs + [h]
  }

  /** `register(handler)`. */
  function Register(router: MessageRouter, h: Handler): (r: MessageRouter)
    ensures r.config == router.config
    ensures UniqueLabels(router.handlers) ==> UniqueLabels(r.handlers)
    ensures h in r.handlers
    ensures Labels(r.handlers) == if h.Label() in Labels(router.handlers) then Labels(router.handlers)
                                  else Labels(router.handlers) + [h.Label()]
  {
    var hs := Put(router.handlers, h);
    assert UniqueLabels(router.handlers) ==> UniqueLabels(hs) by {
      var ls := Labels(hs);
      assert forall i | 0 <= i < |hs| :: hs[i].Label() == ls[i];
    }
    MessageRouter(hs, router.config)
  }

  /** Re-registering a label replaces the earlier handler: only the newer one is
      left under that label, and the registry does not grow. */
  lemma {:induction false} RegisterReplaces(router: MessageRouter, h: Handler)
    requires UniqueLabels(router.handlers)
    requires h.Label() in Labels(router.handlers)
    ensures var hs := Register(router, h).handlers;
            |hs| == |router.handlers|
            && forall i | 0 <= i < |hs| && hs[i].Label() == h.Label() :: hs[i] == h
  {
    var hs := Register(router, h).handlers;
    forall i | 0 <= i < |hs| && hs[i].Label() == h.Label() ensures hs[i] == h {
      PutAt(router.handlers, h, i);
    }
  }

  /** Where `Put` leaves a handler carrying the label it was given. */
  lemma PutAt(hs: seq<Handler>, h: Handler, i: nat)
    requires UniqueLabels(hs)
    requires i < |Put(hs, h)| && Put(hs, h)[i].Label() == h.Label()
    ensures Put(hs, h)[i] == h
  {
    match LabelIndex(hs, h.Label())
    case Some(k) =>
      assert Put(hs, h) == hs[k := h];
    case None =>
      assert Put(hs, h) == hs + [h];
  }

  /** `setConfig(config)`. */
  function SetConfig(router: MessageRouter, config: Config): (r: MessageRouter)
    ensures r.handlers == router.handlers && r.config == Some(config)
  {
    router.(config := Some(config))
  }

  /** Running one handler on a message with the router's configuration. */
  function Run(h: Handler, config: Config, m: GotifyMessage, tabOpens: TabPort): (run: OpenTab.HandlerRun)
    ensures h.CustomHandler? ==> run == OpenTab.HandlerRun([CustomAction(h.name, m.id)], m.id in h.failsOn)
  {
    match h
    case OpenTabHandler => OpenTab.Handle(config, m, tabOpens)
    case CustomHandler(name, failsOn) => OpenTab.HandlerRun([CustomAction(name, m.id)], m.id in failsOn)
  }

  /** The calls the broadcast makes for the handlers `hs`, each handler's own calls
      preceded by its invocation; a handler that throws is logged and skipped past. */
  function Broadcast(hs: seq<Handler>, config: Config, m: GotifyMessage, tabOpens: TabPort): seq<Effect>
    decreases |hs|
  {
    if |hs| == 0 then []
    else [HandlerCalled(hs[0].Label(), m.id)] + Run(hs[0], config, m, tabOpens).effects
         + Broadcast(hs[1..], config, m, tabOpens)
  }

  /** The handler invocations among `effects`, in order. */
  function Calls(effects: seq<Effect>): (ls: seq<string>)
    decreases |effects|
  {
    if |effects| == 0 then []
    else (if effects[0].HandlerCalled? then [effects[0].handler] else []) + Calls(effects[1..])
  }

  /** `route(message)`: nothing without a configuration; otherwise the broadcast.
      It never rejects and never consults `validate`. */
  function Route(router: MessageRouter, m: GotifyMessage, tabOpens: TabPort): (effects: seq<Effect>)
    ensures router.config.None? ==> effects == []
    ensures Calls(effects) == if router.config.None? then [] else Labels(router.handlers)
  {
    match router.config
    case None => []
    case Some(config) =>
      BroadcastCalls(router.handlers, config, m, tabOpens);
      Broadcast(router.handlers, config, m, tabOpens)
  }

  lemma {:induction false} CallsAppend(a: seq<Effect>, b: seq<Effect>)
    ensures Calls(a + b) == Calls(a) + Calls(b)
    decreases |a|
  {
    if |a| == 0 {
      assert a + b == b;
    } else {
      assert (a + b)[0] == a[0];
      assert (a + b)[1..] == a[1..] + b;
      CallsAppend(a[1..], b);
    }
  }

  /** A handler's own calls contain no handler invocation. */
  lemma RunCallsNothing(h: Handler, config: Config, m: GotifyMessage, tabOpens: TabPort)
    ensures Calls(Run(h, config, m, tabOpens).effects) == []
  {
    var e := Run(h, config, m, tabOpens).effects;
    if |e| > 0 {
      assert Calls(e) == Calls(e[1..]);
      if |e| > 1 {
        assert Calls(e[1..]) == Calls(e[2..]);
      }
    }
  }

  /** Every handler is invoked exactly once, in insertion order, whichever of them throw. */
  lemma {:induction false} BroadcastCalls(hs: seq<Handler>, config: Config, m: GotifyMessage, tabOpens: TabPort)
    ensures Calls(Broadcast(hs, config, m, tabOpens)) == Labels(hs)
    decreases |hs|
  {
    if |hs| > 0 {
      var head := [HandlerCalled(hs[0].Label(), m.id)];
      var own := Run(hs[0], config, m, tabOpens).effects;
      BroadcastCalls(hs[1..], config, m, tabOpens);
      RunCallsNothing(hs[0], config, m, tabOpens);
      CallsAppend(head + own, Broadcast(hs[1..], config, m, tabOpens));
      CallsAppend(head, own);
    }
  }

  /** Failure isolation: the broadcast over a registry is the broadcast over any
      prefix followed by the broadcast over the rest, so what one handler does
      (throwing included) never changes what the later ones do. */
  lemma {:induction false} BroadcastSplits(hs: seq<Handler>, k: nat, config: Config, m: GotifyMessage, tabOpens: TabPort)
    requires k <= |hs|
    ensures Broadcast(hs, config, m, tabOpens)
            == Broadcast(hs[..k], config, m, tabOpens) + Broadcast(hs[k..], config, m, tabOpens)
    decreases k
  {
    if k > 0 {
      BroadcastSplits(hs[1..], k - 1, config, m, tabOpens);
      assert hs[..k][1..] == hs[1..][..k - 1];
      assert hs[1..][k - 1..] == hs[k..];
    }
  }

  /** Handlers see the configuration most recently set. */
  lemma RouteUsesLatestConfig(router: MessageRouter, c1: Config, c2: Config, m: GotifyMessage, tabOpens: TabPort)
    ensures Route(SetConfig(SetConfig(router, c1), c2), m, tabOpens)
            == Broadcast(router.handlers, c2, m, tabOpens)
  {
  }

  /** The router the background builds (the open-tab handler, registered once),
      once configured, opens the tab of an open-tab directive whatever its URL. */
  lemma BackgroundRouterOpensTab(config: Config, m: GotifyMessage, tabOpens: TabPort)
    requires m.droplink.Some? && m.droplink.value.action == Some(OpenTab.Label)
    ensures var router := SetConfig(Register(Empty, OpenTabHandler), config);
            var effects := Route(router, m, tabOpens);
            |effects| >= 2 && effects[0] == HandlerCalled(OpenTab.Label, m.id)
            && effects[1] == TabCreate(m.droplink.value.url, m.droplink.value.activate.GetOr(true))
  {
    var router := SetConfig(Register(Empty, OpenTabHandler), config);
    assert router.handlers == [OpenTabHandler];
  }
}

=== FILE: runtime_handler.dfy ===
/** The control-surface dispatcher of src/background/runtime-message-handler.ts:
    the popup and the settings page send `{type, data}` requests and receive
    `{success, data?, error?}` responses. The stored configuration is the
    `read` parameter, the browser facilities the `env` parameter and the clock
    the `now` parameter. */
module RuntimeHandler {
  import opened Wrappers
  import opened Types
  import ConfigStore
  import GotifyClient
  import ConnectionManager

  const UnknownTypeError: string := "未知消息类型"
  const InvalidConfigError: string := "配置无效"
  /** `String(error)` for the `TypeError` that reading `gotifyUrl` of a missing
      `data` throws in V8. */
  const MissingDataError: string := "TypeError: Cannot read properties of undefined (reading 'gotifyUrl')"

  /** A request: its `type`, and its `data` read as a configuration (`None`
      when absent). */
  datatype Request = Request(kind: string, data: Option<Config>)

  datatype Payload = NoData | ConfigData(config: Config) | StatusData(info: StatusInfo) | ConnectedData

  datatype Response = Response(success: bool, data: Payload, error: Option<string>)

  /** The response, the connection manager afterwards, and the client calls
      made on the way (those of the throw-away test client included). */
  datatype Handled = Handled(response: Response, manager: ConnectionManager.Manager,
                             effects: seq<GotifyClient.ClientEffect>)

  function Ok(data: Payload): Response {
    Response(true, data, None)
  }

  function Fail(error: string): Response {
    Response(false, NoData, Some(error))
  }

  /** The request types the switch dispatches; `saveConfig` is declared but not among them. */
  predicate IsKnown(kind: string) {
    kind in {"getConfig", "getStatus", "testConnection", "reconnect", "disconnect"}
  }

  /** `handleTestConnection`: reject an invalid configuration before creating
      anything; otherwise connect a fresh client and disconnect it at once.
      The client's `connect` never rejects, so the answer is success. */
  function TestConnection(m: ConnectionManager.Manager, config: Config, env: GotifyClient.Env): (h: Handled)
    ensures h.manager == m
    ensures !ConfigStore.IsConfigValid(config, env.parse) ==> h == Handled(Fail(InvalidConfigError), m, [])
    ensures ConfigStore.IsConfigValid(config, env.parse) ==> h.response == Ok(ConnectedData)
  {
    if !ConfigStore.IsConfigValid(config, env.parse) then Handled(Fail(InvalidConfigError), m, [])
    else
      var test := TestClientRun(config, env);
      Handled(Ok(ConnectedData), m, test.effects)
  }

  /** The throw-away client of a connection test, connected and then
      disconnected. */
  function TestClientRun(config: Config, env: GotifyClient.Env): (o: GotifyClient.Outcome)
    ensures o.client.ws.None? && o.client.timer.None? && o.client.armed == {}
    ensures o.client.live == o.client.closing
    ensures o.client.manual && o.client.status == Disconnected
  {
    var c := GotifyClient.Connect(GotifyClient.Initial, config, env);
    GotifyClient.InitialInv();
    GotifyClient.ConnectInv(GotifyClient.Initial, config, env);
    var d := GotifyClient.Disconnect(c.client);
    GotifyClient.DisconnectInv(c.client);
    GotifyClient.Outcome(d.client, c.effects + d.effects)
  }

  /** `handleReconnect`: read the configuration; when it is valid, disconnect
      the manager and connect it anew, which always resolves. */
  function Reconnect(m: ConnectionManager.Manager, read: ConfigStore.SyncRead, env: GotifyClient.Env, now: string)
    : (h: Handled)
    ensures var config := ConfigStore.GetConfig(read);
            && (!ConfigStore.IsConfigValid(config, env.parse) ==> h == Handled(Fail(InvalidConfigError), m, []))
            && (ConfigStore.IsConfigValid(config, env.parse) ==>
                  && h.response == Ok(NoData)
                  && h.manager.client.Some? && h.manager.client.value.config == Some(config)
                  && h.manager.info.configValid == m.info.configValid
                  && (m.client.Some? && m.client.value.ws.Some? ==>
                        GotifyClient.SocketClosed(m.client.value.ws.value) in h.effects))
  {
    var config := ConfigStore.GetConfig(read);
    if !ConfigStore.IsConfigValid(config, env.parse) then Handled(Fail(InvalidConfigError), m, [])
    else
      var d := ConnectionManager.Disconnect(m, now);
      var c := ConnectionManager.Connect(d.manager, config, env, now);
      Handled(Ok(NoData), c.manager, d.effects + c.effects)
  }

  /** `handle(message)`: dispatch on the type. Every sub-handler but the test
      of a missing configuration completes normally, so the outer `catch`
      produces only that one error text. */
  function Handle(m: ConnectionManager.Manager, request: Request, read: ConfigStore.SyncRead,
                  env: GotifyClient.Env, now: string): (h: Handled)
    ensures !IsKnown(request.kind) ==> h == Handled(Fail(UnknownTypeError), m, [])
    ensures h.response.success <==> h.response.error.None?
    ensures request.kind != "reconnect" && request.kind != "disconnect" ==> h.manager == m
    ensures request.kind == "getConfig" ==> h.response == Ok(ConfigData(ConfigStore.GetConfig(read)))
    ensures request.kind == "getStatus" ==> h.response == Ok(StatusData(m.info))
    ensures request.kind == "testConnection" && request.data.None? ==>
              h == Handled(Fail(MissingDataError), m, [])
    ensures request.kind == "disconnect" ==>
              h.response == Ok(NoData) && h.manager.client.None? && h.manager.info.status == Disconnected
  {
    match request.kind
    case "getConfig" => Handled(Ok(ConfigData(ConfigStore.GetConfig(read))), m, [])
    case "getStatus" => Handled(Ok(StatusData(m.info)), m, [])
    case "testConnection" =>
      if request.data.None? then Handled(Fail(MissingDataError), m, [])
      else TestConnection(m, request.data.value, env)
    case "reconnect" => Reconnect(m, read, env, now)
    case "disconnect" =>
      var d := ConnectionManager.Disconnect(m, now);
      Handled(Ok(NoData), d.manager, d.effects)
    case _ => Handled(Fail(UnknownTypeError), m, [])
  }

  /** `saveConfig` is declared as a request type but falls to the default branch. */
  lemma SaveConfigIsUnknown(m: ConnectionManager.Manager, data: Option<Config>, read: ConfigStore.SyncRead,
                            env: GotifyClient.Env, now: string)
    ensures Handle(m, Request("saveConfig", data), read, env, now) == Handled(Fail(UnknownTypeError), m, [])
  {
  }

  /** A reconnect keeps the manager's reported status mirroring its client. */
  lemma ReconnectMirrors(m: ConnectionManager.Manager, read: ConfigStore.SyncRead, env: GotifyClient.Env, now: string)
    requires ConnectionManager.Mirrors(m)
    ensures ConnectionManager.Mirrors(Reconnect(m, read, env, now).manager)
  {
    var config := ConfigStore.GetConfig(read);
    if ConfigStore.IsConfigValid(config, env.parse) {
      var d := ConnectionManager.Disconnect(m, now);
      ConnectionManager.DisconnectMirrors(m, now);
      ConnectionManager.ConnectMirrors(d.manager, config, env, now);
    }
  }

  /** Every request keeps the manager's reported status mirroring its client. */
  lemma HandleMirrors(m: ConnectionManager.Manager, request: Request, read: ConfigStore.SyncRead,
                      env: GotifyClient.Env, now: string)
    requires ConnectionManager.Mirrors(m)
    ensures ConnectionManager.Mirrors(Handle(m, request, read, env, now).manager)
  {
    var h := Handle(m, request, read, env, now);
    if request.kind == "reconnect" {
      assert h == Reconnect(m, read, env, now);
      ReconnectMirrors(m, read, env, now);
    } else if request.kind == "disconnect" {
      assert h.manager == ConnectionManager.Disconnect(m, now).manager;
      ConnectionManager.DisconnectMirrors(m, now);
    }
  }
}

=== FILE: seqs.dfy ===
/** The array operations the engine composes: `Array.prototype.sort` with a
    descending numeric comparator (a stable sort), `slice(0, n)`, and
    `Array.from(new Set(xs))`. */
module Seqs {

  /** Non-increasing by `key`: what `sort((a, b) => key(b) - key(a))` produces. */
  ghost predicate SortedDesc<T>(s: seq<T>, key: T -> int) {
    forall i, j | 0 <= i < j < |s| :: key(s[i]) >= key(s[j])
  }

  /** Inserts `x` before the first element whose key is not larger, so that
      `x` precedes every element of equal key. */
  function Insert<T>(x: T, s: seq<T>, key: T -> int): (r: seq<T>)
    requires SortedDesc(s, key)
    ensures SortedDesc(r, key)
    ensures multiset(r) == multiset(s) + multiset{x}
    ensures |r| == |s| + 1
    ensures r[0] == x || (|s| > 0 && r[0] == s[0])
    decreases |s|
  {
    if |s| == 0 || key(x) >= key(s[0]) then
      assert SortedDesc([x] + s, key) by {
        PrependSorted(x, s, key);
      }
      [x] + s
    else
      assert SortedDesc(s[1..], key);
      var rest := Insert(x, s[1..], key);
      assert SortedDesc([s[0]] + rest, key) by {
        assert key(rest[0]) <= key(s[0]);
        PrependSorted(s[0], rest, key);
      }
      assert multiset(s) == multiset{s[0]} + multiset(s[1..]) by {
        assert s == [s[0]] + s[1..];
      }
      [s[0]] + rest
  }

  /** An element no smaller than the head of a sorted sequence can go in front. */
  lemma PrependSorted<T>(h: T, s: seq<T>, key: T -> int)
    requires SortedDesc(s, key)
    requires |s| == 0 || key(s[0]) <= key(h)
    ensures SortedDesc([h] + s, key)
  {
    var r := [h] + s;
    forall i, j | 0 <= i < j < |r| ensures key(r[i]) >= key(r[j]) {
      if i == 0 {
        assert r[j] == s[j - 1];
        assert key(s[0]) >= key(s[j - 1]) || j == 1;
      } else {
        assert r[i] == s[i - 1] && r[j] == s[j - 1];
      }
    }
  }

  /** Insertion sort into descending key order, stable for equal keys. */
  function SortDesc<T>(s: seq<T>, key: T -> int): (r: seq<T>)
    ensures SortedDesc(r, key)
    ensures multiset(r) == multiset(s)
    ensures |r| == |s|
    decreases |s|
  {
    if |s| == 0 then []
    else
      assert s == [s[0]] + s[1..];
      Insert(s[0], SortDesc(s[1..], key), key)
  }

  /** The elements of `s` whose key is `v`, in their order in `s`. */
  function KeyRun<T>(s: seq<T>, key: T -> int, v: int): seq<T>
    decreases |s|
  {
    if |s| == 0 then []
    else (if key(s[0]) == v then [s[0]] else []) + KeyRun(s[1..], key, v)
  }

  lemma KeyRunCons<T>(x: T, s: seq<T>, key: T -> int, v: int)
    ensures KeyRun([x] + s, key, v) == (if key(x) == v then [x] else []) + KeyRun(s, key, v)
  {
    assert ([x] + s)[1..] == s;
  }

  lemma {:induction false} InsertKeyRun<T>(x: T, s: seq<T>, key: T -> int, v: int)
    requires SortedDesc(s, key)
    ensures KeyRun(Insert(x, s, key), key, v)
            == (if key(x) == v then [x] else []) + KeyRun(s, key, v)
    decreases |s|
  {
    if |s| == 0 || key(x) >= key(s[0]) {
      KeyRunCons(x, s, key, v);
    } else {
      var rest := Insert(x, s[1..], key);
      InsertKeyRun(x, s[1..], key, v);
      KeyRunCons(s[0], rest, key, v);
      KeyRunCons(s[0], s[1..], key, v);
      assert [s[0]] + s[1..] == s;
    }
  }

  /** The sort is stable: the elements sharing any one key keep their relative order. */
  lemma {:induction false} SortDescStable<T>(s: seq<T>, key: T -> int, v: int)
    ensures KeyRun(SortDesc(s, key), key, v) == KeyRun(s, key, v)
    decreases |s|
  {
    if |s| > 0 {
      SortDescStable(s[1..], key, v);
      InsertKeyRun(s[0], SortDesc(s[1..], key), key, v);
    }
  }

  /** A prefix holds each element at most as often as the whole. */
  lemma PrefixMultiset<T>(s: seq<T>, n: nat)
    requires n <= |s|
    ensures multiset(s[..n]) <= multiset(s)
  {
    assert s == s[..n] + s[n..];
  }

  /** The elements of key `v` in a prefix are a prefix of those in the whole. */
  lemma {:induction false} KeyRunPrefix<T>(s: seq<T>, n: nat, key: T -> int, v: int)
    requires n <= |s|
    ensures var p := KeyRun(s[..n], key, v);
            |p| <= |KeyRun(s, key, v)| && p == KeyRun(s, key, v)[..|p|]
    decreases n
  {
    if n > 0 {
      KeyRunPrefix(s[1..], n - 1, key, v);
      assert s[..n] == [s[0]] + s[1..][..n - 1];
      KeyRunCons(s[0], s[1..][..n - 1], key, v);
      KeyRunCons(s[0], s[1..], key, v);
      assert [s[0]] + s[1..] == s;
    }
  }

  /** An element of a descending sequence that a prefix leaves out sits past
      the prefix, so every element of the prefix has a key at least as large. */
  lemma PrefixDominates<T>(sorted: seq<T>, key: T -> int, r: seq<T>, x: T)
    requires SortedDesc(sorted, key)
    requires |r| <= |sorted| && r == sorted[..|r|]
    requires x in sorted && x !in r
    ensures |r| < |sorted|
    ensures forall i | 0 <= i < |r| :: key(r[i]) >= key(x)
  {
    var j :| 0 <= j < |sorted| && sorted[j] == x;
    assert forall t | 0 <= t < |r| :: r[t] == sorted[t];
    assert j >= |r|;
    forall i | 0 <= i < |r| ensures key(r[i]) >= key(x) {
      assert r[i] == sorted[i];
    }
  }

  /** `s.slice(0, end)`: a negative `end` counts back from the length. */
  function SliceTo<T>(s: seq<T>, end: int): (r: seq<T>)
    ensures end >= 0 ==> |r| == if end < |s| then end else |s|
    ensures end < 0 ==> |r| == if |s| + end > 0 then |s| + end else 0
    ensures r == s[..|r|]
  {
    var stop := if end < 0 then (if |s| + end > 0 then |s| + end else 0)
                else if end < |s| then end else |s|;
    s[..stop]
  }

  /** A slice that reaches past the end is the whole sequence. */
  lemma SliceToWhole<T>(s: seq<T>, end: int)
    requires |s| <= end
    ensures SliceTo(s, end) == s
  {
  }

  /** `s.filter(p)`: the elements satisfying `p`, in order, each as often as in `s`. */
  function Filter<T(!new)>(s: seq<T>, p: T -> bool): (r: seq<T>)
    ensures |r| <= |s|
    ensures forall x :: x in r <==> x in s && p(x)
    ensures forall x :: multiset(r)[x] == if p(x) then multiset(s)[x] else 0
    decreases |s|
  {
    if |s| == 0 then []
    else
      assert s == [s[0]] + s[1..];
      (if p(s[0]) then [s[0]] else []) + Filter(s[1..], p)
  }

  /** A sequence has at least as many positions as distinct elements. */
  lemma {:induction false} ElemsCard<T>(s: seq<T>)
    ensures |Elems(s)| <= |s|
    decreases |s|
  {
    if |s| > 0 {
      ElemsCard(s[1..]);
      assert Elems(s) == {s[0]} + Elems(s[1..]) by {
        assert s == [s[0]] + s[1..];
      }
    }
  }

  /** A prefix of a descending sequence is descending. */
  lemma SliceSorted<T>(s: seq<T>, key: T -> int, end: int)
    requires SortedDesc(s, key)
    ensures SortedDesc(SliceTo(s, end), key)
    ensures forall i | 0 <= i < |SliceTo(s, end)| :: SliceTo(s, end)[i] == s[i]
  {
  }

  /** The elements of `s` as a set. */
  ghost function Elems<T>(s: seq<T>): set<T> {
    set x | x in s
  }

  /** No element occurs twice. */
  ghost predicate Distinct<T>(s: seq<T>) {
    forall i, j | 0 <= i < j < |s| :: s[i] != s[j]
  }

  /** `Array.from(new Set(s))`: each element once, at its first occurrence. */
  function Dedup<T(==)>(s: seq<T>): (r: seq<T>)
    ensures Distinct(r)
    ensures Elems(r) == Elems(s)
    decreases |s|
  {
    if |s| == 0 then []
    else
      var d := Dedup(s[..|s| - 1]);
      assert s == s[..|s| - 1] + [s[|s| - 1]];
      assert Elems(s) == Elems(s[..|s| - 1]) + {s[|s| - 1]};
      if s[|s| - 1] in d then d else d + [s[|s| - 1]]
  }

  /** A distinct sequence has as many elements as its set. */
  lemma {:induction false} DistinctCard<T>(s: seq<T>)
    requires Distinct(s)
    ensures |Elems(s)| == |s|
    decreases |s|
  {
    if |s| > 0 {
      var t := s[1..];
      DistinctCard(t);
      assert Elems(s) == Elems(t) + {s[0]};
      forall j | 0 <= j < |t| ensures t[j] != s[0] {
        assert t[j] == s[j + 1];
      }
    }
  }

  /** The elements of a concatenation are the union of the parts' elements. */
  lemma ElemsConcat<T>(a: seq<T>, b: seq<T>)
    ensures Elems(a + b) == Elems(a) + Elems(b)
  {
    assert forall x | x in a + b :: x in a || x in b;
  }

  lemma {:induction false} DistinctMultiplicity<T>(s: seq<T>, v: T)
    requires Distinct(s)
    ensures multiset(s)[v] <= 1
    decreases |s|
  {
    if |s| > 0 {
      var t := s[1..];
      assert s == [s[0]] + t;
      DistinctMultiplicity(t, v);
      forall j | 0 <= j < |t| ensures t[j] != s[0] {
        assert t[j] == s[j + 1];
      }
    }
  }

  lemma RepeatMultiplicity<T>(r: seq<T>, i: nat, j: nat)
    requires i < j < |r|
    ensures r[i] == r[j] ==> multiset(r)[r[i]] >= 2
  {
    assert r == r[..j] + r[j..];
    assert r[..j][i] == r[i];
    assert r[j..][0] == r[j];
  }

  /** A rearrangement of a distinct sequence is distinct. */
  lemma DistinctPreserved<T>(s: seq<T>, r: seq<T>)
    requires Distinct(s)
    requires multiset(r) == multiset(s)
    ensures Distinct(r)
  {
    forall i, j | 0 <= i < j < |r| ensures r[i] != r[j] {
      DistinctMultiplicity(s, r[i]);
      RepeatMultiplicity(r, i, j);
    }
  }

  /** A rearrangement has the same elements. */
  lemma PermutationElems<T>(s: seq<T>, r: seq<T>)
    requires multiset(r) == multiset(s)
    ensures Elems(r) == Elems(s)
  {
    assert forall x :: x in r <==> x in multiset(r);
    assert forall x :: x in s <==> x in multiset(s);
  }
}

=== FILE: text.dfy ===
/** The JavaScript string operations the extension relies on: `trim`, `startsWith`,
    `includes`, ASCII `toLowerCase`, `split`/`join`, and decimal rendering of numbers. */
module Text {

  /** The characters ECMAScript's `String.prototype.trim` removes: WhiteSpace
      (TAB, VT, FF, SP, NBSP, ZWNBSP and the Unicode Zs category) and LineTerminator. */
  predicate IsJsWhitespace(c: char) {
    || c == '\t' || c == '\n' || c == '\U{000B}' || c == '\U{000C}' || c == '\r'
    || c == ' ' || c == '\U{00A0}' || c == '\U{1680}'
    || ('\U{2000}' <= c <= '\U{200A}')
    || c == '\U{2028}' || c == '\U{2029}' || c == '\U{202F}' || c == '\U{205F}'
    || c == '\U{3000}' || c == '\U{FEFF}'
  }

  /** Drops leading whitespace: the result is the suffix of `s` that starts at
      the first non-whitespace character. */
  function TrimStart(s: string): (r: string)
    ensures |r| <= |s| && r == s[|s| - |r|..]
    ensures forall k | 0 <= k < |s| - |r| :: IsJsWhitespace(s[k])
    ensures r != [] ==> !IsJsWhitespace(r[0])
  {
    if |s| > 0 && IsJsWhitespace(s[0]) then TrimStart(s[1..]) else s
  }

  /** Drops trailing whitespace: the result is the prefix of `s` that ends at
      the last non-whitespace character. */
  function TrimEnd(s: string): (r: string)
    ensures |r| <= |s| && r == s[..|r|]
    ensures forall k | |r| <= k < |s| :: IsJsWhitespace(s[k])
    ensures r != [] ==> !IsJsWhitespace(r[|r| - 1])
  {
    if |s| > 0 && IsJsWhitespace(s[|s| - 1]) then TrimEnd(s[..|s| - 1]) else s
  }

  /** `String.prototype.trim`. */
  function Trim(s: string): (r: string)
    ensures r != [] ==> !IsJsWhitespace(r[0]) && !IsJsWhitespace(r[|r| - 1])
    ensures |r| <= |s|
  {
    TrimEnd(TrimStart(s))
  }

  /** True iff every character of `s` is whitespace, i.e. `s.trim() === ""`. */
  predicate IsBlank(s: string) {
    forall k | 0 <= k < |s| :: IsJsWhitespace(s[k])
  }

  lemma TrimEmptyIffBlank(s: string)
    ensures Trim(s) == [] <==> IsBlank(s)
  {
    var a := TrimStart(s);
    if Trim(s) != [] {
      var t := Trim(s);
      assert !IsJsWhitespace(t[0]);
      assert t[0] == a[0];
      assert a[0] == s[|s| - |a|];
    }
  }

  /** Trimming the front stops at the first non-whitespace character, wherever that is. */
  lemma TrimStartAt(s: string, d: nat)
    requires d <= |s| && IsBlank(s[..d])
    requires d == |s| || !IsJsWhitespace(s[d])
    ensures TrimStart(s) == s[d..]
    decreases d
  {
    if d > 0 {
      assert s[..d][0] == s[0];
      assert s[1..][..d - 1] == s[..d][1..];
      TrimStartAt(s[1..], d - 1);
      assert s[1..][d - 1..] == s[d..];
    }
  }

  /** Trimming the back stops after the last non-whitespace character. */
  lemma TrimEndAt(s: string, e: nat)
    requires e <= |s| && IsBlank(s[e..])
    requires e == 0 || !IsJsWhitespace(s[e - 1])
    ensures TrimEnd(s) == s[..e]
    decreases |s| - e
  {
    if e < |s| {
      var s' := s[..|s| - 1];
      assert s[e..][|s| - 1 - e] == s[|s| - 1];
      assert s'[e..] == s[e..][..|s| - 1 - e];
      TrimEndAt(s', e);
      assert s'[..e] == s[..e];
    }
  }

  /** Trimming text padded with whitespace on both sides yields the text. */
  lemma TrimPadded(pre: string, core: string, post: string)
    requires IsBlank(pre) && IsBlank(post)
    requires core != [] && !IsJsWhitespace(core[0]) && !IsJsWhitespace(core[|core| - 1])
    ensures Trim(pre + core + post) == core
  {
    var s := pre + core + post;
    var a := s[|pre|..];
    assert TrimStart(s) == a by {
      assert s[..|pre|] == pre && s[|pre|] == core[0];
      TrimStartAt(s, |pre|);
    }
    assert TrimEnd(a) == core by {
      assert a == core + post;
      assert a[|core|..] == post && a[..|core|] == core;
      TrimEndAt(a, |core|);
    }
  }

  /** A text whose lower-cased form starts and ends with a non-whitespace
      character is its own trimmed form. */
  lemma TrimOfLowered(h: string, w: string)
    requires Lower(h) == w && |w| > 0
    requires !IsJsWhitespace(w[0]) && !IsJsWhitespace(w[|w| - 1])
    ensures Trim(h) == h
  {
    assert LowerChar(h[0]) == w[0] && LowerChar(h[|h| - 1]) == w[|w| - 1];
    TrimPadded([], h, []);
    assert [] + h + [] == h;
  }

  /** A text whose lower-cased form starts and ends with a non-whitespace
      character trims to itself inside any whitespace padding. */
  lemma PaddedLoweredTrimmed(pre: string, h: string, post: string, w: string)
    requires IsBlank(pre) && IsBlank(post)
    requires Lower(h) == w && |w| > 0
    requires !IsJsWhitespace(w[0]) && !IsJsWhitespace(w[|w| - 1])
    ensures Trim(pre + h + post) == h
  {
    assert LowerChar(h[0]) == w[0] && LowerChar(h[|h| - 1]) == w[|w| - 1];
    assert h != [] && !IsJsWhitespace(h[0]) && !IsJsWhitespace(h[|h| - 1]);
    TrimPadded(pre, h, post);
  }

  /** `s.startsWith(p)`. */
  predicate StartsWith(s: string, p: string) {
    |p| <= |s| && s[..|p|] == p
  }

  /** `s.includes(p)`: some position of `s` starts an occurrence of `p`. */
  predicate Contains(s: string, p: string)
    decreases |s|
  {
    StartsWith(s, p) || (|s| > 0 && Contains(s[1..], p))
  }

  /** `Contains` agrees with the positional definition of a substring. */
  lemma {:induction false} ContainsIffOccurrence(s: string, p: string)
    ensures Contains(s, p) <==> exists i | 0 <= i <= |s| - |p| :: StartsWith(s[i..], p)
    decreases |s|
  {
    if StartsWith(s, p) {
      assert StartsWith(s[0..], p);
    } else if |s| == 0 {
    } else {
      ContainsIffOccurrence(s[1..], p);
      if Contains(s[1..], p) {
        var i :| 0 <= i <= |s[1..]| - |p| && StartsWith(s[1..][i..], p);
        assert s[1..][i..] == s[i + 1..];
      } else {
        forall i | 0 <= i <= |s| - |p| ensures !StartsWith(s[i..], p) {
          if i > 0 {
            assert s[i..] == s[1..][i - 1..];
          }
        }
      }
    }
  }

  /** `toLowerCase` restricted to ASCII letters; every other character is kept. */
  function LowerChar(c: char): (r: char)
    ensures 'A' <= c <= 'Z' ==> r as int == c as int + 32
    ensures !('A' <= c <= 'Z') ==> r == c
  {
    if 'A' <= c <= 'Z' then (c as int + 32) as char else c
  }

  function Lower(s: string): (r: string)
    ensures |r| == |s|
    ensures forall k | 0 <= k < |s| :: r[k] == LowerChar(s[k])
  {
    seq(|s|, k requires 0 <= k < |s| => LowerChar(s[k]))
  }

  /** Lower-casing twice is lower-casing once. */
  lemma LowerIdempotent(s: string)
    ensures Lower(Lower(s)) == Lower(s)
  {
    forall k | 0 <= k < |s| ensures Lower(Lower(s))[k] == Lower(s)[k] {
      var c := s[k];
      if 'A' <= c <= 'Z' {
        assert !('A' <= LowerChar(c) <= 'Z');
      }
    }
  }

  /** Lower-casing works character by character, so it distributes over concatenation. */
  lemma LowerConcat(a: string, b: string)
    ensures Lower(a + b) == Lower(a) + Lower(b)
  {
    forall k | 0 <= k < |a| + |b| ensures Lower(a + b)[k] == (Lower(a) + Lower(b))[k] {
      if k < |a| {
        assert (a + b)[k] == a[k];
      } else {
        assert (a + b)[k] == b[k - |a|];
      }
    }
  }

  /** `s.split(p)` for a non-empty separator: the pieces between the
      non-overlapping occurrences of `p` found scanning left to right. */
  function Split(s: string, p: string): (r: seq<string>)
    requires |p| > 0
    ensures |r| >= 1
    decreases |s|
  {
    if |s| < |p| then [s]
    else if s[..|p|] == p then [[]] + Split(s[|p|..], p)
    else
      var rest := Split(s[1..], p);
      [[s[0]] + rest[0]] + rest[1..]
  }

  /** `parts.join(sep)`. */
  function Join(parts: seq<string>, sep: string): string
    decreases |parts|
  {
    if |parts| == 0 then []
    else if |parts| == 1 then parts[0]
    else parts[0] + sep + Join(parts[1..], sep)
  }

  /** `s.split(p).join(v)`: every occurrence of `p` replaced by `v`. */
  function ReplaceAll(s: string, p: string, v: string): string
    requires |p| > 0
  {
    Join(Split(s, p), v)
  }

  lemma JoinCons(x: string, rest: seq<string>, sep: string)
    requires |rest| >= 1
    ensures Join([x] + rest, sep) == x + sep + Join(rest, sep)
  {
    assert ([x] + rest)[1..] == rest;
  }

  lemma JoinHeadExtend(c: char, rest: seq<string>, sep: string)
    requires |rest| >= 1
    ensures Join([[c] + rest[0]] + rest[1..], sep) == [c] + Join(rest, sep)
  {
    if |rest| == 1 {
      assert [[c] + rest[0]] + rest[1..] == [[c] + rest[0]];
    } else {
      JoinCons([c] + rest[0], rest[1..], sep);
      JoinCons(rest[0], rest[1..], sep);
      assert [rest[0]] + rest[1..] == rest;
    }
  }

  /** Joining the pieces back with the separator restores the string. */
  lemma {:induction false} SplitJoinRoundTrip(s: string, p: string)
    requires |p| > 0
    ensures Join(Split(s, p), p) == s
    decreases |s|
  {
    if |s| < |p| {
    } else if s[..|p|] == p {
      var rest := Split(s[|p|..], p);
      assert Split(s, p) == [[]] + rest;
      assert Join(rest, p) == s[|p|..] by {
        SplitJoinRoundTrip(s[|p|..], p);
      }
      JoinCons([], rest, p);
      assert s == s[..|p|] + s[|p|..];
    } else {
      var rest := Split(s[1..], p);
      assert Split(s, p) == [[s[0]] + rest[0]] + rest[1..];
      assert Join(rest, p) == s[1..] by {
        SplitJoinRoundTrip(s[1..], p);
      }
      JoinHeadExtend(s[0], rest, p);
      assert s == [s[0]] + s[1..];
    }
  }

  /** A string in which `p` does not occur splits into one piece, itself. */
  lemma {:induction false} SplitWithoutOccurrence(s: string, p: string)
    requires |p| > 0
    requires !Contains(s, p)
    ensures Split(s, p) == [s]
    decreases |s|
  {
    if |s| >= |p| {
      SplitWithoutOccurrence(s[1..], p);
      assert [s[0]] + s[1..] == s;
    }
  }

  /** Hence replacing an absent placeholder leaves the text unchanged. */
  lemma ReplaceAbsent(s: string, p: string, v: string)
    requires |p| > 0
    requires !Contains(s, p)
    ensures ReplaceAll(s, p, v) == s
  {
    SplitWithoutOccurrence(s, p);
  }

  /** No piece produced by `Split` contains the separator: every occurrence was cut. */
  lemma {:induction false} SplitPiecesFree(s: string, p: string)
    requires |p| > 0
    ensures forall k | 0 <= k < |Split(s, p)| :: !Contains(Split(s, p)[k], p)
    decreases |s|
  {
    if |s| < |p| {
      NoRoom(s, p);
    } else if s[..|p|] == p {
      SplitPiecesFree(s[|p|..], p);
      NoRoom([], p);
      var r := Split(s, p);
      assert r == [[]] + Split(s[|p|..], p);
      forall k | 0 <= k < |r| ensures !Contains(r[k], p) {
        if k > 0 {
          assert r[k] == Split(s[|p|..], p)[k - 1];
        }
      }
    } else {
      SplitPiecesFree(s[1..], p);
      var rest := Split(s[1..], p);
      var r := Split(s, p);
      assert r == [[s[0]] + rest[0]] + rest[1..];
      forall k | 0 <= k < |r| ensures !Contains(r[k], p) {
        if k == 0 {
          FirstPieceHead(s, p);
        } else {
          assert r[k] == rest[k];
        }
      }
    }
  }

  lemma NoRoom(s: string, p: string)
    requires |s| < |p|
    ensures !Contains(s, p)
    decreases |s|
  {
    if |s| > 0 {
      NoRoom(s[1..], p);
    }
  }

  /** The first piece of a split never contains the separator. */
  lemma {:induction false} FirstPieceHead(s: string, p: string)
    requires |p| > 0
    ensures !Contains(Split(s, p)[0], p)
    decreases |s|
  {
    if |s| < |p| {
      NoRoom(s, p);
    } else if s[..|p|] == p {
      NoRoom([], p);
    } else {
      FirstPieceHead(s[1..], p);
      var rest := Split(s[1..], p);
      var piece := [s[0]] + rest[0];
      assert Split(s, p)[0] == piece;
      assert piece[1..] == rest[0];
      FirstPieceNoMatchAtStart(s, p);
    }
  }

  /** The first piece is a prefix of `s` that stops where a match starts, so
      when `s` does not start with `p` neither does its first piece. */
  lemma {:induction false} FirstPieceNoMatchAtStart(s: string, p: string)
    requires |p| > 0
    requires |s| >= |p| && s[..|p|] != p
    ensures !StartsWith(Split(s, p)[0], p)
  {
    var piece := Split(s, p)[0];
    FirstPieceIsPrefix(s, p);
  }

  lemma {:induction false} FirstPieceIsPrefix(s: string, p: string)
    requires |p| > 0
    ensures |Split(s, p)[0]| <= |s| && Split(s, p)[0] == s[..|Split(s, p)[0]|]
    decreases |s|
  {
    var f := Split(s, p)[0];
    if |s| < |p| {
      assert f == s == s[..|s|];
    } else if s[..|p|] == p {
      assert f == [] == s[..0];
    } else {
      var g := Split(s[1..], p)[0];
      assert f == [s[0]] + g;
      assert |g| <= |s| - 1 && g == s[1..][..|g|] by {
        FirstPieceIsPrefix(s[1..], p);
      }
      assert [s[0]] + s[1..][..|g|] == s[..|g| + 1];
    }
  }

  /** Decimal digits of a natural number, as `String(n)` renders it. */
  function NatToString(n: nat): (r: string)
    ensures |r| >= 1
    ensures forall k | 0 <= k < |r| :: '0' <= r[k] <= '9'
    decreases n
  {
    if n < 10 then [DigitChar(n)] else NatToString(n / 10) + [DigitChar(n % 10)]
  }

  function DigitChar(d: nat): (c: char)
    requires d < 10
    ensures '0' <= c <= '9' && c as int - '0' as int == d
  {
    ('0' as int + d) as char
  }

  /** The number a string of decimal digits denotes. */
  function DecimalValue(s: string): nat
    requires forall k | 0 <= k < |s| :: '0' <= s[k] <= '9'
  {
    if |s| == 0 then 0
    else 10 * DecimalValue(s[..|s| - 1]) + (s[|s| - 1] as int - '0' as int)
  }

  /** Rendering and reading back a number is the identity. */
  lemma {:induction false} NatToStringRoundTrip(n: nat)
    ensures DecimalValue(NatToString(n)) == n
    decreases n
  {
    if n >= 10 {
      NatToStringRoundTrip(n / 10);
      var s := NatToString(n);
      assert s[..|s| - 1] == NatToString(n / 10);
    }
  }
}

=== FILE: types.dfy ===
/** The records the background engine passes around, after the extension's own type
    declarations: configuration, Gotify messages, Droplink directives and status. */
module Types {
  import opened Wrappers

  /** The Gotify connection settings, plus the history-sync tunables that the
      reconciler reads although the declared type omits them. */
  datatype Config = Config(
    gotifyUrl: string,
    clientToken: string,
    openTabNotification: bool,
    showAllNotifications: bool,
    enableHistorySync: Option<bool>,
    fetchHistoryLimit: Option<int>,
    maxOpenTabs: Option<int>,
    batchOpenInterval: Option<int>,
    showBatchNotification: Option<bool>)

  /** The fixed Gotify server address the defaults point at. */
  const GotifyServerUrl: string := "http://111.228.1.24:2345"

  /** The single definition of the default configuration. */
  const DefaultConfig: Config :=
    Config(GotifyServerUrl, "", false, false, None, None, None, None, None)

  /** A configuration object as stored: every field may be missing or `null`. */
  datatype StoredConfig = StoredConfig(
    gotifyUrl: Option<string>,
    clientToken: Option<string>,
    openTabNotification: Option<bool>,
    showAllNotifications: Option<bool>,
    enableHistorySync: Option<bool>,
    fetchHistoryLimit: Option<int>,
    maxOpenTabs: Option<int>,
    batchOpenInterval: Option<int>,
    showBatchNotification: Option<bool>)

  /** The stored form of an in-memory configuration. */
  function Store(c: Config): (s: StoredConfig)
    ensures s.gotifyUrl == Some(c.gotifyUrl) && s.clientToken == Some(c.clientToken)
  {
    StoredConfig(Some(c.gotifyUrl), Some(c.clientToken), Some(c.openTabNotification),
                 Some(c.showAllNotifications), c.enableHistorySync, c.fetchHistoryLimit,
                 c.maxOpenTabs, c.batchOpenInterval, c.showBatchNotification)
  }

  /** The directive's content (`{type: "url", value}`); a field of another
      JavaScript type is `None`. */
  datatype Content = Content(kind: Option<string>, value: Option<string>)

  /** One action of a directive: its `type` and its optional owner tag `handler`. */
  datatype DroplinkAction = DroplinkAction(kind: Option<string>, handler: Option<string>)

  /** `extras.droplink`. Two generations of the directive share this record:
      the newer `content`/`actions` shape the reconciler filters on, and the
      older `action`/`url`/`options.activate` shape the open-tab handler reads.
      `activate` is `options?.activate`, `None` when either is missing. */
  datatype DroplinkMessage = DroplinkMessage(
    content: Option<Content>,
    actions: Option<seq<DroplinkAction>>,
    action: Option<string>,
    url: Option<string>,
    activate: Option<bool>)

  /** A Gotify message. `date` is the message time already read as a timestamp
      (milliseconds); `droplink` is `extras?.droplink`. */
  datatype GotifyMessage = GotifyMessage(
    id: int,
    appid: int,
    message: string,
    title: string,
    priority: int,
    date: int,
    droplink: Option<DroplinkMessage>)

  /** The connection state of a push client. */
  datatype ConnectionStatus = Disconnected | Connecting | Connected | Reconnecting | Error

  /** The status projection the control surface reports. */
  datatype StatusInfo = StatusInfo(
    status: ConnectionStatus,
    configValid: bool,
    lastConnected: Option<string>,
    error: Option<string>)

  /** A URL as the WHATWG parser decomposes it: `protocol` includes the colon. */
  datatype ParsedUrl = ParsedUrl(protocol: string, host: string, pathname: string)

  /** The WHATWG `new URL(s)` constructor: `None` where it throws. */
  type UrlParser = string -> Option<ParsedUrl>
}

=== FILE: validators.dfy ===
/** Input checks shared by the settings, the connection code and the reconciler:
    server URLs, client tokens, action ownership and directive content. */
module Validators {
  import opened Wrappers
  import opened Text
  import opened Types

  /** `isValidUrl`: a non-empty string whose trimmed form starts with an HTTP(S) scheme. */
  predicate IsValidUrl(url: string) {
    url != [] && (StartsWith(Trim(url), "http://") || StartsWith(Trim(url), "https://"))
  }

  /** True iff `s` is some whitespace followed by text that starts with `scheme`. */
  ghost predicate SchemeAfterWhitespace(s: string, scheme: string) {
    exists k | 0 <= k <= |s| :: IsBlank(s[..k]) && StartsWith(s[k..], scheme)
  }

  /** A scheme prefix survives trimming exactly when the text before it is whitespace. */
  lemma TrimmedStartsWith(s: string, scheme: string)
    requires scheme != [] && !IsJsWhitespace(scheme[0])
    requires !IsJsWhitespace(scheme[|scheme| - 1])
    ensures StartsWith(Trim(s), scheme) <==> SchemeAfterWhitespace(s, scheme)
  {
    if StartsWith(Trim(s), scheme) {
      TrimmedStartsWithForward(s, scheme);
    }
    if SchemeAfterWhitespace(s, scheme) {
      var k :| 0 <= k <= |s| && IsBlank(s[..k]) && StartsWith(s[k..], scheme);
      TrimmedStartsWithBackward(s, scheme, k);
    }
  }

  lemma TrimmedStartsWithForward(s: string, scheme: string)
    requires StartsWith(Trim(s), scheme)
    ensures SchemeAfterWhitespace(s, scheme)
  {
    var a := TrimStart(s);
    var k0 := |s| - |a|;
    var t := TrimEnd(a);
    assert t == Trim(s);
    assert a[..|scheme|] == t[..|scheme|];
    assert s[k0..] == a;
    assert IsBlank(s[..k0]);
  }

  lemma TrimmedStartsWithBackward(s: string, scheme: string, k: nat)
    requires scheme != [] && !IsJsWhitespace(scheme[0])
    requires !IsJsWhitespace(scheme[|scheme| - 1])
    requires k <= |s| && IsBlank(s[..k]) && StartsWith(s[k..], scheme)
    ensures StartsWith(Trim(s), scheme)
  {
    var a := s[k..];
    assert TrimStart(s) == a by {
      assert s[k] == a[0] == scheme[0];
      TrimStartAt(s, k);
    }
    var t := TrimEnd(a);
    var e := |scheme| - 1;
    assert |t| > e by {
      assert a[e] == scheme[e];
    }
    assert t[..|scheme|] == a[..|scheme|] by {
      assert t == a[..|t|];
    }
  }

  /** `isValidUrl` described without trimming: the input is optional whitespace
      followed by `http://` or `https://`. */
  lemma IsValidUrlCharacterised(url: string)
    ensures IsValidUrl(url) <==>
              SchemeAfterWhitespace(url, "http://") || SchemeAfterWhitespace(url, "https://")
  {
    TrimmedStartsWith(url, "http://");
    TrimmedStartsWith(url, "https://");
  }

  /** `isValidGotifyUrl`: `isValidUrl`, and the WHATWG parser accepts the untrimmed text. */
  predicate IsValidGotifyUrl(url: string, parse: UrlParser) {
    IsValidUrl(url) && parse(url).Some?
  }

  /** A character of the class `[A-Za-z0-9._-]`. */
  predicate IsTokenChar(c: char) {
    ('A' <= c <= 'Z') || ('a' <= c <= 'z') || ('0' <= c <= '9') || c == '.' || c == '_' || c == '-'
  }

  /** The regular expression `/^[A-Za-z0-9._-]+$/`, matched left to right. */
  predicate MatchesTokenPattern(s: string)
    decreases |s|
  {
    |s| >= 1 && IsTokenChar(s[0]) && (|s| == 1 || MatchesTokenPattern(s[1..]))
  }

  /** `\1+` after the group `(.)` captured `c`: one or more further copies of `c`. */
  predicate RepeatsChar(s: string, c: char)
    decreases |s|
  {
    |s| >= 1 && s[0] == c && (|s| == 1 || RepeatsChar(s[1..], c))
  }

  /** The regular expression `/^(.)\1+$/`: a character followed by at least one copy of it
      (`.` excludes line terminators). */
  predicate MatchesRepeatPattern(s: string) {
    |s| >= 2 && s[0] != '\n' && s[0] != '\r' && s[0] != '\U{2028}' && s[0] != '\U{2029}'
    && RepeatsChar(s[1..], s[0])
  }

  /** `isValidToken`. */
  predicate IsValidToken(token: string) {
    var t := Trim(token);
    |t| >= 10 && MatchesTokenPattern(t) && !MatchesRepeatPattern(t)
  }

  lemma {:induction false} TokenPatternAllChars(s: string)
    ensures MatchesTokenPattern(s) <==> |s| >= 1 && forall k | 0 <= k < |s| :: IsTokenChar(s[k])
    decreases |s|
  {
    if |s| > 1 {
      TokenPatternAllChars(s[1..]);
      if forall k | 0 <= k < |s| :: IsTokenChar(s[k]) {
        assert forall k | 0 <= k < |s[1..]| :: IsTokenChar(s[1..][k]) by {
          forall k | 0 <= k < |s[1..]| ensures IsTokenChar(s[1..][k]) {
            assert s[1..][k] == s[k + 1];
          }
        }
      }
      if MatchesTokenPattern(s) {
        forall k | 0 <= k < |s| ensures IsTokenChar(s[k]) {
          if k > 0 {
            assert s[k] == s[1..][k - 1];
          }
        }
      }
    }
  }

  lemma {:induction false} RepeatsCharAll(s: string, c: char)
    ensures RepeatsChar(s, c) <==> |s| >= 1 && forall k | 0 <= k < |s| :: s[k] == c
    decreases |s|
  {
    if |s| > 1 {
      RepeatsCharAll(s[1..], c);
      if forall k | 0 <= k < |s| :: s[k] == c {
        assert forall k | 0 <= k < |s[1..]| :: s[1..][k] == c by {
          forall k | 0 <= k < |s[1..]| ensures s[1..][k] == c {
            assert s[1..][k] == s[k + 1];
          }
        }
      }
      if RepeatsChar(s, c) {
        forall k | 0 <= k < |s| ensures s[k] == c {
          if k > 0 {
            assert s[k] == s[1..][k - 1];
          }
        }
      }
    }
  }

  /** `isValidToken` described by the three properties the settings promise: after
      trimming, at least 10 characters, all from `[A-Za-z0-9._-]`, and not one
      character repeated throughout. */
  lemma TokenValidityCharacterised(token: string)
    ensures IsValidToken(token) <==>
              var t := Trim(token);
              && |t| >= 10
              && (forall k | 0 <= k < |t| :: IsTokenChar(t[k]))
              && (exists k | 0 <= k < |t| :: t[k] != t[0])
  {
    var t := Trim(token);
    TokenPatternAllChars(t);
    if |t| >= 2 {
      RepeatsCharAll(t[1..], t[0]);
      if forall k | 0 <= k < |t| :: t[k] == t[0] {
        assert forall k | 0 <= k < |t[1..]| :: t[1..][k] == t[0] by {
          forall k | 0 <= k < |t[1..]| ensures t[1..][k] == t[0] {
            assert t[1..][k] == t[k + 1];
          }
        }
      } else {
        var k :| 0 <= k < |t| && t[k] != t[0];
        assert t[1..][k - 1] == t[k];
      }
    }
  }

  /** A token whose trimmed form is one character repeated throughout is
      rejected, however long it is. */
  lemma RepeatedTokenRejected(token: string, c: char)
    requires forall k | 0 <= k < |Trim(token)| :: Trim(token)[k] == c
    ensures !IsValidToken(token)
  {
    TokenValidityCharacterised(token);
  }

  /** Whitespace around a token never changes whether it is accepted. */
  lemma TokenPaddingIgnored(pre: string, token: string, post: string)
    requires IsBlank(pre) && IsBlank(post)
    requires token != [] && !IsJsWhitespace(token[0]) && !IsJsWhitespace(token[|token| - 1])
    ensures IsValidToken(pre + token + post) <==> IsValidToken(token)
  {
    TrimPadded(pre, token, post);
    TrimPadded([], token, []);
    assert [] + token + [] == token;
  }

  /** `shouldHandleByChrome`: an action without an owner tag, with a blank one,
      or tagged `chrome` in any letter case, belongs to this extension. */
  predicate ShouldHandleByChrome(handler: Option<string>) {
    match handler
    case None => true
    case Some(h) => Trim(h) == [] || Lower(Trim(h)) == "chrome"
  }

  /** `isActionForChrome`. */
  predicate IsActionForChrome(action: DroplinkAction) {
    ShouldHandleByChrome(action.handler)
  }

  /** Ownership in terms of the tag's characters: absent, whitespace only, or
      the six letters of `chrome` in any case with optional surrounding whitespace. */
  lemma ChromeOwnershipCharacterised(handler: Option<string>)
    ensures ShouldHandleByChrome(handler) <==>
              || handler.None?
              || IsBlank(handler.value)
              || (var t := Trim(handler.value);
                  |t| == 6 && forall k | 0 <= k < 6 :: LowerChar(t[k]) == "chrome"[k])
  {
    if handler.Some? {
      TrimEmptyIffBlank(handler.value);
      var t := Trim(handler.value);
      if |t| == 6 && forall k | 0 <= k < 6 :: LowerChar(t[k]) == "chrome"[k] {
        assert Lower(t) == "chrome";
      }
    }
  }

  /** A blank owner tag, empty or whitespace only, counts as this extension's. */
  lemma BlankOwnerIsChrome(h: string)
    requires IsBlank(h)
    ensures ShouldHandleByChrome(Some(h))
  {
    TrimEmptyIffBlank(h);
  }

  /** The tag comparison ignores letter case and surrounding whitespace: any
      spelling of `chrome`, padded with whitespace, belongs to this extension. */
  lemma MixedCaseChromeOwner(pre: string, h: string, post: string)
    requires IsBlank(pre) && IsBlank(post)
    requires Lower(h) == "chrome"
    ensures ShouldHandleByChrome(Some(pre + h + post))
  {
    ChromeSpellingTrimmed(pre, h, post);
  }

  /** A letter-case spelling of `chrome` padded with whitespace trims to itself. */
  lemma ChromeSpellingTrimmed(pre: string, h: string, post: string)
    requires IsBlank(pre) && IsBlank(post)
    requires Lower(h) == "chrome"
    ensures Trim(pre + h + post) == h
  {
    var w := "chrome";
    assert |w| == 6 && w[0] == 'c' && w[5] == 'e';
    PaddedLoweredTrimmed(pre, h, post, w);
  }

  /** An action owned by another consumer is not this extension's: a tag that
      is no letter-case spelling of "chrome", with any whitespace around it. */
  lemma ForeignOwnerRejected(pre: string, h: string, post: string)
    requires IsBlank(pre) && IsBlank(post)
    requires h != [] && !IsJsWhitespace(h[0]) && !IsJsWhitespace(h[|h| - 1])
    requires Lower(h) != "chrome"
    ensures !ShouldHandleByChrome(Some(pre + h + post))
  {
    TrimPadded(pre, h, post);
  }

  /** `isValidDroplinkUrl`: url content whose string value is not blank and whose
      untrimmed value starts with an HTTP(S) scheme. */
  predicate IsValidDroplinkUrl(content: Option<Content>) {
    && content.Some?
    && content.value.kind == Some("url")
    && content.value.value.Some?
    && Trim(content.value.value.value) != []
    && (StartsWith(content.value.value.value, "http://")
        || StartsWith(content.value.value.value, "https://"))
  }

  /** The scheme check on the untrimmed value already rules out blank values:
      leading whitespace fails it, and a scheme is not blank. */
  lemma DroplinkUrlScheme(content: Option<Content>)
    ensures IsValidDroplinkUrl(content) <==>
              && content.Some? && content.value.kind == Some("url")
              && content.value.value.Some?
              && (StartsWith(content.value.value.value, "http://")
                  || StartsWith(content.value.value.value, "https://"))
  {
    if content.Some? && content.value.value.Some? {
      var v := content.value.value.value;
      if StartsWith(v, "http://") || StartsWith(v, "https://") {
        SchemeNotBlank(v);
      }
    }
  }

  lemma SchemeNotBlank(v: string)
    requires StartsWith(v, "http://") || StartsWith(v, "https://")
    ensures Trim(v) != []
  {
    assert v[0] == 'h' by {
      if StartsWith(v, "http://") {
        assert v[..7][0] == v[0];
      } else {
        assert v[..8][0] == v[0];
      }
    }
    TrimEmptyIffBlank(v);
  }

  /** `actions.some(a => a.type === "openTab" && isActionForChrome(a))`, evaluated
      element by element as `Array.prototype.some` does. */
  predicate SomeOpenTabForChrome(actions: seq<DroplinkAction>)
    decreases |actions|
  {
    |actions| > 0
    && ((actions[0].kind == Some("openTab") && IsActionForChrome(actions[0]))
        || SomeOpenTabForChrome(actions[1..]))
  }

  /** `hasOpenTabAction`: missing actions yield `undefined`, which is falsy. */
  predicate HasOpenTabAction(actions: Option<seq<DroplinkAction>>) {
    actions.Some? && SomeOpenTabForChrome(actions.value)
  }

  lemma {:induction false} HasOpenTabActionCharacterised(actions: Option<seq<DroplinkAction>>)
    ensures HasOpenTabAction(actions) <==>
              actions.Some? &&
              exists i | 0 <= i < |actions.value| ::
                actions.value[i].kind == Some("openTab") && IsActionForChrome(actions.value[i])
  {
    if actions.Some? {
      SomeOpenTabIff(actions.value);
    }
  }

  lemma {:induction false} SomeOpenTabIff(a: seq<DroplinkAction>)
    ensures SomeOpenTabForChrome(a) <==>
              exists i | 0 <= i < |a| :: a[i].kind == Some("openTab") && IsActionForChrome(a[i])
    decreases |a|
  {
    if |a| > 0 {
      SomeOpenTabIff(a[1..]);
      if exists i | 0 <= i < |a| :: a[i].kind == Some("openTab") && IsActionForChrome(a[i]) {
        var i :| 0 <= i < |a| && a[i].kind == Some("openTab") && IsActionForChrome(a[i]);
        if i > 0 {
          assert a[1..][i - 1] == a[i];
        }
      }
      if SomeOpenTabForChrome(a[1..]) {
        var i :| 0 <= i < |a[1..]| && a[1..][i].kind == Some("openTab") && IsActionForChrome(a[1..][i]);
        assert a[i + 1] == a[1..][i];
      }
    }
  }
}

=== FILE: wrappers.dfy ===
/** Failure-compatible wrappers shared by every module of the model. */
module Wrappers {

  /** A value that may be absent: JavaScript's `undefined`/`null` for an optional field. */
  datatype Option<+T> = None | Some(value: T) {

    /** The wrapped value, or `default` when absent (JavaScript's `x ?? default`). */
    function GetOr(default: T): T {
      match this
      case Some(v) => v
      case None => default
    }
  }

  /** The outcome of an operation that resolves with a value or rejects with an error text. */
  datatype Result<+R> = Ok(value: R) | Err(error: string) {

    predicate IsFailure() {
      Err?
    }

    function PropagateFailure<U>(): Result<U>
      requires Err?
    {
      Err(error)
    }

    function Extract(): R
      requires Ok?
    {
      value
    }
  }

  /** A truthy optional flag: JavaScript's `if (flag)` on a `boolean | undefined`. */
  predicate IsSet(flag: Option<bool>) {
    flag == Some(true)
  }
}
